=== FILE: README.md ===
# Student Management System — a Dafny model

This project models the Student Management System in Dafny. The system is a MongoDB/Express service
that stores competitive-programming students, plus the React dashboard that lists and edits them.

The server side is modelled as pure functions over a map from ids to stored documents:
- the Mongoose schema, with its setters (trim, lower-case), validators (required, match, min) and defaults;
- the five controller operations, with their status codes and messages;
- the Express router that dispatches to them.

The client side is modelled as state transitions and render functions over plain JavaScript
objects (`Js.Record`, a map whose missing keys read `undefined`):
- the student table (search, tier badges, CSV export, add/edit/delete reducers);
- the top-level page state;
- the profile page with its three tabs;
- the contest, problem-solving and sync-settings panels;
- the add, edit and confirmation dialogs;
- the mock API service the client actually calls.

Modules, one per source unit:
- **Server:** `StudentSchema` and `EmailPattern` (the model), `StudentStore` (the controller), `StudentRoutes` (the router).
- **Client:** `StudentTable`, `AppState`, `StudentProfile`, `ContestHistory`, `ProblemSolving`, `FilterButtons`, `SyncSettings`, `AddStudentModal`, `EditStudentModal`, `ConfirmationModal`, `MockApi`.
- **Shared helpers:**
  - `Wrappers`: `Option` and `Result`.
  - `Ascii`: character classes, case mapping, trimming, decimal printing and `parseInt`.
  - `Js`: JavaScript values, truthiness, `||`, `===` and object spread.
  - `Lists`: `filter` and `map`.

Things the environment decides are parameters:
- On the server, an `Env` gives the clock, the id a new document receives, and whether the store throws.
- On the client, the current time, the ISO date strings and the `Math.random` draws are parameters.

## Behaviour as written

The model follows the code. These are the places where the code's behaviour is easy to misread:

**Server**
- A store error inside create or update answers 400 with the error's message, not 500. Both handlers send every non-duplicate error to the 400 branch (`server/controllers/studentController.js:29-35`, `51-57`).
- Update validators run before the lookup, so an invalid patch to a missing id answers 400, and only a valid patch to a missing id answers 404 (`StudentStore.Update`).
- An empty phone number is accepted. The `match` validator skips the empty string.

**Client: loading and data**
- A failed fetch does not leave a spinner showing forever. Every panel clears `loading` in its `catch`.
- The mock service's records carry `id`, `phone` and `cfHandle`. The server's documents carry `_id`, `phoneNumber` and `codeforcesHandle`. The table reads the server's names and the profile card the mock's names, so whichever key a record lacks reads `undefined`.
- The profile page passes the panels the number `student.id`. The mock service compares with the string `'1'`, so both panels always show the second student's figures (`MockApi.ProfilePanelsIgnoreId`).
- Each of the contest panel's three periods keeps both canned contests (`MockApi.PeriodsShowBoth`).

**Client: table and dialogs**
- The mock service has no `deleteStudent`. When the bundler resolves the missing named import to `undefined`, the table's delete confirmation can only reach its 'Delete failed' alert; under native ES-module linking the table's module fails to load at all. `StudentTable.DeleteConfirmed` models both outcomes of the call.
- The table's add, edit and delete callbacks write a list the table never renders (`allStudents`). The reducers are modelled as written.
- The edit callback matches on `id` and the delete callback on `_id`.
- The add dialog resets its form to four fields after a success, so the two rating inputs lose their value.

## Model

| member | source | states |
|---|---|---|
| StudentSchema.NormalizeEmailIdempotent | server/models/Student.js:13-14 | the stored e-mail (trimmed, then lower-cased) has no surrounding white space and no upper-case letter, so the setters applied again change nothing |
| StudentSchema.Validate | server/models/Student.js:3-38 | document validation succeeds exactly when the body is acceptable (name present and non-blank, e-mail present, non-empty and matching the pattern after trim/lower-case, phone empty or 10–15 digits, ratings absent or non-negative); a failure always lists at least one error |
| StudentSchema.ValidateStores | server/models/Student.js:4-35 | an accepted body is stored with the name, phone and handle trimmed, the e-mail trimmed and lower-cased, and an absent rating defaulted to 0 |
| StudentSchema.ValidateValid | server/models/Student.js:3-38 | whatever validation accepts satisfies every rule a stored document keeps |
| StudentSchema.ValidateReports | server/models/Student.js:6-35 | each validator (name required, e-mail required, e-mail pattern, phone pattern, current and maximum rating min 0) is reported exactly when its rule is broken by the raw body |
| StudentSchema.ErrorsEmpty | server/models/Student.js:6-34 | the error list is empty exactly when no path reports an error |
| StudentSchema.ErrorsMembers | server/models/Student.js:6-35 | each error kind (name required, e-mail required or invalid, phone invalid, current or maximum rating below 0) appears in the list exactly when its path's validator fails |
| StudentSchema.NamePathOk | server/models/Student.js:4-8 | the name path passes exactly when it is present and not blank after trimming |
| StudentSchema.EmailPathOk | server/models/Student.js:9-16 | the e-mail path passes exactly when it is present and its trimmed, lower-cased form is non-empty and matches the pattern |
| StudentSchema.PhonePathOk | server/models/Student.js:17-21 | the phone path passes exactly when it is absent or its trimmed value is empty or 10–15 digits |
| StudentSchema.StoredAcceptable | server/models/Student.js:3-38 | a stored document, re-submitted as a body, is acceptable |
| StudentSchema.NormalizeFixed | server/models/Student.js:7-24 | the setters leave a stored document's values unchanged |
| StudentSchema.TrimOptFixed | server/models/Student.js:19-24 | the trim setter leaves an absent path, or a present value without white space at its ends, unchanged |
| StudentSchema.StoredNoErrors | server/models/Student.js:6-34 | no validator fails on a stored document's own values |
| StudentSchema.ValidateRoundTrip | server/models/Student.js:3-38 | validating a stored document's own values gives that document back |
| StudentSchema.ValidatePatch | server/models/Student.js:3-38 | update validation succeeds exactly when every path present in the patch passes its rule (name non-blank, e-mail matching after trim/lower-case, phone empty or 10–15 digits, ratings non-negative); success carries the setters applied to the present paths, and a failure lists at least one error |
| StudentSchema.PatchAcceptableWeaker | server/models/Student.js:3-38 | a body that passes document validation also passes update validation, and so does the empty patch |
| StudentSchema.Merge | server/controllers/studentController.js:40-44 | a path present in the patch overwrites the stored value; every path absent from the patch is kept as it was |
| StudentSchema.MergeValid | server/controllers/studentController.js:40-44 | a patch that passes update validation keeps a valid document valid |
| EmailPattern.EmailIff | server/models/Student.js:15 | the e-mail regular expression accepts exactly the strings made of a dotted local part, one `@`, and a dotted domain ending in `.` plus two or three word characters |
| EmailPattern.DomainIff | server/models/Student.js:15 | the domain part of the pattern accepts exactly the dotted names whose last group is `.` plus two or three word characters |
| EmailPattern.DottedIff | server/models/Student.js:15 | `\w+([\.-]?\w+)*` accepts exactly word-character runs joined by single `.` or `-` |
| EmailPattern.TldGroupsShape | server/models/Student.js:15 | `(\.\w{2,3})+` only matches text that starts with `.`, is joined, and ends in a two- or three-character group |
| EmailPattern.FlatDomainSplits | server/models/Student.js:15 | a domain of the flat shape splits into a dotted name and one final `(\.\w{2,3})` group |
| EmailPattern.PiecesJoined | server/models/Student.js:15 | every match of `([\.-]?\w+)*` is joined text |
| EmailPattern.JoinedPieces | server/models/Student.js:15 | every joined text is a match of `([\.-]?\w+)*` |
| EmailPattern.SplitFromWitness | server/models/Student.js:15 | the scan for the `@` succeeds only at an `@` that splits the address into a valid local part and domain |
| EmailPattern.SplitFromFinds | server/models/Student.js:15 | the scan finds every `@` that splits the address that way |
| EmailPattern.Examples | server/models/Student.js:15 | `a@b.com` matches the pattern and `bad` does not |
| StudentStore.Status | server/controllers/studentController.js:8-68 | every reply's status is 200, 400, 404 or 500, and it is 400 exactly for a duplicate e-mail or a refused create/update |
| StudentStore.ErrorText | server/controllers/studentController.js:16-66 | a duplicate e-mail has exactly the text 'Email already exists', a missing record exactly 'Student not found', and no other outcome carries a fixed text |
| StudentStore.List | server/controllers/studentController.js:3-10 | a store error answers 500 with its message; otherwise the reply lists every stored record exactly once, newest `createdAt` first |
| StudentStore.InsertNewestFirst | server/controllers/studentController.js:5 | inserting a record into a newest-first list keeps it newest-first |
| StudentStore.Insert | server/controllers/studentController.js:5 | insertion adds exactly the one record to the list's elements |
| StudentStore.Get | server/controllers/studentController.js:12-22 | the reply is the stored record exactly when the id is stored and the store does not throw; a missing id answers 404 'Student not found'; a store error answers 500 |
| StudentStore.Save | server/controllers/studentController.js:26-34 | the insert succeeds exactly when no record already has that e-mail and the new id is free; a duplicate answers 'Email already exists' with the store unchanged; a store error answers 400 |
| StudentStore.Create | server/controllers/studentController.js:24-36 | a body failing validation answers 400 with the errors and changes nothing; a valid one goes on to the insert; success implies the body was acceptable |
| StudentStore.CreateStores | server/controllers/studentController.js:24-36 | a created record holds exactly the normalised body, with the ratings defaulted |
| StudentStore.CreateValid | server/controllers/studentController.js:24-36 | every create keeps every record schema-valid and all e-mails unique |
| StudentStore.SaveValid | server/controllers/studentController.js:26-27 | inserting a valid document keeps the store valid |
| StudentStore.DuplicateIgnoresCase | server/models/Student.js:12-14 | an e-mail that differs from a stored one only in case or surrounding spaces is refused as a duplicate |
| StudentStore.Apply | server/controllers/studentController.js:40-50 | after validation, a missing id answers 404, an e-mail held by another record answers 'Email already exists', and success overwrites only the patched paths and stamps `updatedAt` |
| StudentStore.Update | server/controllers/studentController.js:38-58 | a patch failing validation answers 400 and changes nothing; otherwise the normalised patch is applied |
| StudentStore.UpdateStoresPatch | server/controllers/studentController.js:38-58 | a successful update had an acceptable patch and an existing id, and the record then holds each present path normalised (trimmed, e-mail lower-cased) and each absent path unchanged |
| StudentStore.ApplyValid | server/controllers/studentController.js:40-44 | applying a validated patch keeps the store valid |
| StudentStore.UpdateValid | server/controllers/studentController.js:38-58 | every update keeps the store valid |
| StudentStore.UpdateOwnEmail | server/controllers/studentController.js:38-58 | re-submitting a record's own e-mail is not a duplicate: the update succeeds |
| StudentStore.Delete | server/controllers/studentController.js:60-70 | a stored id is removed (and only it) with 'Student deleted successfully'; a missing id answers 404; a store error answers 500 |
| StudentStore.DeleteValid | server/controllers/studentController.js:60-70 | deleting keeps the store valid |
| StudentStore.DeleteTwice | server/controllers/studentController.js:60-70 | deleting the same id a second time answers 404 |
| StudentStore.CreateThenGet | server/controllers/studentController.js:12-36 | a record just created reads back as the created record |
| StudentStore.PutKeepsRecordsValid | server/models/Student.js:3-38 | writing a schema-valid record under its own id keeps every record valid |
| StudentStore.PutKeepsEmailsUnique | server/models/Student.js:12 | writing a record whose e-mail no other record holds keeps e-mails unique |
| StudentRoutes.IdParam | server/routes/studentRoutes.js:6-9 | `/:id` matches exactly one non-empty segment, with an optional trailing slash, and yields that segment |
| StudentRoutes.FirstMatch | server/routes/studentRoutes.js:5-9 | the chosen handler is one of the registered routes' handlers |
| StudentRoutes.Dispatch | server/routes/studentRoutes.js:5-9 | any dispatched handler comes from the route table |
| StudentRoutes.DispatchExplicit | server/routes/studentRoutes.js:5-9 | the routes are tried in registration order, the first match wins |
| StudentRoutes.DispatchCases | server/routes/studentRoutes.js:5-9 | GET/HEAD `/` lists, POST `/` creates, GET/HEAD, PUT and DELETE `/:id` read, update and delete that id, and every other method and path is unrouted |
| StudentRoutes.Handle | server/routes/studentRoutes.js:5-9 | a request runs exactly the controller operation of its route: GET or HEAD `/` lists every record once, newest first, GET or HEAD `/:id` reads that id, POST, PUT and DELETE create, update and delete; unrouted requests and reads leave the store unchanged; every request keeps a valid store valid |
| StudentTable.Search | client/src/components/StudentTable.jsx:23-27 | the shown students are those whose name, e-mail or handle contains the search term ignoring case, in their original order, each as often as it occurs in the list |
| StudentTable.SearchEmptyKeepsAll | client/src/components/StudentTable.jsx:23-27 | an empty search box shows every student |
| StudentTable.SearchIgnoresCase | client/src/components/StudentTable.jsx:23-27 | lower-casing the term does not change the result |
| StudentTable.SearchExample | client/src/components/StudentTable.jsx:23-27 | among John Doe and Jane Smith, "jan" keeps only Jane |
| StudentTable.TierBands | client/src/components/StudentTable.jsx:129-135 | a rating gets a badge tier exactly when it reaches that tier's threshold and not the next one |
| StudentTable.TierOf | client/src/components/StudentTable.jsx:129-135 | a rating is red exactly when it reaches 2100, gray exactly when it does not reach 1200, and any other tier's floor is reached; a value that converts to `NaN` reaches nothing and is gray |
| StudentTable.TierMonotone | client/src/components/StudentTable.jsx:129-135 | a higher rating never gets a lower badge |
| StudentTable.RatingCell | client/src/components/StudentTable.jsx:137 | a truthy rating is shown as is, a falsy one as 'N/A' |
| StudentTable.RatingCellZero | client/src/components/StudentTable.jsx:137 | a rating of 0 or an absent rating shows 'N/A'; a positive one shows itself |
| StudentTable.DateCell | client/src/components/StudentTable.jsx:153 | the date column shows 'Never' exactly for a falsy timestamp, and the locale-formatted timestamp itself for a truthy one |
| StudentTable.CsvRow | client/src/components/StudentTable.jsx:45-53 | each CSV row has seven cells from the server's field names: name, e-mail, phone and handle as stored, each rating as the table's rating cell (the value, or 'N/A' when falsy), and the update time as the date column ('Never' when falsy) |
| StudentTable.CsvRowDistinguishes | client/src/components/StudentTable.jsx:45-53 | with truthy ratings and update times, two records export the same row exactly when the seven exported keys agree; a falsy current rating exports the same 'N/A' whichever falsy value it was |
| StudentTable.CsvData | client/src/components/StudentTable.jsx:43-54 | the CSV is the header followed by one row per student of the unfiltered list, in order |
| StudentTable.Page | client/src/components/StudentTable.jsx:56-62 | the page shows the spinner exactly while loading, then 'No students found' exactly when the search keeps nobody, otherwise the filtered rows |
| StudentTable.Added | client/src/components/StudentTable.jsx:194 | adding appends the new student at the end and keeps the rest |
| StudentTable.Edited | client/src/components/StudentTable.jsx:204 | editing replaces exactly the entries whose `id` is strictly equal to the updated student's `id` |
| StudentTable.EditedIdempotent | client/src/components/StudentTable.jsx:204 | replacing with the same record twice is replacing once |
| StudentTable.EditedWithoutId | client/src/components/StudentTable.jsx:204 | with records that carry no `id`, every entry matches and the whole list becomes the updated record |
| StudentTable.Deleted | client/src/components/StudentTable.jsx:214 | deleting keeps, in order and with their number of occurrences, exactly the entries whose `_id` is not strictly equal to the id |
| StudentTable.DeletedIdempotent | client/src/components/StudentTable.jsx:214 | deleting the same id twice is deleting once |
| StudentTable.DeletedWithoutUnderscoreId | client/src/components/StudentTable.jsx:214 | deleting a record without `_id` empties a list of records without `_id` |
| StudentTable.DeleteConfirmed | client/src/components/StudentTable.jsx:207-219 | a successful delete alerts 'Student Deleted' and drops exactly the entries sharing the selected `_id`, keeping every other entry as often as it occurred; a failed one alerts 'Delete failed' and keeps the list |
| AppState.Init | client/src/App.jsx:10-12 | the page starts with no students, loading, and no last-update time |
| AppState.LoadSucceeded | client/src/App.jsx:17-21 | a load shows the fetched list, records the time and ends loading |
| AppState.LoadFailed | client/src/App.jsx:22-25 | a failed load only ends loading |
| AppState.SyncSucceeded | client/src/App.jsx:30-35 | a sync replaces exactly the entries whose `id` is strictly equal to the synced id, leaving loading and the last-update time |
| AppState.SyncFailed | client/src/App.jsx:36-38 | a failed sync changes nothing |
| AppState.LoadEndsLoading | client/src/App.jsx:15-28 | whatever the load's outcome the spinner goes; a failed first load leaves the list empty |
| AppState.SyncIdempotent | client/src/App.jsx:30-35 | syncing the same record twice is syncing it once |
| StudentProfile.Init | client/src/components/StudentProfile.jsx:11-15 | the profile starts loading, with no student, on the contest tab, with periods '30' and '7' |
| StudentProfile.FetchDone | client/src/components/StudentProfile.jsx:19-25 | the fetched record is shown and loading ends; tab and filters are kept |
| StudentProfile.FetchFailed | client/src/components/StudentProfile.jsx:25-28 | a failed fetch only ends loading |
| StudentProfile.ClickTab | client/src/components/StudentProfile.jsx:125-151 | a tab button selects its tab and changes nothing else |
| StudentProfile.SetContestFilter | client/src/components/StudentProfile.jsx:160 | the contest panel's filter callback sets only the contest period |
| StudentProfile.SetProblemFilter | client/src/components/StudentProfile.jsx:167 | the problem panel's filter callback sets only the problem period |
| StudentProfile.Box | client/src/components/StudentProfile.jsx:89-97 | a header rating shows 'N/A' exactly when it is falsy, a rating of 2100 or more is red, and a falsy one is gray |
| StudentProfile.CardOf | client/src/components/StudentProfile.jsx:54-116 | the card shows the record's name, e-mail, `phone` and `cfHandle`, its `lastUpdated` through the table's date cell ('Never' exactly when falsy, otherwise formatted), and the current and maximum rating boxes built from `currentRating` and `maxRating` |
| StudentProfile.ProfileRatingsAsTable | client/src/components/StudentProfile.jsx:89-110 | the profile's two rating boxes show the rating or 'N/A' with the table's tier colour, and a falsy rating is a gray 'N/A' |
| StudentProfile.Render | client/src/components/StudentProfile.jsx:33-172 | spinner exactly while loading, 'not found' exactly when loaded without a student, otherwise the card and exactly the active tab's panel with the student's id and period |
| StudentProfile.LoadThenClick | client/src/components/StudentProfile.jsx:11-172 | from the first render: spinner, then the profile on the contest tab (or 'not found'), and a tab click shows that tab's panel |
| StudentProfile.BoxMonotone | client/src/components/StudentProfile.jsx:89-110 | the header colours ratings with the table's thresholds, so a higher rating never gets a lower colour |
| ContestHistory.Init | client/src/components/ContestHistory.jsx:9-10 | the panel starts with no contests, loading |
| ContestHistory.LoadDone | client/src/components/ContestHistory.jsx:14-20 | the fetched contests are shown and loading ends |
| ContestHistory.LoadFailed | client/src/components/ContestHistory.jsx:20-23 | a failed fetch keeps the contests and ends loading |
| ContestHistory.ChartOf | client/src/components/ContestHistory.jsx:28-39 | the chart has one point per contest: its name as label, its new rating as value, in order |
| ContestHistory.ChangeText | client/src/components/ContestHistory.jsx:158-159 | the change is shown with '+' exactly when it is zero or positive, and '-' exactly when it is negative |
| ContestHistory.BadgeOf | client/src/components/ContestHistory.jsx:153-157 | the change badge is green exactly when the change is zero or positive |
| ContestHistory.ChangeTextRoundTrip | client/src/components/ContestHistory.jsx:153-159 | the displayed change reads back as the change, and the badge colour agrees with the sign shown |
| ContestHistory.PlusRoundTrip | client/src/components/ContestHistory.jsx:158-159 | a '+' followed by a natural number reads back as that number |
| ContestHistory.TableOf | client/src/components/ContestHistory.jsx:132-173 | one row per contest in order, or the 'No contests found' row exactly when there are none |
| ContestHistory.RowOf | client/src/components/ContestHistory.jsx:133-164 | a row shows the contest's own id, name, time, rank and solved counts, the change as text that `parseInt` reads back as the change, and a green badge exactly when that text starts with '+' |
| ContestHistory.Render | client/src/components/ContestHistory.jsx:71-110 | spinner exactly while loading; otherwise the chart and table of the contests and the three period buttons '30', '90', '365' with their captions, each highlighted exactly when it is the current filter |
| ContestHistory.PanelAfterLoad | client/src/components/ContestHistory.jsx:14-110 | whatever the fetch's outcome the panel shows; a failed first fetch shows no contests; a button click emits one period and exactly that button is highlighted |
| FilterButtons.Buttons | client/src/components/ContestHistory.jsx:84-110 | one button per option, in order, highlighted exactly when its value is the current filter |
| FilterButtons.Click | client/src/components/ContestHistory.jsx:85-103 | clicking a button emits that button's own option value |
| FilterButtons.AtMostOneActive | client/src/components/ProblemSolvingData.jsx:97-123 | with distinct option values at most one button is highlighted, and after a click exactly the clicked one |
| ProblemSolving.Bucket | client/src/components/ProblemSolvingData.jsx:176 | the colour step of a day is at most 4, and not negative for a non-negative count |
| ProblemSolving.BucketBands | client/src/components/ProblemSolvingData.jsx:176 | counts 5k to 5k+4 get step k below 4, and every count from 20 on gets step 4 |
| ProblemSolving.BucketMonotone | client/src/components/ProblemSolvingData.jsx:176 | more submissions never give a lighter colour; 0 to 4 give step 0 and 20 or more step 4 |
| ProblemSolving.ClassFor | client/src/components/ProblemSolvingData.jsx:172-177 | a missing value is 'color-empty', otherwise 'color-scale-' followed by the day's step |
| ProblemSolving.Tooltip | client/src/components/ProblemSolvingData.jsx:178-184 | no tooltip exactly without a value or a date, otherwise the text starts with the date and ': ', ends with ' problems solved', and between them holds the count in decimal |
| ProblemSolving.TooltipCount | client/src/components/ProblemSolvingData.jsx:182 | the count written in a tooltip parses back to the day's count |
| ProblemSolving.BarsOf | client/src/components/ProblemSolvingData.jsx:30-39 | the bar chart has one bar per rating range: its range as label, its count as value, in order |
| ProblemSolving.Init | client/src/components/ProblemSolvingData.jsx:11-12 | the panel starts with no data, loading |
| ProblemSolving.LoadDone | client/src/components/ProblemSolvingData.jsx:16-22 | the fetched data is shown and loading ends |
| ProblemSolving.LoadFailed | client/src/components/ProblemSolvingData.jsx:22-25 | a failed fetch keeps the data and ends loading |
| ProblemSolving.Render | client/src/components/ProblemSolvingData.jsx:76-184 | spinner exactly while loading, the no-data message exactly when loaded without data, otherwise the three period buttons highlighted by the filter, the data's `totalSolved`, the bars, and one heatmap cell and tooltip per calendar day |
| ProblemSolving.StartDate | client/src/components/ProblemSolvingData.jsx:169 | the heatmap starts `parseInt(filter)` days of milliseconds before now, and has no date when the filter is not a number |
| ProblemSolving.NoDataAndPeriods | client/src/components/ProblemSolvingData.jsx:84-123 | a null answer or a failed fetch shows the no-data message; the buttons emit only '7', '30', '90', each of which gives a start date |
| SyncSettings.Init | client/src/components/SyncSettings.jsx:5-10 | the form starts from the student's settings, with '02:00', 'daily' and 0 for falsy ones, reminders on unless explicitly `false`, not saving |
| SyncSettings.RemindersDefaultOn | client/src/components/SyncSettings.jsx:7 | a missing or other falsy reminder setting leaves reminders on; only `false` turns them off |
| SyncSettings.TimeOptions | client/src/components/SyncSettings.jsx:46-53 | there are 24 hour options, the i-th for hour i |
| SyncSettings.TimeOptionsOrdered | client/src/components/SyncSettings.jsx:46-53 | the options run from '00:00' to '23:00', each reads back as its hour, and they are strictly increasing, hence distinct |
| SyncSettings.HourDigits | client/src/components/SyncSettings.jsx:47 | the option for an hour is its two digits, zero-padded, then ':00' |
| SyncSettings.HourOption | client/src/components/SyncSettings.jsx:47 | an hour option has at least five characters and ends in ':00' |
| SyncSettings.DefaultsOffered | client/src/components/SyncSettings.jsx:5-6 | the fallback time '02:00' is an offered hour option and the fallback frequency 'daily' the first of the three distinct frequency options (lines 67-69) |
| SyncSettings.SetTime | client/src/components/SyncSettings.jsx:43 | choosing a time changes only the time |
| SyncSettings.SetFrequency | client/src/components/SyncSettings.jsx:64 | choosing a frequency changes only the frequency |
| SyncSettings.SetReminders | client/src/components/SyncSettings.jsx:79 | ticking the box changes only the reminder flag |
| SyncSettings.Payload | client/src/components/SyncSettings.jsx:16-20 | the request carries the time, frequency and reminder flag, and never the reminder count |
| SyncSettings.SubmitStarted | client/src/components/SyncSettings.jsx:14 | submitting turns saving on and changes nothing else |
| SyncSettings.SubmitSettled | client/src/components/SyncSettings.jsx:15-27 | saving ends either way; success shows the saved notice, failure leaves it as it was; the form values are kept |
| SyncSettings.NoticeExpired | client/src/components/SyncSettings.jsx:22 | the timer only hides the saved notice |
| SyncSettings.SubmitFromInit | client/src/components/SyncSettings.jsx:12-28 | a submit from the initial form ends not saving, with the notice shown exactly on success |
| AddStudentModal.EmptyForm | client/src/components/AddStudentModal.jsx:6-13 | the form starts with exactly the six fields, all empty |
| AddStudentModal.ResetForm | client/src/components/AddStudentModal.jsx:32 | after a success the form holds only the first four fields, empty, and no ratings |
| AddStudentModal.HandleChange | client/src/components/AddStudentModal.jsx:18-21 | a change sets the named input and keeps every other entry |
| AddStudentModal.ChangeKeepsFields | client/src/components/AddStudentModal.jsx:18-21 | a change to an existing input keeps the set of fields, a later change to it overrides an earlier one, and re-entering its value changes nothing |
| AddStudentModal.TypeOf | client/src/components/AddStudentModal.jsx:74 | the input is of type email exactly for 'email' and tel exactly for 'phoneNumber' |
| AddStudentModal.Label | client/src/components/AddStudentModal.jsx:71 | the handle is labelled 'Codeforces Handle'; other names have their first letter upper-cased |
| Ascii.ReplaceFirstAt | client/src/components/AddStudentModal.jsx:71 | when the pattern first occurs at index i, `replace` with a string pattern yields the text before i, the replacement, and the text after that occurrence |
| AddStudentModal.InputsOfFields | client/src/components/AddStudentModal.jsx:64-79 | the six inputs are labelled with their capitalised names (the handle spelled out), and every one but the phone number is required |
| AddStudentModal.Init | client/src/components/AddStudentModal.jsx:6-15 | the dialog starts with the empty form, not submitting, with no error |
| AddStudentModal.SubmitStarted | client/src/components/AddStudentModal.jsx:23-28 | submitting clears the error, turns submitting on and sends the form |
| AddStudentModal.SubmitSettled | client/src/components/AddStudentModal.jsx:28-37 | a success tells the parent, alerts 'Student Added Successfully.', resets the form and closes; a failure shows the message (or 'Failed to add student') and keeps the form |
| AddStudentModal.Submit | client/src/components/AddStudentModal.jsx:23-38 | after a success the dialog closes with no error and a reset form; after a failure an error always shows, the form is kept and the dialog stays open |
| AddStudentModal.Render | client/src/components/AddStudentModal.jsx:40-106 | nothing while closed; otherwise the six inputs in order, disabled while submitting, with the error shown exactly when it is truthy |
| EditStudentModal.EmptyForm | client/src/components/EditStudentModal.jsx:5-10 | the form starts with exactly the four fields, all empty |
| EditStudentModal.Init | client/src/components/EditStudentModal.jsx:5-12 | the dialog starts with the empty form, not submitting, with no error |
| EditStudentModal.StudentChanged | client/src/components/EditStudentModal.jsx:14-23 | a selected student replaces the form with its name, email, phone and cfHandle; without one the form is kept |
| EditStudentModal.HandleChange | client/src/components/EditStudentModal.jsx:25-28 | a change sets the named input and keeps every other entry |
| EditStudentModal.ServerRecordLosesPhoneAndHandle | client/src/components/EditStudentModal.jsx:14-23 | a record with the server's field names leaves the phone and handle inputs `undefined`; only the phone input is optional |
| EditStudentModal.SubmitStarted | client/src/components/EditStudentModal.jsx:30-35 | submitting clears the error, turns submitting on and sends the student's `id` with the form |
| EditStudentModal.SubmitSettled | client/src/components/EditStudentModal.jsx:35-42 | a success passes the record up and closes; a failure shows the message (or 'Failed to update student') and stays open; the form is kept |
| EditStudentModal.Submit | client/src/components/EditStudentModal.jsx:30-43 | the dialog closes exactly when the update succeeded, after the parent has the record; a failure always shows an error |
| EditStudentModal.Render | client/src/components/EditStudentModal.jsx:45-136 | nothing while closed or without a student; otherwise the form, disabled while submitting, with the error shown exactly when it is truthy |
| ConfirmationModal.Press | client/src/components/ConfirmationModal.jsx:21-35 | either button ends by closing; the confirm callback is made exactly for the confirm button, and no callback twice |
| ConfirmationModal.Render | client/src/components/ConfirmationModal.jsx:7 | nothing is rendered exactly while closed; otherwise the given title and message |
| ConfirmationModal.Run | client/src/components/ConfirmationModal.jsx:31-35 | the parent receives one confirmation per confirm callback, and a final close leaves the dialog closed |
| ConfirmationModal.PressThenClose | client/src/components/ConfirmationModal.jsx:21-35 | either press closes the dialog; confirm hands the parent exactly one confirmation and cancel none |
| MockApi.Students | client/src/services/api.js:3-41 | the two canned students have ids 1 and 2 and carry neither `_id`, `phoneNumber` nor `codeforcesHandle` |
| MockApi.ParsedId | client/src/services/api.js:47 | `parseInt(id)` is a number exactly when the text parses, and NaN otherwise |
| MockApi.Profile | client/src/services/api.js:43-63 | the profile is the first canned student for the string '1' and the second for anything else, under the parsed id |
| MockApi.BaseContests | client/src/services/api.js:68-89 | two contests, each the chosen number of days before now, with the first student's figures exactly for the string id '1' |
| MockApi.ContestHistory | client/src/services/api.js:65-96 | the answer keeps, in order, exactly the canned contests no older than `parseInt(days)` days, and none when `days` does not parse |
| MockApi.WindowByDays | client/src/services/api.js:92-93 | a contest is kept exactly when it is at most `days` days old |
| MockApi.PeriodsShowBoth | client/src/services/api.js:72-93 | for '30', '90' and '365' both canned contests are kept |
| MockApi.WithinPeriod | client/src/services/api.js:92-93 | a period that reaches back past both canned contests keeps both |
| MockApi.PeriodDays | client/src/services/api.js:72-92 | each of the three periods is a digit string whose value reaches back past both contests |
| MockApi.DaysAgo | client/src/services/api.js:72-82 | contest 123 lies 10, 40 or 200 days back and the other contest 5, 20 or 150; the '30' period keeps both within 10 days, '90' within 40, and any other period within 200 |
| MockApi.ProfilePanelsIgnoreId | client/src/services/api.js:47-77 | the profile's id is never the string '1', so the contest panel always shows the second student's figures |
| MockApi.ProblemData | client/src/services/api.js:98-124 | seven rating ranges, the given calendar, and 45 solved for the string '1' and 78 otherwise |
| MockApi.DistributionSumsToTotal | client/src/services/api.js:102-119 | the rating-range counts add up to the total solved, for either student |
| MockApi.SubmissionCalendar | client/src/services/api.js:197-209 | one entry per day back from today, as many as `parseInt(days)` (none for a non-number), each with a count from 0 to 9 |
| MockApi.DrawDigit | client/src/services/api.js:205 | `Math.floor(Math.random() * 10)` is a digit |
| MockApi.AddStudent | client/src/services/api.js:126-143 | the answer has the sent fields, then the fixed defaults overriding them, and an id from 3 to 1002 unless one was sent |
| MockApi.UpdateDefaults | client/src/services/api.js:151-159 | the fields `updateStudent` always sets: ratings 1500/1600 for the number 1 and 2100/2200 otherwise, the current time as last update, sync time '02:00', frequency 'daily', reminders on, a reminder count of 2 for the number 1 and 0 otherwise, and a last reminder of '2023-05-10T08:00:00Z' for the number 1 and `null` otherwise |
| MockApi.EditResetsSyncSettings | client/src/services/api.js:149-159 | whatever an edit sends, the answered record carries the fixed sync settings, reminder count and last-reminder time, so earlier settings are overwritten |
| MockApi.UpdateStudent | client/src/services/api.js:145-162 | the answer has the sent fields with the fixed ones overriding them, and keeps the given id unless one was sent |
| MockApi.UpdateSyncSettings | client/src/services/api.js:186-194 | the answer is always `{success: true}` |
| MockApi.AddedStudentShowsNA | client/src/services/api.js:132-133 | a student added through the dialog shows 'N/A' for both ratings in the table |
| MockApi.EditKeepsId | client/src/services/api.js:149-150 | the edit dialog never sends an `id` field, so the record it gets back keeps the selected student's `id` |
| Js.Spread | client/src/services/api.js:131 | object spread has the keys of both operands, the right operand winning |
| Js.Or | client/src/components/SyncSettings.jsx:5-8 | `a \|\| b` is `a` when `a` is truthy and `b` otherwise |
| Lists.Filter | client/src/services/api.js:93 | `filter` keeps, in order, exactly the elements passing the test, each as often as it occurs in the input |
| Ascii.ParseIntRoundTrip | client/src/components/ProblemSolvingData.jsx:169 | `parseInt` reads the decimal text of any integer back as that integer |
| Ascii.ParseInt | client/src/services/api.js:47 | `parseInt` gives `NaN` exactly when no digit follows the leading white space and sign, and a non-negative number unless the text starts with '-' |
| Ascii.ParseDigits | client/src/services/api.js:47 | `parseInt` of a non-empty string of digits is its decimal value |
| Ascii.ParseLeadingDigits | client/src/services/api.js:47 | `parseInt` stops at the first non-digit: digits followed by anything not starting with a digit read as the digits' value |
| Ascii.ParseNegative | client/src/services/api.js:47 | `parseInt` of '-' followed by digits is the negated value of the digits |
| Ascii.NatToStringRoundTrip | client/src/components/SyncSettings.jsx:47 | the decimal text of a natural number has that number as its digit value |
| Ascii.TrimStart | server/models/Student.js:7 | the start-trim removes only white space, from the front, and leaves no white space first |
| Ascii.TrimEnd | server/models/Student.js:7 | the end-trim keeps a prefix of the text, removes only white space, and leaves no white space last |
| Ascii.Trim | server/models/Student.js:7 | the trimmed text has no white space at either end |
| Ascii.TrimPadded | server/models/Student.js:7 | the trimmed text is the input with only white space cut from its two ends |
| Ascii.TrimFixed | server/models/Student.js:7 | text with no white space at its ends is its own trim |
| Ascii.TrimIdempotent | server/models/Student.js:7 | trimming twice is trimming once |

Members without a row are definitions the rows' contracts are stated in, not separate claims about the system: `StudentSchema.ToBody`, `Normalize`, `PatchAcceptable`, `Acceptable`, `Errors` and the per-path error functions, the `Ascii` character classes and digit helpers (`DigitChar`, `DigitValue`, `DigitsValue`, `DigitPrefix`, `Unsigned`, `DigitsSnoc`, `DigitPrefixOfDigits`, `DigitPrefixOfAppend`, `NegativeParts`), and the slice lemmas behind `Ascii.ReplaceFirstAt`.

## Left out

- Mongoose internals are not modelled: ObjectId format and casting, the `lean()` plain-object conversion, `__v` and JSON serialisation. An id is any string, and a cast failure is an `Env` fault.
- The unique index is not built asynchronously. The model treats it as always in force.
- The Express OPTIONS auto-reply and the fall-through to the application's 404 are not modelled. An unrouted request is `None`.
- `server/server.js`, the navigation bar and the theme context are not part of this model. They hold only wiring and styling.
- The real network client is not part of this model. It is stubbed by `client/src/services/api.js`, which is modelled instead.
- `syncStudentData` in the mock service is modelled only through `AppState.SyncSucceeded`, which takes the record it resolves with as a parameter.
- Timers, promises and interleavings are not modelled. Each asynchronous handler becomes a start step and a settle step, and a handler runs to completion.
- Unmounting is not modelled.
- `Date.now`, `new Date()`, `toISOString`, `toLocaleString` and `Math.random` are parameters. The three calls of `Date.now()` in `fetchContestHistory` (`client/src/services/api.js:72`, `82`, `92`) are taken as the same instant.
- Strings are sequences of characters, not UTF-16 code units. Unicode case mapping is left out: only ASCII letters change case. Trimming and `parseInt` do skip the full set of ECMAScript white space and line terminators.
- JavaScript numbers are integers, except contest times, which are reals. The schema's ratings have type `Number` and accept decimals; integer ratings are a restriction of the model. The decimal averages, `toFixed` and the hardest-problem card of the problem panel are left out.
- Rendering details are left out: CSS classes other than the badge and heatmap colours, dark mode, the chart options, and the `react-csv` download itself.
- StudentTable.Search: requires, for every student, a string name; a string e-mail when the name does not contain the term; and a string handle when neither the name nor the e-mail contains it. These are the calls `||` actually reaches, and a missing one makes the source's `.toLowerCase()` throw a TypeError, which the model does not represent.
- MockApi.ProblemData: states only the distribution's length, the calendar and the total. The averages and the hardest problem are left out with the decimals.
- StudentProfile.Box: pins the colour only for ratings of 2100 or more and for falsy ratings. `StudentProfile.BoxMonotone` ties every other rating to the table's tiers.
- Ascii.ParseInt: reads base 10 only. JavaScript's `parseInt` without a radix reads a `0x`/`0X` prefix as hexadecimal, so `parseInt('0x10')` is 16 and `parseInt('0x')` is NaN, where the model reads 0 for both. The periods and hour options the client itself passes are decimal; an id or a period string with a hexadecimal prefix is where `MockApi` results would differ from the source.
- Js.StrToNumber: reads integer strings only (white space, an optional sign, digits). JavaScript's `Number` also reads decimals, exponents, `0x`/`0o`/`0b` prefixes and `Infinity`, so `"2100.0"`, `"2.5e3"` and `"0x10"` are numbers in JavaScript and `NaN` here; `StudentTable.TierOf(Str("2100.0"))` is gray in the model and red in the browser.
- A request body's path is present with a value or absent; an explicit JSON `null` is not representable. Mongoose keeps a `null` rating as `null` instead of applying `default: 0` (its `min` validator skips `null`), and a `null` name or e-mail fails `required`; the model has no such body.

=== FILE: add_student_modal.dfy ===
/**
 * The "Add New Student" dialog: a six-field form, its change handler, the per-field input
 * attributes, and what a submission does on success and on failure.
 */
module AddStudentModal {
  import opened Wrappers
  import opened Ascii
  import opened Js

  /** The form's state: input name to text. */
  type Form = map<string, string>

  /** The inputs, in the order they are rendered. */
  const Fields: seq<string> := ["name", "email", "phoneNumber", "codeforcesHandle", "currentRating", "maxRating"]

  /** The form as first rendered: every field present and empty. */
  function EmptyForm(): (f: Form)
    ensures forall i :: 0 <= i < |Fields| ==> Fields[i] in f && f[Fields[i]] == ""
    ensures forall k :: k in f ==> k in Fields
  {
    map["name" := "", "email" := "", "phoneNumber" := "", "codeforcesHandle" := "",
        "currentRating" := "", "maxRating" := ""]
  }

  /** The form after a successful submission: only four fields, so the two rating inputs have
      no value any more. */
  function ResetForm(): (f: Form)
    ensures forall k :: k in f ==> f[k] == ""
    ensures "currentRating" !in f && "maxRating" !in f
    ensures forall i :: 0 <= i < 4 ==> Fields[i] in f
  {
    map["name" := "", "email" := "", "phoneNumber" := "", "codeforcesHandle" := ""]
  }

  /** `handleChange`: the input named `name` now holds `value`; every other entry is as it was. */
  function HandleChange(f: Form, name: string, value: string): (r: Form)
    ensures name in r && r[name] == value
    ensures forall k :: k != name ==> (k in r <==> k in f)
    ensures forall k :: k != name && k in f ==> r[k] == f[k]
  {
    f[name := value]
  }

  /** A change to one of the form's own inputs keeps its set of fields, and a second change to
      the same input overrides the first. */
  lemma ChangeKeepsFields(f: Form, name: string, v1: string, v2: string)
    requires name in f
    ensures HandleChange(f, name, v1).Keys == f.Keys
    ensures HandleChange(HandleChange(f, name, v1), name, v2) == HandleChange(f, name, v2)
    ensures HandleChange(f, name, f[name]) == f
  {
  }

  // ---------------------------------------------------------------- per-field attributes

  /** Every input but the phone number must be filled in. */
  predicate Required(field: string) {
    field != "phoneNumber"
  }

  datatype InputType = EmailInput | TelInput | TextInput

  function TypeOf(field: string): (t: InputType)
    ensures t == EmailInput <==> field == "email"
    ensures t == TelInput <==> field == "phoneNumber"
  {
    if field == "email" then EmailInput else if field == "phoneNumber" then TelInput else TextInput
  }

  /** The label: 'Codeforces Handle' for the handle, otherwise the name with its first letter
      upper-cased (and any later 'codeforcesHandle' spelled out). */
  function Label(field: string): (r: string)
    ensures field == "codeforcesHandle" ==> r == "Codeforces Handle"
    ensures field != "codeforcesHandle" && field != "" && !Contains(field[1..], "codeforcesHandle") ==>
              r == [UpperChar(field[0])] + field[1..]
  {
    if field == "codeforcesHandle" then "Codeforces Handle"
    else if field == "" then ""
    else [UpperChar(field[0])] + ReplaceFirst(field[1..], "codeforcesHandle", "Codeforces Handle")
  }

  datatype Input = Input(name: string, caption: string, kind: InputType, required: bool, value: Option<string>)

  function InputFor(f: Form, field: string): Input {
    Input(field, Label(field), TypeOf(field), Required(field), if field in f then Some(f[field]) else None)
  }

  /** The six inputs as labelled and typed on screen: the handle's label is spelled out, every
      other label is the name capitalised, and only the phone number is optional. */
  lemma InputsOfFields()
    ensures Label(Fields[3]) == "Codeforces Handle" && Label("name") == "Name"
    ensures forall i :: 0 <= i < |Fields| && i != 3 ==> Label(Fields[i]) == [UpperChar(Fields[i][0])] + Fields[i][1..]
    ensures forall i :: 0 <= i < |Fields| ==> (Required(Fields[i]) <==> i != 2)
  {
    forall i | 0 <= i < |Fields|
      ensures i != 3 ==> Label(Fields[i]) == [UpperChar(Fields[i][0])] + Fields[i][1..]
      ensures Required(Fields[i]) <==> i != 2
    {
      var lengths := [4, 5, 11, 16, 13, 9];
      assert |Fields[i]| == lengths[i];
      if i != 3 {
        ShortLabel(Fields[i]);
      }
    }
    ShortLabel("name");
  }

  /** A name shorter than 'codeforcesHandle' is only capitalised. */
  lemma ShortLabel(field: string)
    requires field != "" && |field| < 16
    ensures Label(field) == [UpperChar(field[0])] + field[1..]
  {
    assert !Contains(field[1..], "codeforcesHandle");
  }

  // ---------------------------------------------------------------- submitting

  /** The parent's callbacks and the browser alert, in the order they are made. */
  datatype Effect = StudentAdded(student: Record) | Alert(text: string) | Close

  datatype AddState = AddState(form: Form, isSubmitting: bool, error: Option<Value>)

  function Init(): (s: AddState)
    ensures s.form == EmptyForm() && !s.isSubmitting && s.error.None?
  {
    AddState(EmptyForm(), false, None)
  }

  /** The part of the submit handler before the request: the error is cleared and the form is
      what `addStudent` receives. */
  function SubmitStarted(s: AddState): (r: (AddState, Form))
    ensures r.0 == s.(isSubmitting := true, error := None)
    ensures r.1 == s.form
  {
    (s.(isSubmitting := true, error := None), s.form)
  }

  /** The request settled with `outcome`: a created record, or a rejection with its message. */
  function SubmitSettled(s: AddState, outcome: Result<Record, Value>): (r: (AddState, seq<Effect>))
    ensures !r.0.isSubmitting
    ensures outcome.Success? ==>
              r.1 == [StudentAdded(outcome.value), Alert("Student Added Successfully."), Close] &&
              r.0.form == ResetForm() && r.0.error == s.error
    ensures outcome.Failure? ==> r.1 == [] && r.0.form == s.form
    ensures outcome.Failure? && Truthy(outcome.error) ==> r.0.error == Some(outcome.error)
    ensures outcome.Failure? && !Truthy(outcome.error) ==> r.0.error == Some(Str("Failed to add student"))
  {
    match outcome
    case Success(student) =>
      (s.(form := ResetForm(), isSubmitting := false), [StudentAdded(student), Alert("Student Added Successfully."), Close])
    case Failure(message) =>
      (s.(error := Some(Or(message, Str("Failed to add student"))), isSubmitting := false), [])
  }

  /** A whole submission: after success the parent hears of the record once, the dialog is
      closed, and no error is shown; after failure an error is always shown and the typed form
      is kept. */
  lemma Submit(s: AddState, outcome: Result<Record, Value>)
    ensures var (t, effects) := SubmitSettled(SubmitStarted(s).0, outcome);
            && !t.isSubmitting
            && (outcome.Success? ==> t.error.None? && effects[|effects| - 1] == Close && t.form == ResetForm())
            && (outcome.Failure? ==> t.error.Some? && Truthy(t.error.value) && t.form == s.form && Close !in effects)
  {
  }

  datatype Dialog = Dialog(error: Option<Value>, inputs: seq<Input>, submitCaption: string, disabled: bool)

  /** Nothing is rendered while the dialog is closed. */
  function Render(isOpen: bool, s: AddState): (d: Option<Dialog>)
    ensures d.None? <==> !isOpen
    ensures d.Some? ==> |d.value.inputs| == |Fields| && d.value.disabled == s.isSubmitting
    ensures d.Some? ==> forall i :: 0 <= i < |Fields| ==> d.value.inputs[i] == InputFor(s.form, Fields[i])
    ensures d.Some? ==> (d.value.error.Some? <==> s.error.Some? && Truthy(s.error.value))
  {
    if !isOpen then None
    else
      var err := if s.error.Some? && Truthy(s.error.value) then s.error else None;
      Some(Dialog(err, seq(|Fields|, i requires 0 <= i < |Fields| => InputFor(s.form, Fields[i])),
                  if s.isSubmitting then "Adding..." else "Add Student", s.isSubmitting))
  }
}

=== FILE: app_state.dfy ===
/**
 * The top-level page state: the student list, the loading flag, and the time of the last
 * successful load, with the transitions of the initial load and of a per-student sync.
 */
module AppState {
  import opened Wrappers
  import opened Js
  import opened StudentTable

  datatype State = State(students: seq<Record>, loading: bool, lastUpdated: Option<int>)

  /** Nothing loaded yet; the spinner shows. */
  function Init(): (s: State)
    ensures s.students == [] && s.loading && s.lastUpdated.None?
  {
    State([], true, None)
  }

  /** The fetch resolved with `data` at time `now`. */
  function LoadSucceeded(s: State, data: seq<Record>, now: int): (t: State)
    ensures t.students == data && t.lastUpdated == Some(now) && !t.loading
  {
    s.(students := data, lastUpdated := Some(now), loading := false)
  }

  /** The fetch failed: only the spinner goes away. */
  function LoadFailed(s: State): (t: State)
    ensures !t.loading && t.students == s.students && t.lastUpdated == s.lastUpdated
  {
    s.(loading := false)
  }

  /** `handleSyncStudent` resolved with `updated`: every entry whose `id` is `studentId` is
      replaced, in place. */
  function SyncSucceeded(s: State, studentId: Value, updated: Record): (t: State)
    ensures t.loading == s.loading && t.lastUpdated == s.lastUpdated
    ensures |t.students| == |s.students|
    ensures forall i :: 0 <= i < |s.students| ==>
              t.students[i] == if StrictEq(Get(s.students[i], "id"), studentId) then updated else s.students[i]
  {
    s.(students := ReplaceWhereId(s.students, studentId, updated))
  }

  /** A failed sync is only logged. */
  function SyncFailed(s: State): (t: State)
    ensures t == s
  {
    s
  }

  /** Whatever the load's outcome, the spinner is gone afterwards, and the page shows either the
      fetched list or, after a failure, the empty list it started with. */
  lemma LoadEndsLoading(data: seq<Record>, now: int)
    ensures !LoadSucceeded(Init(), data, now).loading && !LoadFailed(Init()).loading
    ensures LoadFailed(Init()).students == [] && LoadFailed(Init()).lastUpdated.None?
  {
  }

  /** A sync changes at most the entries with that `id`; syncing the same record again changes
      nothing more. */
  lemma SyncIdempotent(s: State, studentId: Value, updated: Record)
    ensures var once := SyncSucceeded(s, studentId, updated);
            SyncSucceeded(once, studentId, updated) == once
  {
    var once := SyncSucceeded(s, studentId, updated);
    var twice := SyncSucceeded(once, studentId, updated);
    forall i | 0 <= i < |s.students|
      ensures twice.students[i] == once.students[i]
    {
    }
    assert twice.students == once.students;
  }
}

=== FILE: ascii.dfy ===
/**
 * String helpers with the JavaScript semantics the dashboard relies on: character classes
 * (`\w`, `\d`, white space), case mapping of ASCII letters, `trim`, `includes`,
 * `padStart`, `replace` of a literal string, decimal printing and `parseInt`.
 */
module Ascii {
  import opened Wrappers

  predicate IsUpper(c: char) { 'A' <= c <= 'Z' }
  predicate IsLower(c: char) { 'a' <= c <= 'z' }
  predicate IsDigit(c: char) { '0' <= c <= '9' }

  /** `\w` of a JavaScript regular expression (no `u` flag). */
  predicate IsWordChar(c: char) { IsUpper(c) || IsLower(c) || IsDigit(c) || c == '_' }

  /** The characters `String.prototype.trim` and `parseInt` skip: ECMAScript's WhiteSpace (TAB, VT,
      FF, SPACE, NO-BREAK SPACE, ZERO WIDTH NO-BREAK SPACE and the other space separators) and
      LineTerminator (LF, CR, LINE SEPARATOR, PARAGRAPH SEPARATOR). */
  predicate IsSpace(c: char) {
    || c == ' ' || '\t' <= c <= '\r' || c == '\U{00A0}' || c == '\U{1680}'
    || '\U{2000}' <= c <= '\U{200A}' || c == '\U{2028}' || c == '\U{2029}' || c == '\U{202F}'
    || c == '\U{205F}' || c == '\U{3000}' || c == '\U{FEFF}'
  }

  predicate AllDigits(s: string) { forall i :: 0 <= i < |s| ==> IsDigit(s[i]) }

  // ---------------------------------------------------------------- case mapping

  function LowerChar(c: char): (r: char)
    ensures !IsUpper(r)
    ensures IsUpper(c) ==> IsLower(r)
    ensures !IsUpper(c) ==> r == c
  {
    if IsUpper(c) then (c as int + 32) as char else c
  }

  function UpperChar(c: char): (r: char)
    ensures !IsLower(r)
    ensures IsLower(c) ==> IsUpper(r)
    ensures !IsLower(c) ==> r == c
  {
    if IsLower(c) then (c as int - 32) as char else c
  }

  /** `toLowerCase()`: same length, every upper-case letter mapped, nothing else touched. */
  function ToLower(s: string): (r: string)
    ensures |r| == |s|
    ensures forall i :: 0 <= i < |s| ==> r[i] == LowerChar(s[i])
    ensures forall i :: 0 <= i < |r| ==> !IsUpper(r[i])
  {
    seq(|s|, i requires 0 <= i < |s| => LowerChar(s[i]))
  }

  lemma ToLowerIdempotent(s: string)
    ensures ToLower(ToLower(s)) == ToLower(s)
  {
  }

  /** A lower-case letter absent from `s` in both cases is absent from `ToLower(s)`. */
  lemma MissingAfterLower(s: string, c: char)
    requires IsLower(c) && c !in s && UpperChar(c) !in s
    ensures c !in ToLower(s)
  {
    var r := ToLower(s);
    forall i | 0 <= i < |r|
      ensures r[i] != c
    {
      assert r[i] == LowerChar(s[i]);
    }
  }

  // ---------------------------------------------------------------- substring search

  /** `needle` occurs in `hay` starting at index `i`. */
  predicate OccursAt(hay: string, needle: string, i: int) {
    0 <= i && i + |needle| <= |hay| && hay[i..i + |needle|] == needle
  }

  /** `hay.includes(needle)`, written as a left-to-right scan. */
  predicate Contains(hay: string, needle: string)
    decreases |hay|
  {
    if |needle| > |hay| then false
    else hay[..|needle|] == needle || (|hay| > 0 && Contains(hay[1..], needle))
  }

  /** The scan finds the needle exactly when it occurs at some index. */
  lemma {:induction false} ContainsIff(hay: string, needle: string)
    ensures Contains(hay, needle) <==> exists i :: OccursAt(hay, needle, i)
    decreases |hay|
  {
    if Contains(hay, needle) {
      if hay[..|needle|] == needle {
        assert OccursAt(hay, needle, 0);
      } else {
        ContainsIff(hay[1..], needle);
        var i :| OccursAt(hay[1..], needle, i);
        assert hay[i + 1..i + 1 + |needle|] == hay[1..][i..i + |needle|];
        assert OccursAt(hay, needle, i + 1);
      }
    }
    if exists i :: OccursAt(hay, needle, i) {
      var i :| OccursAt(hay, needle, i);
      if i > 0 {
        assert hay[1..][i - 1..i - 1 + |needle|] == hay[i..i + |needle|];
        assert OccursAt(hay[1..], needle, i - 1);
        ContainsIff(hay[1..], needle);
      }
    }
  }

  /** The empty string is contained in every string. */
  lemma ContainsEmpty(hay: string)
    ensures Contains(hay, "")
  {
    assert hay[..0] == "";
  }

  /** A needle with a character the haystack lacks is not contained in it. */
  lemma {:induction false} NotContainsMissingChar(hay: string, needle: string, k: int)
    requires 0 <= k < |needle| && needle[k] !in hay
    ensures !Contains(hay, needle)
    decreases |hay|
  {
    if |needle| <= |hay| {
      assert hay[..|needle|][k] == hay[k];
      if |hay| > 0 {
        assert forall c :: c in hay[1..] ==> c in hay;
        NotContainsMissingChar(hay[1..], needle, k);
      }
    }
  }

  // ---------------------------------------------------------------- trim

  /** Leading white space removed. That the result is a suffix of `s` is the separate lemma
      `TrimStartSuffix`, so that the solver does not keep unfolding it on literal strings. */
  function TrimStart(s: string): (r: string)
    ensures |r| <= |s|
    ensures forall k :: 0 <= k < |s| - |r| ==> IsSpace(s[k])
    ensures r == [] || !IsSpace(r[0])
    decreases |s|
  {
    if |s| > 0 && IsSpace(s[0]) then TrimStart(s[1..]) else s
  }

  lemma {:induction false} TrimStartSuffix(s: string)
    ensures TrimStart(s) == s[|s| - |TrimStart(s)|..]
    decreases |s|
  {
    if |s| > 0 && IsSpace(s[0]) {
      TrimStartSuffix(s[1..]);
      assert s[1..][|s| - 1 - |TrimStart(s)|..] == s[|s| - |TrimStart(s)|..];
    }
  }

  function TrimEnd(s: string): (r: string)
    ensures |r| <= |s| && r == s[..|r|]
    ensures forall k :: |r| <= k < |s| ==> IsSpace(s[k])
    ensures r == [] || !IsSpace(r[|r| - 1])
    decreases |s|
  {
    if |s| > 0 && IsSpace(s[|s| - 1]) then TrimEnd(s[..|s| - 1]) else s
  }

  /** `s` is `r` with only white space added on either side. */
  predicate IsPadded(s: string, r: string, i: int) {
    && 0 <= i && i + |r| <= |s|
    && s[i..i + |r|] == r
    && (forall k :: 0 <= k < i ==> IsSpace(s[k]))
    && (forall k :: i + |r| <= k < |s| ==> IsSpace(s[k]))
  }

  /** `trim()`: the result has no white space at either end and is what remains of `s`
      once white space is cut from both ends. */
  function Trim(s: string): (r: string)
    ensures r == [] || (!IsSpace(r[0]) && !IsSpace(r[|r| - 1]))
  {
    TrimEnd(TrimStart(s))
  }

  /** `trim()` cuts only white space, and only from the two ends. */
  lemma TrimPadded(s: string)
    ensures exists i :: IsPadded(s, Trim(s), i)
  {
    var t := TrimStart(s);
    var r := TrimEnd(t);
    var i := |s| - |t|;
    TrimStartSuffix(s);
    assert s[i..] == t;
    assert s[i..i + |r|] == t[..|r|] == r;
    forall k | i + |r| <= k < |s|
      ensures IsSpace(s[k])
    {
      assert s[k] == t[k - i];
    }
    assert r == Trim(s);
    assert IsPadded(s, r, i);
  }

  /** A string without white space at its ends is its own trim. */
  lemma {:induction false} TrimFixed(s: string)
    requires s == [] || (!IsSpace(s[0]) && !IsSpace(s[|s| - 1]))
    ensures Trim(s) == s
  {
    assert TrimStart(s) == s;
  }

  lemma TrimIdempotent(s: string)
    ensures Trim(Trim(s)) == Trim(s)
  {
    TrimFixed(Trim(s));
  }

  // ---------------------------------------------------------------- padStart, replace

  /** `s.padStart(width, c)` for a one-character pad string. */
  function PadStart(s: string, width: nat, c: char): (r: string)
    ensures |r| == if |s| < width then width else |s|
    ensures r[|r| - |s|..] == s
    ensures forall k :: 0 <= k < |r| - |s| ==> r[k] == c
  {
    if |s| < width then seq(width - |s|, _ => c) + s else s
  }

  /** `s.replace(pat, rep)` with a literal pattern: only the first occurrence is replaced (see
      `ReplaceFirstAt`). */
  function ReplaceFirst(s: string, pat: string, rep: string): (r: string)
    ensures !Contains(s, pat) ==> r == s
    decreases |s|
  {
    if |pat| <= |s| && s[..|pat|] == pat then rep + s[|pat|..]
    else if |s| > 0 then [s[0]] + ReplaceFirst(s[1..], pat, rep)
    else s
  }

  /** When `pat` first occurs at index `i`, the result is the text before it, then `rep`, then
      the text after that occurrence. */
  lemma {:induction false} ReplaceFirstAt(s: string, pat: string, rep: string, i: int)
    requires OccursAt(s, pat, i)
    requires forall j :: 0 <= j < i ==> !OccursAt(s, pat, j)
    ensures ReplaceFirst(s, pat, rep) == s[..i] + rep + s[i + |pat|..]
    decreases i
  {
    if i == 0 {
      ReplaceFirstFront(s, pat, rep);
    } else {
      var t := s[1..];
      ReplaceFirstStep(s, pat, rep, i);
      NoEarlierShift(s, pat, i);
      OccursShift(s, pat, i - 1);
      ReplaceFirstAt(t, pat, rep, i - 1);
      ConsSlices(s, i, |pat|);
      ConsAssoc(s[0], t[..i - 1], rep, t[i - 1 + |pat|..]);
    }
  }

  lemma ConsAssoc(c: char, a: string, b: string, d: string)
    ensures [c] + (a + b + d) == ([c] + a) + b + d
  {
  }

  lemma ReplaceFirstFront(s: string, pat: string, rep: string)
    requires OccursAt(s, pat, 0)
    ensures ReplaceFirst(s, pat, rep) == s[..0] + rep + s[|pat|..]
  {
    assert s[..|pat|] == pat;
  }

  /** Without a match at the front, the scan keeps the first character and goes on. */
  lemma ReplaceFirstStep(s: string, pat: string, rep: string, i: int)
    requires 0 < i && OccursAt(s, pat, i) && !OccursAt(s, pat, 0)
    ensures ReplaceFirst(s, pat, rep) == [s[0]] + ReplaceFirst(s[1..], pat, rep)
  {
    assert s[..|pat|] != pat;
  }

  lemma NoEarlierShift(s: string, pat: string, i: int)
    requires OccursAt(s, pat, i)
    requires forall j :: 0 <= j < i ==> !OccursAt(s, pat, j)
    ensures forall j :: 0 <= j < i - 1 ==> !OccursAt(s[1..], pat, j)
  {
    forall j | 0 <= j < i - 1
      ensures !OccursAt(s[1..], pat, j)
    {
      assert !OccursAt(s, pat, j + 1);
      OccursShift(s, pat, j);
    }
  }

  lemma OccursShift(s: string, pat: string, j: int)
    requires 0 <= j && j + 1 + |pat| <= |s|
    ensures OccursAt(s[1..], pat, j) <==> OccursAt(s, pat, j + 1)
  {
    assert s[1..][j..j + |pat|] == s[j + 1..j + 1 + |pat|];
  }

  lemma ConsSlices(s: string, i: int, n: nat)
    requires 0 < i && i + n <= |s|
    ensures [s[0]] + s[1..][..i - 1] == s[..i] && s[1..][i - 1 + n..] == s[i + n..]
  {
  }

  // ---------------------------------------------------------------- decimal numbers

  function DigitChar(d: nat): (c: char)
    requires d < 10
    ensures IsDigit(c)
  {
    ('0' as int + d) as char
  }

  function DigitValue(c: char): (d: nat)
    requires IsDigit(c)
    ensures d < 10
  {
    c as int - '0' as int
  }

  /** Decimal text of a natural number, as `String(n)` prints it. */
  function NatToString(n: nat): (r: string)
    ensures |r| >= 1 && AllDigits(r)
    ensures r[0] == '0' ==> n == 0 && |r| == 1
    decreases n
  {
    if n < 10 then [DigitChar(n)] else NatToString(n / 10) + [DigitChar(n % 10)]
  }

  /** Decimal text of an integer, with a leading `-` when negative. */
  function IntToString(i: int): (r: string)
    ensures |r| >= 1
    ensures r[0] == '-' <==> i < 0
  {
    if i < 0 then "-" + NatToString(-i) else NatToString(i)
  }

  /** The value of a string of decimal digits (leading zeros allowed). */
  function DigitsValue(s: string): nat
    requires AllDigits(s)
    decreases |s|
  {
    if s == [] then 0 else DigitsValue(s[..|s| - 1]) * 10 + DigitValue(s[|s| - 1])
  }

  lemma {:induction false} NatToStringRoundTrip(n: nat)
    ensures DigitsValue(NatToString(n)) == n
    decreases n
  {
    if n >= 10 {
      var s := NatToString(n);
      NatToStringRoundTrip(n / 10);
      assert s[..|s| - 1] == NatToString(n / 10);
    }
  }

  /** The longest prefix of `s` made of digits. */
  function DigitPrefix(s: string): (r: string)
    ensures |r| <= |s| && r == s[..|r|] && AllDigits(r)
    ensures |r| < |s| ==> !IsDigit(s[|r|])
    decreases |s|
  {
    if |s| > 0 && IsDigit(s[0]) then [s[0]] + DigitPrefix(s[1..]) else []
  }

  /** `t` with one leading sign character removed, if it has one. */
  function Unsigned(t: string): string {
    if |t| > 0 && (t[0] == '-' || t[0] == '+') then t[1..] else t
  }

  /** `parseInt(s)` in base 10: leading white space, an optional sign, then the longest run of
      digits; `None` stands for `NaN` (no digit after the sign). */
  function ParseInt(s: string): (r: Option<int>)
    ensures r.None? <==> DigitPrefix(Unsigned(TrimStart(s))) == []
    ensures r.Some? && !(|TrimStart(s)| > 0 && TrimStart(s)[0] == '-') ==> r.value >= 0
  {
    var t := TrimStart(s);
    var d := DigitPrefix(Unsigned(t));
    var v: int := if d == [] then 0 else DigitsValue(d);
    if d == [] then None else Some(if |t| > 0 && t[0] == '-' then -v else v)
  }

  lemma DigitPrefixOfDigits(s: string)
    requires AllDigits(s)
    ensures DigitPrefix(s) == s
  {
  }

  /** Appending a digit multiplies the value by ten and adds the digit. */
  lemma DigitsSnoc(s: string, c: char)
    requires AllDigits(s) && IsDigit(c)
    ensures AllDigits(s + [c]) && DigitsValue(s + [c]) == DigitsValue(s) * 10 + DigitValue(c)
  {
    assert (s + [c])[..|s|] == s;
  }

  /** A non-empty run of digits parses as its decimal value. */
  lemma ParseDigits(p: string)
    requires p != "" && AllDigits(p)
    ensures ParseInt(p) == Some(DigitsValue(p))
  {
    assert !IsSpace(p[0]);
    assert TrimStart(p) == p;
    assert Unsigned(p) == p;
    DigitPrefixOfDigits(p);
  }

  /** The digit prefix of digits followed by anything that does not start with a digit. */
  lemma {:induction false} DigitPrefixOfAppend(p: string, rest: string)
    requires AllDigits(p) && (rest == [] || !IsDigit(rest[0]))
    ensures DigitPrefix(p + rest) == p
    decreases |p|
  {
    if p != [] {
      DigitPrefixOfAppend(p[1..], rest);
      assert (p + rest)[1..] == p[1..] + rest;
    } else {
      assert p + rest == rest;
    }
  }

  /** `parseInt` reads a leading run of digits and stops at the first other character. */
  lemma ParseLeadingDigits(p: string, rest: string)
    requires p != [] && AllDigits(p) && (rest == [] || !IsDigit(rest[0]))
    ensures ParseInt(p + rest) == Some(DigitsValue(p))
  {
    var s := p + rest;
    assert s[0] == p[0] && !IsSpace(s[0]);
    assert TrimStart(s) == s && Unsigned(s) == s;
    DigitPrefixOfAppend(p, rest);
  }

  /** A minus sign then a run of digits parses as the negated value. */
  lemma ParseNegative(s: string)
    requires |s| > 1 && s[0] == '-' && AllDigits(s[1..])
    ensures ParseInt(s) == Some(-(DigitsValue(s[1..]) as int))
  {
    NegativeParts(s, s[1..]);
    DigitPrefixOfDigits(s[1..]);
  }

  lemma NegativeParts(s: string, p: string)
    requires |s| > 0 && s[0] == '-' && s[1..] == p
    ensures TrimStart(s) == s && Unsigned(s) == p
  {
  }

  /** `parseInt(String(i)) === i`. */
  lemma ParseIntRoundTrip(i: int)
    ensures ParseInt(IntToString(i)) == Some(i)
  {
    var n: nat := if i < 0 then -i else i;
    var digits := NatToString(n);
    NatToStringRoundTrip(n);
    if i < 0 {
      assert ("-" + digits)[1..] == digits;
      ParseNegative("-" + digits);
    } else {
      ParseDigits(digits);
    }
  }
}

=== FILE: confirmation_modal.dfy ===
/**
 * The confirmation dialog used before a delete: its two buttons and the callbacks each one
 * makes, and the dialog state the parent keeps.
 */
module ConfirmationModal {
  import opened Wrappers

  datatype Callback = Confirm | Close

  datatype ButtonPress = CancelPressed | ConfirmPressed

  /** The callbacks a press makes, in order. `onConfirm` is not awaited, so nothing that it
      later does can change this list. */
  function Press(b: ButtonPress): (calls: seq<Callback>)
    ensures |calls| > 0 && calls[|calls| - 1] == Close
    ensures Confirm in calls <==> b == ConfirmPressed
    ensures forall i, j :: 0 <= i < j < |calls| ==> calls[i] != calls[j]
  {
    match b
    case CancelPressed => [Close]
    case ConfirmPressed => [Confirm, Close]
  }

  datatype Dialog = Dialog(title: string, message: string)

  function Render(isOpen: bool, title: string, message: string): (d: Option<Dialog>)
    ensures d.None? <==> !isOpen
    ensures d.Some? ==> d.value == Dialog(title, message)
  {
    if isOpen then Some(Dialog(title, message)) else None
  }

  /** The parent's view of the dialog: whether it is open and how many confirmations it has
      received. */
  datatype Host = Host(isOpen: bool, confirmed: nat)

  function Run(h: Host, calls: seq<Callback>): (r: Host)
    ensures calls != [] && calls[|calls| - 1] == Close ==> !r.isOpen
    ensures r.confirmed == h.confirmed + multiset(calls)[Confirm]
    ensures Close !in calls ==> r.isOpen == h.isOpen
    decreases |calls|
  {
    if calls == [] then h
    else
      var h' := match calls[0] case Confirm => h.(confirmed := h.confirmed + 1) case Close => h.(isOpen := false);
      assert calls == [calls[0]] + calls[1..];
      Run(h', calls[1..])
  }

  /** Either press closes the dialog; Confirm passes exactly one confirmation to the parent and
      Cancel none. */
  lemma PressThenClose(h: Host, b: ButtonPress)
    ensures !Run(h, Press(b)).isOpen
    ensures Run(h, Press(b)).confirmed == h.confirmed + (if b == ConfirmPressed then 1 else 0)
  {
  }
}

=== FILE: contest_history.dfy ===
/**
 * The contest panel of the profile page: the fetched contests, the rating chart built from
 * them, the table with one row per contest and its signed, coloured rating change, and the
 * period buttons.
 */
module ContestHistory {
  import opened Wrappers
  import opened Ascii
  import opened Lists
  import opened FilterButtons

  /** One contest as the panel reads it; `contestTime` is in seconds. */
  datatype Contest = Contest(
    contestId: int, contestName: string, contestTime: real, rank: int,
    solvedCount: int, totalProblems: int, ratingChange: int, newRating: int)

  datatype ContestState = ContestState(contests: seq<Contest>, loading: bool)

  /** Before the first fetch settles. */
  function Init(): (s: ContestState)
    ensures s.contests == [] && s.loading
  {
    ContestState([], true)
  }

  /** The fetch resolved with `data`. */
  function LoadDone(s: ContestState, data: seq<Contest>): (t: ContestState)
    ensures t.contests == data && !t.loading
  {
    s.(contests := data, loading := false)
  }

  /** The fetch rejected: the error is logged, the contests kept, the spinner cleared. */
  function LoadFailed(s: ContestState): (t: ContestState)
    ensures t.contests == s.contests && !t.loading
  {
    s.(loading := false)
  }

  /** The line chart: contest names along the axis, the new ratings as the series. */
  datatype Chart = Chart(labels: seq<string>, data: seq<int>)

  function ChartOf(contests: seq<Contest>): (c: Chart)
    ensures |c.labels| == |contests| && |c.data| == |contests|
    ensures forall i :: 0 <= i < |contests| ==>
              c.labels[i] == contests[i].contestName && c.data[i] == contests[i].newRating
  {
    Chart(Map(contests, (x: Contest) => x.contestName), Map(contests, (x: Contest) => x.newRating))
  }

  /** The rating change as displayed: a '+' before a change that is zero or positive, then the
      number as JavaScript prints it. */
  function ChangeText(d: int): (r: string)
    ensures |r| >= 2
    ensures r[0] == '+' <==> d >= 0
    ensures r[0] == '-' <==> d < 0
  {
    (if d >= 0 then "+" else "") + IntToString(d)
  }

  /** The badge colour. */
  datatype Badge = GreenBadge | RedBadge

  function BadgeOf(d: int): (b: Badge)
    ensures b == GreenBadge <==> d >= 0
  {
    if d >= 0 then GreenBadge else RedBadge
  }

  /** Reading the displayed text back gives the change, and the colour agrees with the sign
      shown: zero is shown as '+0' in green. */
  lemma ChangeTextRoundTrip(d: int)
    ensures ParseInt(ChangeText(d)) == Some(d)
    ensures BadgeOf(d) == GreenBadge <==> ChangeText(d)[0] == '+'
    ensures ChangeText(0) == "+0" && BadgeOf(0) == GreenBadge
  {
    if d >= 0 {
      assert ChangeText(d) == "+" + NatToString(d);
      PlusRoundTrip(d);
    } else {
      assert ChangeText(d) == IntToString(d);
      ParseIntRoundTrip(d);
    }
    assert NatToString(0) == "0";
  }

  /** `parseInt('+' + String(n)) === n` */
  lemma PlusRoundTrip(n: nat)
    ensures ParseInt("+" + NatToString(n)) == Some(n)
  {
    var digits := NatToString(n);
    var s := "+" + digits;
    NatToStringRoundTrip(n);
    DigitPrefixOfDigits(digits);
    assert TrimStart(s) == s;
    assert Unsigned(s) == digits;
  }

  /** One table row. */
  datatype Row = Row(contestId: int, name: string, rank: int, solved: int, total: int,
                     change: string, badge: Badge, time: real)

  /** A contest's table row: its own figures, the change as signed text that reads back as the
      change, and a badge that is green exactly for a non-negative change. */
  function RowOf(c: Contest): (r: Row)
    ensures r.contestId == c.contestId && r.name == c.contestName && r.time == c.contestTime
    ensures r.rank == c.rank && r.solved == c.solvedCount && r.total == c.totalProblems
    ensures ParseInt(r.change) == Some(c.ratingChange)
    ensures r.badge == GreenBadge <==> r.change[0] == '+'
  {
    ChangeTextRoundTrip(c.ratingChange);
    Row(c.contestId, c.contestName, c.rank, c.solvedCount, c.totalProblems,
        ChangeText(c.ratingChange), BadgeOf(c.ratingChange), c.contestTime)
  }

  datatype TableBody = Rows(rows: seq<Row>) | NoContests

  /** One row per contest, in order, or the single 'No contests found' row. */
  function TableOf(contests: seq<Contest>): (t: TableBody)
    ensures t == NoContests <==> contests == []
    ensures t.Rows? ==> |t.rows| == |contests|
    ensures t.Rows? ==> forall i :: 0 <= i < |contests| ==> t.rows[i] == RowOf(contests[i])
  {
    if |contests| > 0 then Rows(Map(contests, RowOf)) else NoContests
  }

  /** The period buttons: the last 30 days, 90 days, year. */
  const Periods: seq<(string, string)> :=
    [("Last 30 Days", "30"), ("Last 90 Days", "90"), ("Last Year", "365")]

  datatype View = Spinner | Panel(buttons: seq<Button>, chart: Chart, table: TableBody)

  function Render(s: ContestState, filter: string): (v: View)
    ensures v == Spinner <==> s.loading
    ensures v.Panel? ==> v.chart == ChartOf(s.contests) && v.table == TableOf(s.contests)
    ensures v.Panel? ==> |v.buttons| == 3
    ensures v.Panel? ==> forall i :: 0 <= i < 3 ==> v.buttons[i].value in {"30", "90", "365"}
    ensures v.Panel? ==> v.buttons == Buttons(Periods, filter)
  {
    if s.loading then Spinner else Panel(Buttons(Periods, filter), ChartOf(s.contests), TableOf(s.contests))
  }

  /** Whatever the fetch's outcome the spinner goes; the buttons emit only the three periods and
      clicking one highlights it alone. */
  lemma PanelAfterLoad(data: seq<Contest>, i: int)
    requires 0 <= i < 3
    ensures Render(LoadDone(Init(), data), "30").Panel? && Render(LoadFailed(Init()), "30").Panel?
    ensures Render(LoadFailed(Init()), "30").table == NoContests
    ensures Click(Periods, i) in {"30", "90", "365"}
    ensures var bs := Buttons(Periods, Click(Periods, i));
            bs[i].active && forall j :: 0 <= j < 3 && j != i ==> !bs[j].active
  {
    assert DistinctValues(Periods);
    AtMostOneActive(Periods, "30", i);
  }
}

=== FILE: edit_student_modal.dfy ===
/**
 * The "Edit Student" dialog: a four-field form filled from the selected student, its change
 * handler, the required inputs, and the success and failure paths of a submission.
 */
module EditStudentModal {
  import opened Wrappers
  import opened Js

  /** The form's state: input name to value (a copied field may be `undefined`). */
  type Form = map<string, Value>

  const Fields: seq<string> := ["name", "email", "phone", "cfHandle"]

  function EmptyForm(): (f: Form)
    ensures forall i :: 0 <= i < |Fields| ==> Fields[i] in f && f[Fields[i]] == Str("")
    ensures forall k :: k in f ==> k in Fields
  {
    map["name" := Str(""), "email" := Str(""), "phone" := Str(""), "cfHandle" := Str("")]
  }

  datatype EditState = EditState(form: Form, isSubmitting: bool, error: Option<Value>)

  function Init(): (s: EditState)
    ensures s.form == EmptyForm() && !s.isSubmitting && s.error.None?
  {
    EditState(EmptyForm(), false, None)
  }

  /** The effect run when the `student` property changes: a present student replaces the form
      by its four fields, read as `student.name` and so on; without one the form is kept. */
  function StudentChanged(s: EditState, student: Option<Record>): (t: EditState)
    ensures student.None? ==> t == s
    ensures student.Some? ==> t.form.Keys == {"name", "email", "phone", "cfHandle"}
    ensures student.Some? ==> forall k :: k in t.form ==> t.form[k] == Get(student.value, k)
    ensures t.isSubmitting == s.isSubmitting && t.error == s.error
  {
    match student
    case None => s
    case Some(st) =>
      s.(form := map["name" := Get(st, "name"), "email" := Get(st, "email"),
                     "phone" := Get(st, "phone"), "cfHandle" := Get(st, "cfHandle")])
  }

  /** `handleChange`: the input named `name` now holds `value`; every other entry is as it was. */
  function HandleChange(f: Form, name: string, value: string): (r: Form)
    ensures name in r && r[name] == Str(value)
    ensures forall k :: k != name ==> (k in r <==> k in f)
    ensures forall k :: k != name && k in f ==> r[k] == f[k]
  {
    f[name := Str(value)]
  }

  /** Name, email and handle must be filled in; the phone number need not. */
  predicate Required(field: string) {
    field in {"name", "email", "cfHandle"}
  }

  /** Filling the form from a record that has the server's field names (`phoneNumber`,
      `codeforcesHandle`) leaves the phone and handle inputs `undefined`. */
  lemma ServerRecordLosesPhoneAndHandle(s: EditState, st: Record)
    requires "phone" !in st && "cfHandle" !in st
    ensures StudentChanged(s, Some(st)).form["phone"] == Undefined
    ensures StudentChanged(s, Some(st)).form["cfHandle"] == Undefined
    ensures forall i :: 0 <= i < |Fields| ==> (Required(Fields[i]) <==> Fields[i] != "phone")
  {
  }

  /** The parent's callbacks, in the order they are made. */
  datatype Effect = StudentUpdated(student: Record) | Close

  /** The request `updateStudent` receives: the student's `id` and the form. */
  datatype Request = Request(id: Value, form: Form)

  /** The submit handler up to the request. */
  function SubmitStarted(s: EditState, student: Record): (r: (EditState, Request))
    ensures r.0 == s.(isSubmitting := true, error := None)
    ensures r.1 == Request(Get(student, "id"), s.form)
  {
    (s.(isSubmitting := true, error := None), Request(Get(student, "id"), s.form))
  }

  /** The request settled: on success the parent gets the record and then the dialog closes;
      on failure the message (or a default) is shown and the dialog stays open. */
  function SubmitSettled(s: EditState, outcome: Result<Record, Value>): (r: (EditState, seq<Effect>))
    ensures !r.0.isSubmitting && r.0.form == s.form
    ensures outcome.Success? ==> r.1 == [StudentUpdated(outcome.value), Close] && r.0.error == s.error
    ensures outcome.Failure? ==> r.1 == []
    ensures outcome.Failure? && Truthy(outcome.error) ==> r.0.error == Some(outcome.error)
    ensures outcome.Failure? && !Truthy(outcome.error) ==> r.0.error == Some(Str("Failed to update student"))
  {
    match outcome
    case Success(updated) => (s.(isSubmitting := false), [StudentUpdated(updated), Close])
    case Failure(message) =>
      (s.(error := Some(Or(message, Str("Failed to update student"))), isSubmitting := false), [])
  }

  /** A whole submission: the dialog closes exactly when the update succeeded, after the parent
      has the new record; a failure always leaves a visible error. */
  lemma Submit(s: EditState, student: Record, outcome: Result<Record, Value>)
    ensures var (t, effects) := SubmitSettled(SubmitStarted(s, student).0, outcome);
            && !t.isSubmitting
            && (Close in effects <==> outcome.Success?)
            && (outcome.Success? ==> effects[0] == StudentUpdated(outcome.value) && t.error.None?)
            && (outcome.Failure? ==> t.error.Some? && Truthy(t.error.value))
  {
  }

  datatype Dialog = Dialog(error: Option<Value>, form: Form, submitCaption: string, disabled: bool)

  /** Nothing is rendered while the dialog is closed or no student is selected. */
  function Render(isOpen: bool, student: Option<Record>, s: EditState): (d: Option<Dialog>)
    ensures d.None? <==> !isOpen || student.None?
    ensures d.Some? ==> d.value.form == s.form && d.value.disabled == s.isSubmitting
    ensures d.Some? ==> (d.value.error.Some? <==> s.error.Some? && Truthy(s.error.value))
  {
    if !isOpen || student.None? then None
    else
      var err := if s.error.Some? && Truthy(s.error.value) then s.error else None;
      Some(Dialog(err, s.form, if s.isSubmitting then "Updating..." else "Update Student", s.isSubmitting))
  }
}

=== FILE: email_pattern.dfy ===
/**
 * The e-mail pattern of the student schema,
 *     ^\w+([\.-]?\w+)*@\w+([\.-]?\w+)*(\.\w{2,3})+$
 * given twice: once following the pattern's own structure (`MatchesPattern`, a regular
 * expression matches when SOME way of splitting the input fits its parts), and once as
 * a flat description (`ValidEmail`: word-character runs joined by single `.` or `-`, an
 * `@`, a domain of the same shape ending in `.` plus two or three word characters).
 * `EmailIff` proves the two agree on every string.
 */
module EmailPattern {
  import opened Ascii

  /** `[\.-]` */
  predicate IsSep(c: char) { c == '.' || c == '-' }

  /** `\w+` */
  predicate WordRun(s: string) { |s| >= 1 && forall i :: 0 <= i < |s| ==> IsWordChar(s[i]) }

  // ---------------------------------------------------------------- structure of the pattern

  /** One iteration of `([\.-]?\w+)`. */
  predicate Piece(p: string) {
    WordRun(p) || (|p| >= 2 && IsSep(p[0]) && WordRun(p[1..]))
  }

  /** `([\.-]?\w+)*` */
  predicate Pieces(s: string)
    decreases |s|
  {
    s == [] || exists i :: 1 <= i <= |s| && Piece(s[..i]) && Pieces(s[i..])
  }

  /** `\w+([\.-]?\w+)*`, the local part and the start of the domain. */
  predicate Dotted(s: string) {
    exists i :: 1 <= i <= |s| && WordRun(s[..i]) && Pieces(s[i..])
  }

  /** One iteration of `(\.\w{2,3})`. */
  predicate TldGroup(g: string) {
    (|g| == 3 || |g| == 4) && g[0] == '.' && WordRun(g[1..])
  }

  /** `(\.\w{2,3})+` */
  predicate TldGroups(s: string)
    decreases |s|
  {
    || (|s| >= 3 && TldGroup(s[..3]) && (|s| == 3 || TldGroups(s[3..])))
    || (|s| >= 4 && TldGroup(s[..4]) && (|s| == 4 || TldGroups(s[4..])))
  }

  /** `\w+([\.-]?\w+)*(\.\w{2,3})+` */
  predicate DomainPattern(d: string) {
    exists j :: 0 <= j <= |d| && Dotted(d[..j]) && TldGroups(d[j..])
  }

  /** The anchored pattern: a local part, `@`, a domain, and nothing else. */
  predicate MatchesPattern(s: string) {
    exists a :: 0 <= a < |s| && s[a] == '@' && Dotted(s[..a]) && DomainPattern(s[a + 1..])
  }

  // ---------------------------------------------------------------- flat description

  /** Only word characters and separators, never two separators in a row, and (when
      non-empty) a word character at the end. */
  predicate Joined(s: string) {
    s == [] ||
    (&& IsWordChar(s[|s| - 1])
     && (forall i :: 0 <= i < |s| ==> IsWordChar(s[i]) || IsSep(s[i]))
     && (forall i :: 0 <= i < |s| - 1 ==> !IsSep(s[i]) || !IsSep(s[i + 1])))
  }

  /** Word-character runs joined by single `.` or `-`. */
  predicate DottedName(s: string) {
    |s| >= 1 && IsWordChar(s[0]) && Joined(s)
  }

  /** Ends in a `.` followed by exactly two or three word characters. */
  predicate TldSuffix(d: string) {
    || (|d| >= 3 && d[|d| - 3] == '.' && WordRun(d[|d| - 2..]))
    || (|d| >= 4 && d[|d| - 4] == '.' && WordRun(d[|d| - 3..]))
  }

  /** The `@` at index `a` splits `s` into a dotted local part and a dotted domain with a
      two- or three-character suffix. */
  predicate SplitAt(s: string, a: int) {
    0 <= a < |s| && s[a] == '@' && DottedName(s[..a]) && DottedName(s[a + 1..]) && TldSuffix(s[a + 1..])
  }

  /** Some `@` at index `a` or later splits `s` that way (a left-to-right scan). */
  predicate SplitFrom(s: string, a: nat)
    decreases |s| - a
  {
    a < |s| && (SplitAt(s, a) || SplitFrom(s, a + 1))
  }

  /** The flat description of an acceptable (already trimmed and lower-cased) e-mail. */
  predicate ValidEmail(s: string) {
    SplitFrom(s, 0)
  }

  /** The scan succeeds only at an `@` that splits `s`. */
  lemma {:induction false} SplitFromWitness(s: string, a: nat) returns (k: nat)
    requires SplitFrom(s, a)
    ensures a <= k && SplitAt(s, k)
    decreases |s| - a
  {
    if SplitAt(s, a) {
      k := a;
    } else {
      k := SplitFromWitness(s, a + 1);
    }
  }

  /** The scan finds every `@` that splits `s`. */
  lemma {:induction false} SplitFromFinds(s: string, a: nat, k: nat)
    requires a <= k && SplitAt(s, k)
    ensures SplitFrom(s, a)
    decreases k - a
  {
    if a < k {
      SplitFromFinds(s, a + 1, k);
    }
  }

  // ---------------------------------------------------------------- Joined algebra

  lemma WordRunJoined(s: string)
    requires WordRun(s)
    ensures Joined(s)
  {
  }

  lemma JoinedConcat(a: string, b: string)
    requires Joined(a) && Joined(b)
    ensures Joined(a + b)
  {
    if a != [] && b != [] {
      var s := a + b;
      forall i | 0 <= i < |s|
        ensures IsWordChar(s[i]) || IsSep(s[i])
      {
        if i < |a| { assert s[i] == a[i]; } else { assert s[i] == b[i - |a|]; }
      }
      forall i | 0 <= i < |s| - 1
        ensures !IsSep(s[i]) || !IsSep(s[i + 1])
      {
        if i < |a| - 1 {
          assert s[i] == a[i] && s[i + 1] == a[i + 1];
        } else if i == |a| - 1 {
          assert s[i] == a[|a| - 1];
        } else {
          assert s[i] == b[i - |a|] && s[i + 1] == b[i - |a| + 1];
        }
      }
      assert s[|s| - 1] == b[|b| - 1];
    } else if a == [] {
      assert a + b == b;
    } else {
      assert a + b == a;
    }
  }

  lemma JoinedSuffix(s: string, k: int)
    requires Joined(s) && 0 <= k <= |s|
    ensures Joined(s[k..])
  {
    if k < |s| {
      var t := s[k..];
      assert forall i :: 0 <= i < |t| ==> t[i] == s[k + i];
    }
  }

  lemma JoinedPrefix(s: string, k: int)
    requires Joined(s) && 1 <= k <= |s| && IsWordChar(s[k - 1])
    ensures Joined(s[..k])
  {
  }

  lemma PieceJoined(p: string)
    requires Piece(p)
    ensures Joined(p)
  {
    if !WordRun(p) {
      assert forall i :: 1 <= i < |p| ==> p[i] == p[1..][i - 1];
    }
  }

  lemma TldGroupJoined(g: string)
    requires TldGroup(g)
    ensures Joined(g) && TldSuffix(g)
  {
    assert forall i :: 1 <= i < |g| ==> g[i] == g[1..][i - 1];
    if |g| == 3 {
      assert g[|g| - 2..] == g[1..];
    } else {
      assert g[|g| - 3..] == g[1..];
    }
  }

  /** A suffix condition on the last characters survives putting anything in front. */
  lemma TldSuffixExtend(u: string, t: string)
    requires TldSuffix(t)
    ensures TldSuffix(u + t)
  {
    var s := u + t;
    if |t| >= 3 && t[|t| - 3] == '.' && WordRun(t[|t| - 2..]) {
      assert s[|s| - 3] == t[|t| - 3];
      assert s[|s| - 2..] == t[|t| - 2..];
    } else {
      assert s[|s| - 4] == t[|t| - 4];
      assert s[|s| - 3..] == t[|t| - 3..];
    }
  }

  // ---------------------------------------------------------------- the two descriptions agree

  lemma {:induction false} PiecesJoined(s: string)
    requires Pieces(s)
    ensures Joined(s)
    decreases |s|
  {
    if s != [] {
      var i :| 1 <= i <= |s| && Piece(s[..i]) && Pieces(s[i..]);
      PieceJoined(s[..i]);
      PiecesJoined(s[i..]);
      JoinedConcat(s[..i], s[i..]);
      assert s[..i] + s[i..] == s;
    }
  }

  lemma {:induction false} JoinedPieces(s: string)
    requires Joined(s)
    ensures Pieces(s)
    decreases |s|
  {
    if s != [] {
      var i := if IsWordChar(s[0]) then 1 else 2;
      if i == 2 {
        assert |s| >= 2 && IsSep(s[0]);
        assert s[..2][1..] == [s[1]];
      }
      assert Piece(s[..i]);
      JoinedSuffix(s, i);
      JoinedPieces(s[i..]);
    }
  }

  lemma DottedIff(s: string)
    ensures Dotted(s) <==> DottedName(s)
  {
    if Dotted(s) {
      var i :| 1 <= i <= |s| && WordRun(s[..i]) && Pieces(s[i..]);
      PiecesJoined(s[i..]);
      JoinedConcat(s[..i], s[i..]);
      assert s[..i] + s[i..] == s;
    }
    if DottedName(s) {
      JoinedSuffix(s, 1);
      JoinedPieces(s[1..]);
      assert WordRun(s[..1]);
    }
  }

  /** The length of the first group of a run of top-level-domain groups, and what remains after it. */
  lemma TldGroupsFirst(s: string) returns (i: nat)
    requires TldGroups(s)
    ensures i in {3, 4} && i <= |s| && TldGroup(s[..i])
    ensures i < |s| ==> TldGroups(s[i..])
  {
    if |s| >= 3 && TldGroup(s[..3]) && (|s| == 3 || TldGroups(s[3..])) {
      i := 3;
    } else {
      i := 4;
    }
  }

  lemma {:induction false} TldGroupsShape(s: string)
    requires TldGroups(s)
    ensures Joined(s) && |s| >= 3 && s[0] == '.' && TldSuffix(s)
    decreases |s|
  {
    var i := TldGroupsFirst(s);
    var g, rest := s[..i], s[i..];
    TldGroupJoined(g);
    assert s[0] == g[0];
    if i < |s| {
      TldGroupsShape(rest);
      JoinedConcat(g, rest);
      TldSuffixExtend(g, rest);
      assert g + rest == s;
    } else {
      assert g == s;
    }
  }

  /** A domain of the flat shape splits into a dotted name and one final group. */
  lemma FlatDomainSplits(d: string) returns (j: int)
    requires DottedName(d) && TldSuffix(d)
    ensures 0 <= j <= |d| && Dotted(d[..j]) && TldGroups(d[j..])
  {
    j := if d[|d| - 3] == '.' && WordRun(d[|d| - 2..]) then |d| - 3 else |d| - 4;
    assert d[j] == '.' && WordRun(d[j + 1..]);
    assert !IsSep(d[j - 1]);
    assert IsWordChar(d[j - 1]);
    JoinedPrefix(d, j);
    DottedIff(d[..j]);
    var g := d[j..];
    assert g[1..] == d[j + 1..];
    assert TldGroup(g[..|g|]) by { assert g[..|g|] == g; }
    assert TldGroups(g);
  }

  /** A domain matching the pattern has the flat shape. */
  lemma DomainFlat(d: string)
    requires DomainPattern(d)
    ensures DottedName(d) && TldSuffix(d)
  {
    var j :| 0 <= j <= |d| && Dotted(d[..j]) && TldGroups(d[j..]);
    DomainFlatAt(d, j);
  }

  lemma DomainFlatAt(d: string, j: int)
    requires 0 <= j <= |d| && Dotted(d[..j]) && TldGroups(d[j..])
    ensures DottedName(d) && TldSuffix(d)
  {
    var head, tail := d[..j], d[j..];
    DottedIff(head);
    TldGroupsShape(tail);
    assert head + tail == d;
    JoinedConcat(head, tail);
    TldSuffixExtend(head, tail);
  }

  lemma DomainIff(d: string)
    ensures DomainPattern(d) <==> DottedName(d) && TldSuffix(d)
  {
    if DomainPattern(d) {
      DomainFlat(d);
    }
    if DottedName(d) && TldSuffix(d) {
      var j := FlatDomainSplits(d);
    }
  }

  /** The pattern and the flat description accept the same strings. */
  lemma EmailIff(s: string)
    ensures MatchesPattern(s) <==> ValidEmail(s)
  {
    if MatchesPattern(s) {
      var a :| 0 <= a < |s| && s[a] == '@' && Dotted(s[..a]) && DomainPattern(s[a + 1..]);
      DottedIff(s[..a]);
      DomainIff(s[a + 1..]);
      SplitFromFinds(s, 0, a);
    }
    if ValidEmail(s) {
      var a := SplitFromWitness(s, 0);
      DottedIff(s[..a]);
      DomainIff(s[a + 1..]);
    }
  }

  /** `a@b.com` is accepted and `bad` is rejected. */
  lemma Examples()
    ensures MatchesPattern("a@b.com")
    ensures !MatchesPattern("bad")
  {
    var s := "a@b.com";
    assert s[..1] == "a" && s[2..] == "b.com";
    assert DottedName("b.com");
    assert "b.com"[2..] == "com";
    assert TldSuffix("b.com");
    assert SplitAt(s, 1);
    SplitFromFinds(s, 0, 1);
    EmailIff(s);
    EmailIff("bad");
  }
}

=== FILE: filter_buttons.dfy ===
/**
 * The row of period buttons above the contest and problem panels: each button carries a caption
 * and the filter value it emits, and is highlighted when that value is the current filter.
 */
module FilterButtons {

  datatype Button = Button(caption: string, value: string, active: bool)

  /** The buttons for `options` (caption, value) in order, highlighting those equal to `current`. */
  function Buttons(options: seq<(string, string)>, current: string): (r: seq<Button>)
    ensures |r| == |options|
    ensures forall i :: 0 <= i < |r| ==> r[i].caption == options[i].0 && r[i].value == options[i].1
    ensures forall i :: 0 <= i < |r| ==> (r[i].active <==> options[i].1 == current)
  {
    seq(|options|, i requires 0 <= i < |options| => Button(options[i].0, options[i].1, options[i].1 == current))
  }

  /** The option values are pairwise different. */
  predicate DistinctValues(options: seq<(string, string)>) {
    forall i, j :: 0 <= i < j < |options| ==> options[i].1 != options[j].1
  }

  /** Clicking button `i` emits its value, one of the option values. */
  function Click(options: seq<(string, string)>, i: int): (v: string)
    requires 0 <= i < |options|
    ensures exists j :: 0 <= j < |options| && v == options[j].1
    ensures v == options[i].1
  {
    options[i].1
  }

  /** With distinct values at most one button is highlighted, and exactly one when the current
      filter is one of the values; clicking a button highlights that button alone. */
  lemma AtMostOneActive(options: seq<(string, string)>, current: string, i: int)
    requires DistinctValues(options)
    requires 0 <= i < |options|
    ensures var bs := Buttons(options, Click(options, i));
            bs[i].active && forall j :: 0 <= j < |bs| && j != i ==> !bs[j].active
    ensures var bs := Buttons(options, current);
            forall j, k :: 0 <= j < |bs| && 0 <= k < |bs| && bs[j].active && bs[k].active ==> j == k
  {
  }
}

=== FILE: js.dfy ===
/**
 * The JavaScript values the client passes around, and the few operators on them it uses:
 * property access (a missing key reads `undefined`), truthiness, `||`, `===`, relational
 * comparison with a number, and object spread. Numbers are integers here.
 */
module Js {
  import opened Wrappers
  import opened Ascii

  datatype Value = Undefined | Null | Bool(b: bool) | Num(n: int) | NaN | Str(s: string)

  /** A plain object. */
  type Record = map<string, Value>

  /** `r[k]`: a key that is not present reads `undefined`. */
  function Get(r: Record, k: string): Value {
    if k in r then r[k] else Undefined
  }

  /** The values `if (v)` accepts: everything except `undefined`, `null`, `false`, `0`, `NaN`, `""`. */
  predicate Truthy(v: Value) {
    match v
    case Undefined => false
    case Null => false
    case Bool(b) => b
    case Num(n) => n != 0
    case NaN => false
    case Str(s) => s != ""
  }

  /** `a || b` */
  function Or(a: Value, b: Value): (r: Value)
    ensures Truthy(a) ==> r == a
    ensures !Truthy(a) ==> r == b
  {
    if Truthy(a) then a else b
  }

  /** `a === b`: same type and value, except that `NaN` equals nothing. */
  predicate StrictEq(a: Value, b: Value) {
    a == b && !a.NaN?
  }

  /** `{...a, ...b}`: the keys of both, the value from `b` where both have one. */
  function Spread(a: Record, b: Record): (r: Record)
    ensures r.Keys == a.Keys + b.Keys
    ensures forall k :: k in b ==> r[k] == b[k]
    ensures forall k :: k in a && k !in b ==> r[k] == a[k]
  {
    a + b
  }

  /** `Number(s)` for the integer forms: surrounding white space is ignored, an empty string is 0,
      and otherwise an optional sign and at least one digit are required. */
  function StrToNumber(s: string): (r: Option<int>)
    ensures Trim(s) == "" ==> r == Some(0)
    ensures r.Some? && Trim(s) != "" ==> Unsigned(Trim(s)) != "" && AllDigits(Unsigned(Trim(s)))
  {
    var t := Trim(s);
    var d := Unsigned(t);
    if t == "" then Some(0)
    else if d == "" || !AllDigits(d) then None
    else
      var v: int := DigitsValue(d);
      Some(if t[0] == '-' then -v else v)
  }

  /** The number a relational comparison converts `v` to; `None` is `NaN`. */
  function ToNumber(v: Value): Option<int> {
    match v
    case Undefined => None
    case Null => Some(0)
    case Bool(b) => Some(if b then 1 else 0)
    case Num(n) => Some(n)
    case NaN => None
    case Str(s) => StrToNumber(s)
  }

  /** `v >= k` for a number `k`: false whenever `v` converts to `NaN`. */
  predicate AtLeast(v: Value, k: int) {
    ToNumber(v).Some? && ToNumber(v).value >= k
  }

  /** `===` is symmetric, and reflexive on every value but `NaN`. */
  lemma StrictEqProperties(a: Value, b: Value)
    ensures StrictEq(a, b) <==> StrictEq(b, a)
    ensures StrictEq(a, a) <==> !a.NaN?
    ensures StrictEq(a, b) ==> a == b
  {
  }

  /** Reading a key of a spread object reads it from the right operand when present there. */
  lemma SpreadGet(a: Record, b: Record, k: string)
    ensures Get(Spread(a, b), k) == if k in b then b[k] else Get(a, k)
  {
  }

  /** The decimal text of an integer compares as that integer. */
  lemma StrToNumberOfInt(i: int)
    ensures StrToNumber(IntToString(i)) == Some(i)
  {
    var n: nat := if i < 0 then -i else i;
    var d := NatToString(n);
    NatToStringRoundTrip(n);
    if i < 0 {
      StrToNumberOfDigits("-" + d, d);
    } else {
      StrToNumberOfDigits(d, d);
    }
  }

  /** A run of digits, with or without a minus sign in front, converts to its value. */
  lemma StrToNumberOfDigits(s: string, d: string)
    requires d != "" && AllDigits(d)
    requires s == d || s == "-" + d
    ensures StrToNumber(s) == Some(if s[0] == '-' then -(DigitsValue(d) as int) else DigitsValue(d))
  {
    assert s[|s| - 1] == d[|d| - 1];
    TrimFixed(s);
    assert Unsigned(s) == d;
  }
}

=== FILE: lists.dfy ===
/** `Array.prototype.filter` and `map` over sequences, and what it means to keep elements in order. */
module Lists {

  /** `xs` is obtained from `ys` by deleting elements, without reordering the rest. */
  predicate IsSubseq<T(==)>(xs: seq<T>, ys: seq<T>)
    decreases |ys|
  {
    if xs == [] then true
    else if ys == [] then false
    else (xs[0] == ys[0] && IsSubseq(xs[1..], ys[1..])) || IsSubseq(xs, ys[1..])
  }

  lemma {:induction false} IsSubseqRefl<T>(xs: seq<T>)
    ensures IsSubseq(xs, xs)
    decreases |xs|
  {
    if xs != [] {
      IsSubseqRefl(xs[1..]);
    }
  }

  /** `xs.filter(p)`: the elements satisfying `p`, each kept as often as it occurs, in their
      original order. */
  function Filter<T(==,!new)>(xs: seq<T>, p: T -> bool): (r: seq<T>)
    ensures forall x :: x in r <==> x in xs && p(x)
    ensures |r| <= |xs|
    ensures IsSubseq(r, xs)
    ensures forall x :: multiset(r)[x] == if p(x) then multiset(xs)[x] else 0
    decreases |xs|
  {
    if xs == [] then []
    else
      var rest := Filter(xs[1..], p);
      assert xs == [xs[0]] + xs[1..];
      assert multiset(xs) == multiset{xs[0]} + multiset(xs[1..]);
      if p(xs[0]) then
        assert forall x :: x in xs <==> x == xs[0] || x in xs[1..];
        assert multiset([xs[0]] + rest) == multiset{xs[0]} + multiset(rest);
        [xs[0]] + rest
      else
        assert forall x :: x in xs <==> x == xs[0] || x in xs[1..];
        assert rest == [] || IsSubseq(rest, xs[1..]);
        rest
  }

  /** Filtering with a test every element passes keeps everything. */
  lemma {:induction false} FilterKeepsAll<T(!new)>(xs: seq<T>, p: T -> bool)
    requires forall i :: 0 <= i < |xs| ==> p(xs[i])
    ensures Filter(xs, p) == xs
    decreases |xs|
  {
    if xs != [] {
      FilterKeepsAll(xs[1..], p);
    }
  }

  /** Tests that agree on every element filter alike. */
  lemma {:induction false} FilterExt<T(!new)>(xs: seq<T>, p: T -> bool, q: T -> bool)
    requires forall i :: 0 <= i < |xs| ==> p(xs[i]) == q(xs[i])
    ensures Filter(xs, p) == Filter(xs, q)
    decreases |xs|
  {
    if xs != [] {
      FilterExt(xs[1..], p, q);
    }
  }

  /** Filtering twice with the same test is filtering once. */
  lemma FilterIdempotent<T(!new)>(xs: seq<T>, p: T -> bool)
    ensures Filter(Filter(xs, p), p) == Filter(xs, p)
  {
    var r := Filter(xs, p);
    FilterKeepsAll(r, p);
  }

  /** `xs.map(f)` */
  function Map<T, U>(xs: seq<T>, f: T -> U): (r: seq<U>)
    ensures |r| == |xs|
    ensures forall i :: 0 <= i < |xs| ==> r[i] == f(xs[i])
  {
    seq(|xs|, i requires 0 <= i < |xs| => f(xs[i]))
  }
}

=== FILE: mock_api.dfy ===
/**
 * The client's stand-in for the server: canned student, profile, contest and problem data,
 * and the records `addStudent` and `updateStudent` answer with. The current time, the ISO
 * date strings and the random numbers it would draw are parameters.
 */
module MockApi {
  import opened Wrappers
  import opened Ascii
  import opened Js
  import opened Lists
  import CH = ContestHistory
  import PS = ProblemSolving
  import StudentTable
  import EditStudentModal

  // ---------------------------------------------------------------- students and profiles

  /** The first canned student, under the given id. */
  function John(id: Value): (r: Record)
    ensures Get(r, "id") == id
  {
    map["name" := Str("John Doe"), "email" := Str("john@example.com"),
        "phone" := Str("123-456-7890"), "cfHandle" := Str("john_cf"),
        "currentRating" := Num(1500), "maxRating" := Num(1600),
        "lastUpdated" := Str("2023-05-15T10:30:00Z"), "syncTime" := Str("02:00"),
        "syncFrequency" := Str("daily"), "emailReminders" := Bool(true), "reminderCount" := Num(2),
        "lastReminderSent" := Str("2023-05-10T08:00:00Z"), "id" := id]
  }

  /** The second canned student, under the given id. */
  function Jane(id: Value): (r: Record)
    ensures Get(r, "id") == id
  {
    map["name" := Str("Jane Smith"), "email" := Str("jane@example.com"),
        "phone" := Str("987-654-3210"), "cfHandle" := Str("jane_cf"),
        "currentRating" := Num(2100), "maxRating" := Num(2200),
        "lastUpdated" := Str("2023-05-14T09:15:00Z"), "syncTime" := Str("03:00"),
        "syncFrequency" := Str("daily"), "emailReminders" := Bool(false), "reminderCount" := Num(0),
        "lastReminderSent" := Null, "id" := id]
  }

  /** `fetchStudents`: the two canned students. They carry `id`, `phone` and `cfHandle`, not
      the server's `_id`, `phoneNumber` and `codeforcesHandle`. */
  function Students(): (r: seq<Record>)
    ensures |r| == 2
    ensures forall i :: 0 <= i < 2 ==> "codeforcesHandle" !in r[i] && "_id" !in r[i] && "phoneNumber" !in r[i]
    ensures Get(r[0], "id") == Num(1) && Get(r[1], "id") == Num(2)
  {
    [John(Num(1)), Jane(Num(2))]
  }

  /** `parseInt(id)` as a JavaScript value. */
  function ParsedId(id: string): (v: Value)
    ensures v.Num? <==> ParseInt(id).Some?
    ensures v.Num? ==> v.n == ParseInt(id).value
    ensures !v.Num? ==> v == NaN
  {
    match ParseInt(id)
    case Some(n) => Num(n)
    case None => NaN
  }

  /** `fetchStudentProfile(id)`: the record `fetchStudents` lists first for the route parameter
      '1' and second for any other, with `parseInt(id)` as its id. */
  function Profile(id: string): (r: Record)
    ensures Get(r, "id") == ParsedId(id)
    ensures id == "1" ==> r == Students()[0]["id" := ParsedId(id)]
    ensures id != "1" ==> r == Students()[1]["id" := ParsedId(id)]
  {
    if id == "1" then John(ParsedId(id)) else Jane(ParsedId(id))
  }

  // ---------------------------------------------------------------- contests

  const SecondsPerDay: real := 86400.0

  /** How many days before `now` each canned contest took place, by the requested period. */
  function DaysAgo(contestId: int, days: string): (d: int)
    ensures d > 0
    ensures contestId == 123 <==> d in {10, 40, 200}
    ensures days == "30" ==> d <= 10
    ensures days == "90" ==> 10 < d <= 40
    ensures days != "30" && days != "90" ==> 40 < d <= 200
  {
    if contestId == 123 then (if days == "30" then 10 else if days == "90" then 40 else 200)
    else (if days == "30" then 5 else if days == "90" then 20 else 150)
  }

  /** The two canned contests: the first student's figures when the id is the string '1'. */
  function BaseContests(studentId: Value, days: string, now: real): (r: seq<CH.Contest>)
    ensures |r| == 2
    ensures forall i :: 0 <= i < 2 ==> r[i].contestTime == now - DaysAgo(r[i].contestId, days) as real * SecondsPerDay
    ensures StrictEq(studentId, Str("1")) <==> r[0].ratingChange == 50
  {
    var first := StrictEq(studentId, Str("1"));
    [CH.Contest(123, "Codeforces Round #123", now - DaysAgo(123, days) as real * SecondsPerDay, 150, 3, 5,
                if first then 50 else 30, if first then 1500 else 2100),
     CH.Contest(124, "Codeforces Round #124", now - DaysAgo(124, days) as real * SecondsPerDay, 200, 2, 5,
                if first then -20 else 10, if first then 1480 else 2110)]
  }

  /** `fetchContestHistory`: the canned contests no older than `parseInt(days)` days, in order.
      A period that does not parse gives a `NaN` cut-off, which no time reaches. */
  function ContestHistory(studentId: Value, days: string, now: real): (r: seq<CH.Contest>)
    ensures IsSubseq(r, BaseContests(studentId, days, now))
    ensures ParseInt(days).None? ==> r == []
    ensures ParseInt(days).Some? ==> forall c :: c in r <==>
              c in BaseContests(studentId, days, now) &&
              c.contestTime >= now - ParseInt(days).value as real * SecondsPerDay
  {
    var base := BaseContests(studentId, days, now);
    match ParseInt(days)
    case None => []
    case Some(d) =>
      var cutoff := now - d as real * SecondsPerDay;
      Filter(base, (c: CH.Contest) => c.contestTime >= cutoff)
  }

  /** A contest is kept exactly when it is at most `days` days old. */
  lemma WindowByDays(studentId: Value, days: string, now: real, c: CH.Contest)
    requires ParseInt(days).Some?
    ensures c in ContestHistory(studentId, days, now) <==>
              c in BaseContests(studentId, days, now) && DaysAgo(c.contestId, days) <= ParseInt(days).value
  {
    var base := BaseContests(studentId, days, now);
    if c in base {
      var i :| 0 <= i < 2 && base[i] == c;
      var k := DaysAgo(c.contestId, days) as real;
      var d := ParseInt(days).value as real;
      assert c.contestTime >= now - d * SecondsPerDay <==> k <= d;
    }
  }

  /** Each of the panel's three periods shows both canned contests. */
  lemma PeriodsShowBoth(studentId: Value, now: real, days: string)
    requires days == "30" || days == "90" || days == "365"
    ensures ContestHistory(studentId, days, now) == BaseContests(studentId, days, now)
  {
    PeriodDays(days);
    ParseDigits(days);
    WithinPeriod(studentId, days, now, DigitsValue(days));
  }

  /** A period that reaches back past both canned contests keeps both. */
  lemma WithinPeriod(studentId: Value, days: string, now: real, n: int)
    requires ParseInt(days) == Some(n)
    requires DaysAgo(123, days) <= n && DaysAgo(124, days) <= n
    ensures ContestHistory(studentId, days, now) == BaseContests(studentId, days, now)
  {
    var base := BaseContests(studentId, days, now);
    var cutoff := now - n as real * SecondsPerDay;
    assert forall i :: 0 <= i < 2 ==> base[i].contestTime >= cutoff;
    FilterKeepsAll(base, (c: CH.Contest) => c.contestTime >= cutoff);
  }

  /** Each period button of the contest panel is a digit string, and the number of days it
      names is at least the age of either canned contest. */
  lemma PeriodDays(days: string)
    requires days == "30" || days == "90" || days == "365"
    ensures days != "" && AllDigits(days)
    ensures DaysAgo(123, days) <= DigitsValue(days) && DaysAgo(124, days) <= DigitsValue(days)
  {
    DigitsSnoc([], days[0]);
    DigitsSnoc([days[0]], days[1]);
    if |days| == 2 {
      assert days == [days[0]] + [days[1]];
    } else {
      DigitsSnoc([days[0], days[1]], days[2]);
      assert days == [days[0], days[1]] + [days[2]];
    }
  }

  /** The profile page hands the panels the parsed number `student.id`, never a string, so the
      contest history shows the second student's figures even on the first student's page. */
  lemma ProfilePanelsIgnoreId(id: string, days: string, now: real)
    ensures !StrictEq(Get(Profile(id), "id"), Str("1"))
    ensures BaseContests(Get(Profile(id), "id"), days, now)[0].ratingChange == 30
  {
  }

  // ---------------------------------------------------------------- problems

  /** `fetchProblemData`, without the decimal averages and the hardest problem. */
  function ProblemData(studentId: Value, calendar: seq<PS.Day>): (r: PS.ProblemData)
    ensures |r.ratingDistribution| == 7 && r.submissionCalendar == calendar
    ensures r.totalSolved == (if StrictEq(studentId, Str("1")) then 45 else 78)
  {
    var first := StrictEq(studentId, Str("1"));
    PS.ProblemData(if first then 45 else 78,
                   [PS.RangeCount("800-999", if first then 5 else 2),
                    PS.RangeCount("1000-1199", if first then 10 else 5),
                    PS.RangeCount("1200-1399", if first then 15 else 10),
                    PS.RangeCount("1400-1599", if first then 10 else 15),
                    PS.RangeCount("1600-1799", if first then 5 else 20),
                    PS.RangeCount("1800-1999", if first then 0 else 15),
                    PS.RangeCount("2000+", if first then 0 else 11)],
                   calendar)
  }

  function SumCounts(dist: seq<PS.RangeCount>): int
    decreases |dist|
  {
    if dist == [] then 0 else dist[0].count + SumCounts(dist[1..])
  }

  /** The bars add up to the total shown in the summary, for either student. */
  lemma DistributionSumsToTotal(studentId: Value, calendar: seq<PS.Day>)
    ensures SumCounts(ProblemData(studentId, calendar).ratingDistribution) == ProblemData(studentId, calendar).totalSolved
  {
    var dist := ProblemData(studentId, calendar).ratingDistribution;
    assert SumCounts(dist[7..]) == 0;
    assert SumCounts(dist[6..]) == dist[6].count by { assert dist[6..][1..] == dist[7..]; }
    assert SumCounts(dist[5..]) == dist[5].count + SumCounts(dist[6..]) by { assert dist[5..][1..] == dist[6..]; }
    assert SumCounts(dist[4..]) == dist[4].count + SumCounts(dist[5..]) by { assert dist[4..][1..] == dist[5..]; }
    assert SumCounts(dist[3..]) == dist[3].count + SumCounts(dist[4..]) by { assert dist[3..][1..] == dist[4..]; }
    assert SumCounts(dist[2..]) == dist[2].count + SumCounts(dist[3..]) by { assert dist[2..][1..] == dist[3..]; }
    assert SumCounts(dist[1..]) == dist[1].count + SumCounts(dist[2..]) by { assert dist[1..][1..] == dist[2..]; }
    assert SumCounts(dist) == dist[0].count + SumCounts(dist[1..]);
  }

  /** `generateSubmissionCalendar(days)`: one entry per day back from today, for `parseInt(days)`
      days (none when it is not a positive number), each with a random count from 0 to 9.
      `dateOf(i)` is the date `i` days ago and `rand(i)` the i-th random draw. */
  method SubmissionCalendar(days: string, dateOf: nat -> string, rand: nat -> real) returns (r: seq<PS.Day>)
    requires forall i: nat :: 0.0 <= rand(i) < 1.0
    ensures |r| == if ParseInt(days).Some? && ParseInt(days).value > 0 then ParseInt(days).value else 0
    ensures forall i :: 0 <= i < |r| ==> r[i].date == Some(dateOf(i)) && r[i].count == (rand(i) * 10.0).Floor
    ensures forall i :: 0 <= i < |r| ==> 0 <= r[i].count <= 9
  {
    var count: nat := match ParseInt(days) case Some(n) => (if n > 0 then n else 0) case None => 0;
    r := [];
    var i: nat := 0;
    while i < count
      invariant i <= count && |r| == i
      invariant forall j :: 0 <= j < i ==> r[j] == PS.Day(Some(dateOf(j)), (rand(j) * 10.0).Floor)
    {
      r := r + [PS.Day(Some(dateOf(i)), (rand(i) * 10.0).Floor)];
      i := i + 1;
    }
    forall j | 0 <= j < |r|
      ensures 0 <= r[j].count <= 9
    {
      DrawDigit(rand(j));
    }
  }

  /** `Math.floor(r * 10)` for a draw `r` in [0, 1) is a digit. */
  lemma DrawDigit(r: real)
    requires 0.0 <= r < 1.0
    ensures 0 <= (r * 10.0).Floor <= 9
  {
    var x := r * 10.0;
    assert 0.0 <= x < 10.0;
    assert x.Floor as real <= x < x.Floor as real + 1.0;
  }

  // ---------------------------------------------------------------- writes

  /** The fields `addStudent` always sets, whatever it was sent. */
  const AddDefaults: Record := map[
    "currentRating" := Num(0), "maxRating" := Num(0), "lastUpdated" := Null,
    "syncTime" := Str("02:00"), "syncFrequency" := Str("daily"), "emailReminders" := Bool(true),
    "reminderCount" := Num(0), "lastReminderSent" := Null]

  /** `addStudent(data)`: a random id from 3 to 1002, then the submitted fields, then the fixed
      ones. `r` is the random draw. */
  function AddStudent(data: Record, r: real): (s: Record)
    requires 0.0 <= r < 1.0
    ensures s.Keys == data.Keys + AddDefaults.Keys + {"id"}
    ensures forall k :: k in AddDefaults ==> s[k] == AddDefaults[k]
    ensures forall k :: k in data && k !in AddDefaults ==> s[k] == data[k]
    ensures "id" !in data ==> s["id"].Num? && 3 <= s["id"].n <= 1002
  {
    var x := r * 1000.0;
    assert 0.0 <= x < 1000.0;
    Spread(Spread(map["id" := Num(x.Floor + 3)], data), AddDefaults)
  }

  /** `updateStudent(id, data)`: the id, then the submitted fields, then ratings that depend on
      whether the id is the number 1, and fixed settings. `nowIso` is the current time. */
  function UpdateDefaults(id: Value, nowIso: string): (d: Record)
    ensures d.Keys == {"currentRating", "maxRating", "lastUpdated", "syncTime", "syncFrequency",
                       "emailReminders", "reminderCount", "lastReminderSent"}
    ensures StrictEq(id, Num(1)) ==> d["currentRating"] == Num(1500) && d["maxRating"] == Num(1600)
    ensures !StrictEq(id, Num(1)) ==> d["currentRating"] == Num(2100) && d["maxRating"] == Num(2200)
    ensures d["lastUpdated"] == Str(nowIso)
    ensures d["syncTime"] == Str("02:00") && d["syncFrequency"] == Str("daily")
    ensures d["emailReminders"] == Bool(true)
    ensures d["reminderCount"] == Num(if StrictEq(id, Num(1)) then 2 else 0)
    ensures d["lastReminderSent"] == if StrictEq(id, Num(1)) then Str("2023-05-10T08:00:00Z") else Null
  {
    var first := StrictEq(id, Num(1));
    map["syncTime" := Str("02:00"), "syncFrequency" := Str("daily"),
        "emailReminders" := Bool(true), "reminderCount" := Num(if first then 2 else 0),
        "lastReminderSent" := if first then Str("2023-05-10T08:00:00Z") else Null,
        "lastUpdated" := Str(nowIso),
        "maxRating" := Num(if first then 1600 else 2200), "currentRating" := Num(if first then 1500 else 2100)]
  }

  function UpdateStudent(id: Value, data: Record, nowIso: string): (s: Record)
    ensures s.Keys == data.Keys + UpdateDefaults(id, nowIso).Keys + {"id"}
    ensures forall k :: k in UpdateDefaults(id, nowIso) ==> s[k] == UpdateDefaults(id, nowIso)[k]
    ensures "id" !in data ==> s["id"] == id
    ensures forall k :: k in data && k !in UpdateDefaults(id, nowIso) ==> s[k] == data[k]
  {
    Spread(Spread(map["id" := id], data), UpdateDefaults(id, nowIso))
  }

  /** `updateSyncSettings`: always a success, whatever it is sent. */
  function UpdateSyncSettings(studentId: Value, settings: Record): (r: Record)
    ensures r.Keys == {"success"} && r["success"] == Bool(true)
  {
    map["success" := Bool(true)]
  }

  // ---------------------------------------------------------------- flows across components

  /** A student added through the dialog reaches the table with both ratings shown as 'N/A',
      and appended after the existing rows. */
  lemma AddedStudentShowsNA(list: seq<Record>, form: map<string, string>, r: real)
    requires 0.0 <= r < 1.0
    ensures var added := AddStudent(map k | k in form :: Str(form[k]), r);
            var rows := StudentTable.Added(list, added);
            rows[|list|] == added &&
            StudentTable.RatingCell(Get(added, "currentRating")) == Str("N/A") &&
            StudentTable.RatingCell(Get(added, "maxRating")) == Str("N/A")
  {
  }

  /** The edit dialog never sends an `id` among its fields, so the record it gets back keeps
      the id it asked about. */
  /** Whatever the form sends, an edit answers with the fixed sync settings, so the settings tab
      then opens on '02:00', 'daily' and reminders on. */
  lemma EditResetsSyncSettings(id: Value, data: Record, nowIso: string)
    ensures var s := UpdateStudent(id, data, nowIso);
            && s["syncTime"] == Str("02:00") && s["syncFrequency"] == Str("daily")
            && s["emailReminders"] == Bool(true)
            && s["reminderCount"] == Num(if StrictEq(id, Num(1)) then 2 else 0)
            && s["lastReminderSent"] == (if StrictEq(id, Num(1)) then Str("2023-05-10T08:00:00Z") else Null)
  {
    var d := UpdateDefaults(id, nowIso);
    assert "syncTime" in d && "syncFrequency" in d && "emailReminders" in d;
    assert "reminderCount" in d && "lastReminderSent" in d;
  }

  lemma EditKeepsId(s: EditStudentModal.EditState, student: Record, nowIso: string)
    requires s.form.Keys <= {"name", "email", "phone", "cfHandle"}
    ensures var req := EditStudentModal.SubmitStarted(s, student).1;
            UpdateStudent(req.id, req.form, nowIso)["id"] == Get(student, "id")
  {
  }
}

=== FILE: problem_solving.dfy ===
/**
 * The problem-solving panel of the profile page: the summary, the bar chart of solved problems
 * per rating range, and the submission heatmap with its colour buckets and tooltips.
 */
module ProblemSolving {
  import opened Wrappers
  import opened Ascii
  import opened Lists
  import opened FilterButtons

  /** One heatmap cell; `date` is `None` when the value has no date. */
  datatype Day = Day(date: Option<string>, count: int)

  datatype RangeCount = RangeCount(ratingRange: string, count: int)

  /** The fetched statistics; the decimal averages and the hardest problem are not modelled. */
  datatype ProblemData = ProblemData(totalSolved: int, ratingDistribution: seq<RangeCount>, submissionCalendar: seq<Day>)

  /** The colour scale index of a day with `count` submissions: one step per five, capped at 4. */
  function Bucket(count: int): (k: int)
    ensures k <= 4
    ensures count >= 0 ==> 0 <= k
  {
    var q := count / 5;
    if q < 4 then q else 4
  }

  /** `classForValue`: the CSS class of a heatmap cell, 'color-empty' for a missing value. */
  function ClassFor(v: Option<Day>): (c: string)
    ensures v.None? ==> c == "color-empty"
    ensures v.Some? && v.value.count >= 0 ==> c == "color-scale-" + [DigitChar(Bucket(v.value.count))]
  {
    if v.None? then "color-empty"
    else
      var k := Bucket(v.value.count);
      assert k >= 0 ==> NatToString(k) == [DigitChar(k)];
      "color-scale-" + IntToString(k)
  }

  /** The bucket by bands: counts 5k to 5k+4 get k for k below 4, and every count from 20 on
      gets 4. */
  lemma BucketBands(count: int, k: int)
    requires count >= 0
    ensures Bucket(count) == k <==> (0 <= k < 4 && 5 * k <= count < 5 * k + 5) || (k == 4 && count >= 20)
  {
  }

  /** More submissions never give a lighter colour; 0 to 4 give the first step and 20 or more
      the last. */
  lemma BucketMonotone(a: int, b: int)
    requires a <= b
    ensures Bucket(a) <= Bucket(b)
    ensures 0 <= a <= 4 ==> Bucket(a) == 0
    ensures a >= 20 ==> Bucket(a) == 4
  {
    assert a / 5 <= b / 5 by {
      DivMonotone(a, b);
    }
  }

  lemma {:induction false} DivMonotone(a: int, b: int)
    requires a <= b
    ensures a / 5 <= b / 5
  {
    var qa, qb := a / 5, b / 5;
    assert a == 5 * qa + a % 5 && 0 <= a % 5 < 5;
    assert b == 5 * qb + b % 5 && 0 <= b % 5 < 5;
  }

  /** `tooltipDataAttrs`: no tooltip without a value or without a date, otherwise
      '<date>: <count> problems solved'. */
  function Tooltip(v: Option<Day>): (t: Option<string>)
    ensures t.None? <==> v.None? || v.value.date.None? || v.value.date.value == ""
    ensures t.Some? ==> var d := v.value.date.value;
              |t.value| > |d| + 2 && t.value[..|d|] == d && t.value[|d|..|d| + 2] == ": "
    ensures t.Some? ==> var tail := " problems solved";
              |t.value| >= |v.value.date.value| + 2 + |tail| && t.value[|t.value| - |tail|..] == tail
    ensures t.Some? ==> t.value[|v.value.date.value| + 2..|t.value| - 16] == IntToString(v.value.count)
  {
    if v.None? || v.value.date.None? || v.value.date.value == "" then None
    else
      var d := v.value.date.value;
      var c := IntToString(v.value.count);
      var text := d + ": " + c + " problems solved";
      assert text[..|d|] == d;
      assert text[|d|..|d| + 2] == ": ";
      assert text[|d| + 2..|text| - 16] == c;
      Some(text)
  }

  /** The number between the date and ' problems solved' reads back as the day's count. */
  lemma TooltipCount(v: Option<Day>)
    requires Tooltip(v).Some?
    ensures var t := Tooltip(v).value;
            ParseInt(t[|v.value.date.value| + 2..|t| - 16]) == Some(v.value.count)
  {
    ParseIntRoundTrip(v.value.count);
  }

  /** The bar chart: rating ranges along the axis, counts as the series. */
  datatype Bars = Bars(labels: seq<string>, data: seq<int>)

  function BarsOf(dist: seq<RangeCount>): (b: Bars)
    ensures |b.labels| == |dist| && |b.data| == |dist|
    ensures forall i :: 0 <= i < |dist| ==> b.labels[i] == dist[i].ratingRange && b.data[i] == dist[i].count
  {
    Bars(Map(dist, (x: RangeCount) => x.ratingRange), Map(dist, (x: RangeCount) => x.count))
  }

  datatype ProblemState = ProblemState(data: Option<ProblemData>, loading: bool)

  function Init(): (s: ProblemState)
    ensures s.data.None? && s.loading
  {
    ProblemState(None, true)
  }

  function LoadDone(s: ProblemState, data: Option<ProblemData>): (t: ProblemState)
    ensures t.data == data && !t.loading
  {
    s.(data := data, loading := false)
  }

  function LoadFailed(s: ProblemState): (t: ProblemState)
    ensures t.data == s.data && !t.loading
  {
    s.(loading := false)
  }

  /** The period buttons: the last 7, 30 and 90 days. */
  const Periods: seq<(string, string)> :=
    [("Last 7 Days", "7"), ("Last 30 Days", "30"), ("Last 90 Days", "90")]

  datatype View =
    | Spinner
    | NoData
    | Stats(buttons: seq<Button>, totalSolved: int, bars: Bars, cells: seq<string>, tips: seq<Option<string>>)

  function Render(s: ProblemState, filter: string): (v: View)
    ensures v == Spinner <==> s.loading
    ensures v == NoData <==> !s.loading && s.data.None?
    ensures v.Stats? ==> s.data.Some? && v.bars == BarsOf(s.data.value.ratingDistribution)
    ensures v.Stats? ==> v.buttons == Buttons(Periods, filter) && v.totalSolved == s.data.value.totalSolved
    ensures v.Stats? ==> |v.cells| == |v.tips| == |s.data.value.submissionCalendar|
    ensures v.Stats? ==> forall i :: 0 <= i < |v.cells| ==>
              v.cells[i] == ClassFor(Some(s.data.value.submissionCalendar[i])) &&
              v.tips[i] == Tooltip(Some(s.data.value.submissionCalendar[i]))
  {
    if s.loading then Spinner
    else if s.data.None? then NoData
    else
      var d := s.data.value;
      var cal := d.submissionCalendar;
      Stats(Buttons(Periods, filter), d.totalSolved, BarsOf(d.ratingDistribution),
            Map(cal, (x: Day) => ClassFor(Some(x))), Map(cal, (x: Day) => Tooltip(Some(x))))
  }

  /** The heatmap's first day: `days` days of milliseconds before `now`; `None` when `days` does
      not parse (an invalid date). */
  function StartDate(now: int, filter: string): (r: Option<int>)
    ensures r.Some? <==> ParseInt(filter).Some?
    ensures r.Some? ==> r.value == now - ParseInt(filter).value * 86400000
  {
    match ParseInt(filter)
    case None => None
    case Some(days) => Some(now - days * 24 * 60 * 60 * 1000)
  }

  /** A `null` answer shows the no-data message once loaded; the buttons emit only the three
      periods, and each of them yields a start date that many days back. */
  lemma NoDataAndPeriods(now: int, i: int)
    requires 0 <= i < 3
    ensures Render(LoadDone(Init(), None), "7") == NoData
    ensures Render(LoadFailed(Init()), "7") == NoData
    ensures Click(Periods, i) in {"7", "30", "90"}
    ensures StartDate(now, Click(Periods, i)).Some?
  {
    var p := Click(Periods, i);
    assert p == "7" || p == "30" || p == "90";
    ParseDigits(p);
  }
}

=== FILE: student_profile.dfy ===
/**
 * The profile page of one student: the fetch of the profile record, the spinner / not-found /
 * profile choice, the header card with its rating colours and fall-back texts, and the three
 * tabs of which exactly one panel is shown.
 */
module StudentProfile {
  import opened Wrappers
  import opened Js
  import opened StudentTable

  datatype Tab = ContestTab | ProblemsTab | SettingsTab

  datatype ProfileState = ProfileState(
    student: Option<Record>,
    loading: bool,
    activeTab: Tab,
    contestFilter: string,
    problemFilter: string)

  /** The page as first rendered, before the fetch settles. */
  function Init(): (s: ProfileState)
    ensures s.loading && s.student.None? && s.activeTab == ContestTab
    ensures s.contestFilter == "30" && s.problemFilter == "7"
  {
    ProfileState(None, true, ContestTab, "30", "7")
  }

  /** The fetch resolved with `data` (`None` for a `null` answer). */
  function FetchDone(s: ProfileState, data: Option<Record>): (t: ProfileState)
    ensures t.student == data && !t.loading
    ensures t.activeTab == s.activeTab && t.contestFilter == s.contestFilter && t.problemFilter == s.problemFilter
  {
    s.(student := data, loading := false)
  }

  /** The fetch rejected: the error is logged and only the spinner goes away. */
  function FetchFailed(s: ProfileState): (t: ProfileState)
    ensures !t.loading && t.student == s.student
    ensures t.activeTab == s.activeTab && t.contestFilter == s.contestFilter && t.problemFilter == s.problemFilter
  {
    s.(loading := false)
  }

  /** A click on a tab button. */
  function ClickTab(s: ProfileState, tab: Tab): (t: ProfileState)
    ensures t.activeTab == tab && t.student == s.student && t.loading == s.loading
    ensures t.contestFilter == s.contestFilter && t.problemFilter == s.problemFilter
  {
    s.(activeTab := tab)
  }

  /** The contest panel's `onFilterChange`. */
  function SetContestFilter(s: ProfileState, f: string): (t: ProfileState)
    ensures t.contestFilter == f && t == s.(contestFilter := t.contestFilter)
  {
    s.(contestFilter := f)
  }

  /** The problem panel's `onFilterChange`. */
  function SetProblemFilter(s: ProfileState, f: string): (t: ProfileState)
    ensures t.problemFilter == f && t == s.(problemFilter := t.problemFilter)
  {
    s.(problemFilter := f)
  }

  /** One rating box of the header: its colour and its text. */
  datatype RatingBox = RatingBox(tier: Tier, text: Value)

  /** The header card. */
  datatype Card = Card(
    name: Value, email: Value, phone: Value, handle: Value,
    current: RatingBox, max: RatingBox, lastUpdated: Cell)

  /** The panel below the tabs, with the properties it receives. */
  datatype Panel =
    | ContestPanel(studentId: Value, filter: string)
    | ProblemsPanel(studentId: Value, filter: string)
    | SettingsPanel(student: Record)

  datatype View = Loading | NotFound | Profile(card: Card, panel: Panel)

  function PanelTab(p: Panel): Tab {
    match p
    case ContestPanel(_, _) => ContestTab
    case ProblemsPanel(_, _) => ProblemsTab
    case SettingsPanel(_) => SettingsTab
  }

  /** The colour and text of a rating: the table's tier thresholds, and 'N/A' for a falsy value. */
  function Box(v: Value): (b: RatingBox)
    ensures b.text == Str("N/A") <==> !Truthy(v) || v == Str("N/A")
    ensures Truthy(v) ==> b.text == v
    ensures (exists n :: v == Num(n) && n >= 2100) ==> b.tier == Red
    ensures !Truthy(v) ==> b.tier == Gray
  {
    RatingBox(TierOf(v), RatingCell(v))
  }

  function CardOf(st: Record): (c: Card)
    ensures c.name == Get(st, "name") && c.email == Get(st, "email")
    ensures c.phone == Get(st, "phone") && c.handle == Get(st, "cfHandle")
    ensures c.lastUpdated == Plain(Str("Never")) <==> !Truthy(Get(st, "lastUpdated"))
    ensures c.lastUpdated == DateCell(Get(st, "lastUpdated"))
    ensures c.current == Box(Get(st, "currentRating")) && c.max == Box(Get(st, "maxRating"))
  {
    Card(Get(st, "name"), Get(st, "email"), Get(st, "phone"), Get(st, "cfHandle"),
         Box(Get(st, "currentRating")), Box(Get(st, "maxRating")), DateCell(Get(st, "lastUpdated")))
  }

  /** What the page renders. */
  function Render(s: ProfileState): (v: View)
    ensures v == Loading <==> s.loading
    ensures v == NotFound <==> !s.loading && s.student.None?
    ensures v.Profile? ==> s.student.Some? && v.card == CardOf(s.student.value)
    ensures v.Profile? ==> PanelTab(v.panel) == s.activeTab
    ensures v.Profile? && v.panel.ContestPanel? ==>
              v.panel == ContestPanel(Get(s.student.value, "id"), s.contestFilter)
    ensures v.Profile? && v.panel.ProblemsPanel? ==>
              v.panel == ProblemsPanel(Get(s.student.value, "id"), s.problemFilter)
    ensures v.Profile? && v.panel.SettingsPanel? ==> v.panel == SettingsPanel(s.student.value)
  {
    if s.loading then Loading
    else if s.student.None? then NotFound
    else
      var st := s.student.value;
      var panel := match s.activeTab
        case ContestTab => ContestPanel(Get(st, "id"), s.contestFilter)
        case ProblemsTab => ProblemsPanel(Get(st, "id"), s.problemFilter)
        case SettingsTab => SettingsPanel(st);
      Profile(CardOf(st), panel)
  }

  /** From the first render: a successful fetch of a record shows its profile on the contest tab
      with the 30-day filter, a `null` answer or a failure shows 'not found', and whichever tab
      is clicked afterwards is the one panel shown. */
  lemma LoadThenClick(data: Option<Record>, tab: Tab)
    ensures Render(Init()) == Loading
    ensures Render(FetchFailed(Init())) == NotFound
    ensures data.None? ==> Render(FetchDone(Init(), data)) == NotFound
    ensures data.Some? ==>
              Render(FetchDone(Init(), data)) == Profile(CardOf(data.value), ContestPanel(Get(data.value, "id"), "30"))
    ensures data.Some? ==> PanelTab(Render(ClickTab(FetchDone(Init(), data), tab)).panel) == tab
  {
  }

  /** The header colours the two ratings exactly as the table colours its badges, so a rating
      of at least 2100 is red on both pages and a higher rating never gets a lower colour. */
  lemma BoxMonotone(a: int, b: int)
    requires a <= b
    ensures Rank(Box(Num(a)).tier) <= Rank(Box(Num(b)).tier)
    ensures Box(Num(a)).tier == TierOf(Num(a))
  {
    TierMonotone(a, b);
  }

  /** The header of a shown profile gives each rating the text and colour the table gives it:
      'N/A' and gray for a falsy rating, the rating itself otherwise, the table's tier always. */
  lemma ProfileRatingsAsTable(s: ProfileState)
    requires Render(s).Profile?
    ensures var st := s.student.value;
            var card := Render(s).card;
            && card.current.text == RatingCell(Get(st, "currentRating"))
            && card.max.text == RatingCell(Get(st, "maxRating"))
            && card.current.tier == TierOf(Get(st, "currentRating"))
            && card.max.tier == TierOf(Get(st, "maxRating"))
            && (!Truthy(Get(st, "currentRating")) ==> card.current == RatingBox(Gray, Str("N/A")))
  {
  }
}

=== FILE: student_routes.dfy ===
/**
 * The router mounted under `/api/students`: five routes tried in order, each naming a
 * controller operation. Paths are what the router sees after the mount prefix is stripped,
 * so the collection itself is `/`.
 */
module StudentRoutes {
  import opened Wrappers
  import opened StudentSchema
  import opened StudentStore

  datatype Method = GET | HEAD | POST | PUT | PATCH | DELETE | OPTIONS

  /** The two path patterns of the router. */
  datatype Pattern = Root | WithId

  datatype Handler = GetAllStudent | GetStudentById | CreateStudent | UpdateStudent | DeleteStudent

  datatype Route = Route(verb: Method, pattern: Pattern, handler: Handler)

  /** The routes, in registration order. */
  const Table: seq<Route> := [
    Route(GET, Root, GetAllStudent),
    Route(GET, WithId, GetStudentById),
    Route(POST, Root, CreateStudent),
    Route(PUT, WithId, UpdateStudent),
    Route(DELETE, WithId, DeleteStudent)
  ]

  /** A handler together with the `:id` parameter it receives. */
  datatype Action = Action(handler: Handler, id: Option<Id>)

  /** `/:id`: one non-empty segment; non-strict routing also accepts one trailing slash. */
  function IdParam(path: string): (r: Option<Id>)
    ensures r.Some? <==>
              exists seg :: seg != "" && '/' !in seg && (path == "/" + seg || path == "/" + seg + "/")
    ensures r.Some? ==> r.value != "" && '/' !in r.value && (path == "/" + r.value || path == "/" + r.value + "/")
  {
    if |path| >= 2 && path[0] == '/' then
      var rest := path[1..];
      var seg := if rest[|rest| - 1] == '/' then rest[..|rest| - 1] else rest;
      assert path == "/" + rest;
      assert rest[|rest| - 1] == '/' ==> rest == seg + "/";
      if seg != "" && '/' !in seg then Some(seg)
      else
        None
    else None
  }

  /** Express answers HEAD with the GET route when no HEAD route exists. */
  predicate MethodMatches(route: Method, m: Method) {
    route == m || (route == GET && m == HEAD)
  }

  /** The parameter a pattern extracts from `path`, if it matches. */
  function PatternMatch(p: Pattern, path: string): Option<Option<Id>> {
    match p
    case Root => if path == "/" then Some(None) else None
    case WithId => match IdParam(path) { case Some(id) => Some(Some(id)) case None => None }
  }

  /** The first route of `routes` matching the request. */
  function FirstMatch(routes: seq<Route>, m: Method, path: string): (r: Option<Action>)
    ensures r.Some? ==> exists i :: 0 <= i < |routes| && routes[i].handler == r.value.handler
    decreases |routes|
  {
    if routes == [] then None
    else
      var rt := routes[0];
      var pm := PatternMatch(rt.pattern, path);
      if MethodMatches(rt.verb, m) && pm.Some? then Some(Action(rt.handler, pm.value))
      else
        var r := FirstMatch(routes[1..], m, path);
        assert r.Some? ==> exists i :: 1 <= i < |routes| && routes[i].handler == r.value.handler by {
          if r.Some? {
            var i :| 0 <= i < |routes[1..]| && routes[1..][i].handler == r.value.handler;
            assert routes[i + 1] == routes[1..][i];
          }
        }
        r
  }

  function Dispatch(m: Method, path: string): (r: Option<Action>)
    ensures r.Some? ==> exists i :: 0 <= i < |Table| && Table[i].handler == r.value.handler
  {
    FirstMatch(Table, m, path)
  }

  /** The routes in order, tried one after the other. */
  lemma DispatchExplicit(m: Method, path: string)
    ensures Dispatch(m, path) ==
              if (m == GET || m == HEAD) && path == "/" then Some(Action(GetAllStudent, None))
              else if (m == GET || m == HEAD) && IdParam(path).Some? then Some(Action(GetStudentById, IdParam(path)))
              else if m == POST && path == "/" then Some(Action(CreateStudent, None))
              else if m == PUT && IdParam(path).Some? then Some(Action(UpdateStudent, IdParam(path)))
              else if m == DELETE && IdParam(path).Some? then Some(Action(DeleteStudent, IdParam(path)))
              else None
  {
    var t4 := Table[4..];
    assert t4[1..] == [];
    assert FirstMatch(t4[1..], m, path) == None;
    var t3 := Table[3..];
    assert t3[1..] == t4;
    var t2 := Table[2..];
    assert t2[1..] == t3;
    var t1 := Table[1..];
    assert t1[1..] == t2;
    assert Table[1..] == t1;
    assert FirstMatch(t4, m, path) == (if m == DELETE && IdParam(path).Some? then Some(Action(DeleteStudent, IdParam(path))) else None);
  }

  /** The dispatch table route by route, and no other method and path pair is routed. */
  lemma DispatchCases(m: Method, path: string)
    ensures Dispatch(m, path) == Some(Action(GetAllStudent, None)) <==> (m == GET || m == HEAD) && path == "/"
    ensures Dispatch(m, path).Some? && Dispatch(m, path).value.handler == GetStudentById <==>
              (m == GET || m == HEAD) && IdParam(path).Some?
    ensures Dispatch(m, path) == Some(Action(CreateStudent, None)) <==> m == POST && path == "/"
    ensures Dispatch(m, path).Some? && Dispatch(m, path).value.handler == UpdateStudent <==>
              m == PUT && IdParam(path).Some?
    ensures Dispatch(m, path).Some? && Dispatch(m, path).value.handler == DeleteStudent <==>
              m == DELETE && IdParam(path).Some?
    ensures Dispatch(m, path).Some? && Dispatch(m, path).value.id.Some? ==>
              Dispatch(m, path).value.id == IdParam(path)
    ensures Dispatch(m, path).None? <==>
              !((m == GET || m == HEAD) && (path == "/" || IdParam(path).Some?))
              && !(m == POST && path == "/")
              && !((m == PUT || m == DELETE) && IdParam(path).Some?)
  {
    DispatchExplicit(m, path);
    assert IdParam("/").None?;
  }

  /** One request through the router and the controller. `None` is a request no route
      matches; it reaches no controller and changes nothing. */
  method Handle(s: Store, env: Env, m: Method, path: string, body: StudentBody)
    returns (t: Store, o: Option<Outcome>)
    ensures o.None? <==> Dispatch(m, path).None?
    ensures o.None? ==> t == s
    ensures m in {GET, HEAD} ==> t == s
    ensures Valid(s) ==> Valid(t)
    ensures m in {GET, HEAD} && path == "/" ==> o.Some? && ListReply(s, env, o.value)
    ensures m in {GET, HEAD} && IdParam(path).Some? ==> o == Some(Get(s, IdParam(path).value, env))
    ensures m == POST && path == "/" ==> (t, o) == (Create(s, body, env).0, Some(Create(s, body, env).1))
    ensures m == PUT && IdParam(path).Some? ==>
              var id := IdParam(path).value;
              (t, o) == (Update(s, id, body, env).0, Some(Update(s, id, body, env).1))
    ensures m == DELETE && IdParam(path).Some? ==>
              (t, o) == (Delete(s, IdParam(path).value, env).0, Some(Delete(s, IdParam(path).value, env).1))
  {
    DispatchExplicit(m, path);
    assert IdParam("/").None?;
    t := s;
    match Dispatch(m, path)
    case None => o := None;
    case Some(Action(h, id)) =>
      match h
      case GetAllStudent =>
        var r := List(s, env);
        o := Some(r);
      case GetStudentById =>
        o := Some(Get(s, id.GetOr(""), env));
      case CreateStudent =>
        if Valid(s) { CreateValid(s, body, env); }
        var (s', r) := Create(s, body, env);
        t, o := s', Some(r);
      case UpdateStudent =>
        if Valid(s) { UpdateValid(s, id.GetOr(""), body, env); }
        var (s', r) := Update(s, id.GetOr(""), body, env);
        t, o := s', Some(r);
      case DeleteStudent =>
        if Valid(s) { DeleteValid(s, id.GetOr(""), env); }
        var (s', r) := Delete(s, id.GetOr(""), env);
        t, o := s', Some(r);
  }
}

=== FILE: student_schema.dfy ===
/**
 * The student schema: what the setters do to each path (trim, lower-case), which
 * validators run (required, match, min), and which defaults are filled in.
 */
module StudentSchema {
  import opened Wrappers
  import opened Ascii
  import EmailPattern

  /** A request body as the controller receives it; `None` is a path absent from the JSON. */
  datatype StudentBody = StudentBody(
    name: Option<string>,
    email: Option<string>,
    phoneNumber: Option<string>,
    codeforcesHandle: Option<string>,
    currentRating: Option<int>,
    maxRating: Option<int>)

  /** The schema paths of a stored document, after setters, defaults and validation. */
  datatype Fields = Fields(
    name: string,
    email: string,
    phoneNumber: Option<string>,
    codeforcesHandle: Option<string>,
    currentRating: int,
    maxRating: int)

  /** One failed validator; each path reports at most one. */
  datatype FieldError =
    | NameRequired
    | EmailRequired
    | EmailInvalid
    | PhoneInvalid
    | CurrentRatingBelowMin(value: int)
    | MaxRatingBelowMin(value: int)

  /** The message the schema attaches to the `match` validators. */
  function MatchMessage(e: FieldError): Option<string> {
    match e
    case EmailInvalid => Some("Please fill a valid email address")
    case PhoneInvalid => Some("Please fill a valid phone number")
    case _ => None
  }

  // ---------------------------------------------------------------- setters

  /** The e-mail setters: `trim`, then `lowercase`. */
  function NormalizeEmail(s: string): string {
    ToLower(Trim(s))
  }

  predicate IsTrimmed(s: string) {
    s == [] || (!IsSpace(s[0]) && !IsSpace(s[|s| - 1]))
  }

  lemma TrimIsTrimmed(s: string)
    ensures IsTrimmed(Trim(s))
  {
  }

  predicate IsLowerCase(s: string) {
    forall i :: 0 <= i < |s| ==> !IsUpper(s[i])
  }

  lemma ToLowerFixed(s: string)
    requires IsLowerCase(s)
    ensures ToLower(s) == s
  {
  }

  /** A normalised e-mail is trimmed and lower-case, so normalising it again changes nothing. */
  lemma NormalizeEmailIdempotent(s: string)
    ensures IsTrimmed(NormalizeEmail(s)) && IsLowerCase(NormalizeEmail(s))
    ensures NormalizeEmail(NormalizeEmail(s)) == NormalizeEmail(s)
  {
    var e := NormalizeEmail(s);
    assert IsTrimmed(e) by { LowerKeepsTrimmed(Trim(s)); }
    assert IsLowerCase(e);
    assert Trim(e) == e by { TrimFixed(e); }
    assert ToLower(e) == e by { ToLowerFixed(e); }
  }

  /** Lower-casing leaves white space where it was. */
  lemma LowerKeepsTrimmed(t: string)
    requires IsTrimmed(t)
    ensures IsTrimmed(ToLower(t))
  {
    var e := ToLower(t);
    if e != [] {
      assert e[0] == LowerChar(t[0]) && e[|e| - 1] == LowerChar(t[|t| - 1]);
    }
  }

  function TrimOpt(v: Option<string>): Option<string> {
    match v
    case None => None
    case Some(s) => Some(Trim(s))
  }

  function EmailOpt(v: Option<string>): Option<string> {
    match v
    case None => None
    case Some(e) => Some(NormalizeEmail(e))
  }

  /** All setters of the schema applied to a body. */
  function Normalize(b: StudentBody): StudentBody {
    b.(name := TrimOpt(b.name),
       email := EmailOpt(b.email),
       phoneNumber := TrimOpt(b.phoneNumber),
       codeforcesHandle := TrimOpt(b.codeforcesHandle))
  }

  // ---------------------------------------------------------------- validators

  /** `^[0-9]{10,15}$` */
  predicate PhonePattern(p: string) {
    10 <= |p| <= 15 && AllDigits(p)
  }

  /** The `match` validator passes an empty string without testing the pattern. */
  predicate PhoneAccepted(p: string) {
    p == "" || PhonePattern(p)
  }

  function OptSeq<T>(o: Option<T>): seq<T> {
    match o
    case None => []
    case Some(x) => [x]
  }

  /** Errors of the `name` path; on update (`creating` false) an absent path is not checked. */
  function NameError(v: Option<string>, creating: bool): Option<FieldError> {
    match v
    case None => if creating then Some(NameRequired) else None
    case Some(s) => if s == "" then Some(NameRequired) else None
  }

  function EmailError(v: Option<string>, creating: bool): Option<FieldError> {
    match v
    case None => if creating then Some(EmailRequired) else None
    case Some(s) =>
      if s == "" then Some(EmailRequired)
      else if !EmailPattern.ValidEmail(s) then Some(EmailInvalid)
      else None
  }

  function PhoneError(v: Option<string>): Option<FieldError> {
    match v
    case None => None
    case Some(p) => if PhoneAccepted(p) then None else Some(PhoneInvalid)
  }

  function CurrentRatingError(v: Option<int>): Option<FieldError> {
    match v
    case None => None
    case Some(n) => if n < 0 then Some(CurrentRatingBelowMin(n)) else None
  }

  function MaxRatingError(v: Option<int>): Option<FieldError> {
    match v
    case None => None
    case Some(n) => if n < 0 then Some(MaxRatingBelowMin(n)) else None
  }

  /** The validation errors of an already normalised body, in schema order. */
  function Errors(n: StudentBody, creating: bool): seq<FieldError> {
    OptSeq(NameError(n.name, creating))
    + OptSeq(EmailError(n.email, creating))
    + OptSeq(PhoneError(n.phoneNumber))
    + OptSeq(CurrentRatingError(n.currentRating))
    + OptSeq(MaxRatingError(n.maxRating))
  }

  /** No errors exactly when no path reports one. */
  lemma ErrorsEmpty(n: StudentBody, creating: bool)
    ensures Errors(n, creating) == [] <==>
              && NameError(n.name, creating).None? && EmailError(n.email, creating).None?
              && PhoneError(n.phoneNumber).None? && CurrentRatingError(n.currentRating).None?
              && MaxRatingError(n.maxRating).None?
  {
  }

  // ---------------------------------------------------------------- what the schema promises

  /** The schema's rules, stated on the raw body: name present and non-blank; e-mail present and
      of the pattern once trimmed and lower-cased; phone absent, blank, or 10 to 15 digits once
      trimmed; ratings absent or at least 0. */
  predicate Acceptable(b: StudentBody) {
    && b.name.Some? && Trim(b.name.value) != ""
    && b.email.Some? && EmailPattern.ValidEmail(NormalizeEmail(b.email.value))
    && (b.phoneNumber.Some? ==> PhoneAccepted(Trim(b.phoneNumber.value)))
    && (b.currentRating.Some? ==> b.currentRating.value >= 0)
    && (b.maxRating.Some? ==> b.maxRating.value >= 0)
  }

  /** What every stored document satisfies. */
  predicate ValidFields(f: Fields) {
    && f.name != "" && IsTrimmed(f.name)
    && EmailPattern.ValidEmail(f.email) && IsTrimmed(f.email) && IsLowerCase(f.email)
    && (f.phoneNumber.Some? ==> IsTrimmed(f.phoneNumber.value) && PhoneAccepted(f.phoneNumber.value))
    && (f.codeforcesHandle.Some? ==> IsTrimmed(f.codeforcesHandle.value))
    && f.currentRating >= 0 && f.maxRating >= 0
  }

  lemma NamePathOk(v: Option<string>)
    ensures NameError(TrimOpt(v), true).None? <==> v.Some? && Trim(v.value) != ""
  {
  }

  lemma EmailPathOk(v: Option<string>)
    ensures EmailError(EmailOpt(v), true).None? <==>
              v.Some? && EmailPattern.ValidEmail(NormalizeEmail(v.value))
  {
  }

  lemma PhonePathOk(v: Option<string>)
    ensures PhoneError(TrimOpt(v)).None? <==> (v.Some? ==> PhoneAccepted(Trim(v.value)))
  {
  }

  /** Document construction and `save` validation: setters, then every validator, then the
      rating defaults. It succeeds exactly on the bodies the schema's rules accept. */
  function Validate(b: StudentBody): (r: Result<Fields, seq<FieldError>>)
    ensures r.Success? <==> Acceptable(b)
    ensures r.Failure? ==> |r.error| > 0
  {
    var n := Normalize(b);
    var errs := Errors(n, true);
    ErrorsEmpty(n, true);
    NamePathOk(b.name);
    EmailPathOk(b.email);
    PhonePathOk(b.phoneNumber);
    if errs != [] then Failure(errs)
    else Success(Fields(n.name.GetOr(""), n.email.GetOr(""), n.phoneNumber, n.codeforcesHandle,
                        n.currentRating.GetOr(0), n.maxRating.GetOr(0)))
  }

  /** An accepted body is stored trimmed, with the e-mail lower-cased and the ratings defaulted
      to 0. */
  lemma ValidateStores(b: StudentBody)
    requires Acceptable(b)
    ensures var f := Validate(b).value;
            && f.name == Trim(b.name.value)
            && f.email == NormalizeEmail(b.email.value)
            && f.phoneNumber == TrimOpt(b.phoneNumber)
            && f.codeforcesHandle == TrimOpt(b.codeforcesHandle)
            && f.currentRating == b.currentRating.GetOr(0)
            && f.maxRating == b.maxRating.GetOr(0)
  {
    var f := Validate(b).value;
    assert f.name == Trim(b.name.value);
    assert f.email == NormalizeEmail(b.email.value);
    assert f.phoneNumber == TrimOpt(b.phoneNumber);
    assert f.codeforcesHandle == TrimOpt(b.codeforcesHandle);
  }

  /** Whatever validation accepts satisfies every rule a stored document keeps. */
  lemma ValidateValid(b: StudentBody)
    requires Validate(b).Success?
    ensures ValidFields(Validate(b).value)
  {
    ValidateStores(b);
    var f := Validate(b).value;
    assert f.currentRating >= 0 && f.maxRating >= 0;
    NormalizeEmailIdempotent(b.email.value);
    TrimIsTrimmed(b.name.value);
    if b.phoneNumber.Some? { TrimIsTrimmed(b.phoneNumber.value); }
    if b.codeforcesHandle.Some? { TrimIsTrimmed(b.codeforcesHandle.value); }
    assert EmailPattern.ValidEmail(f.email);
  }

  /** Which errors a normalised body produces, path by path. */
  lemma ErrorsMembers(n: StudentBody, creating: bool)
    ensures NameRequired in Errors(n, creating) <==> NameError(n.name, creating).Some?
    ensures EmailRequired in Errors(n, creating) <==> EmailError(n.email, creating) == Some(EmailRequired)
    ensures EmailInvalid in Errors(n, creating) <==> EmailError(n.email, creating) == Some(EmailInvalid)
    ensures PhoneInvalid in Errors(n, creating) <==> PhoneError(n.phoneNumber).Some?
    ensures (exists v :: CurrentRatingBelowMin(v) in Errors(n, creating)) <==> CurrentRatingError(n.currentRating).Some?
    ensures (exists v :: MaxRatingBelowMin(v) in Errors(n, creating)) <==> MaxRatingError(n.maxRating).Some?
  {
    var e1, e2, e3 := OptSeq(NameError(n.name, creating)), OptSeq(EmailError(n.email, creating)),
                      OptSeq(PhoneError(n.phoneNumber));
    var e4, e5 := OptSeq(CurrentRatingError(n.currentRating)), OptSeq(MaxRatingError(n.maxRating));
    assert Errors(n, creating) == e1 + e2 + e3 + e4 + e5;
  }

  /** Each validator is reported exactly when its rule is broken. */
  lemma ValidateReports(b: StudentBody)
    requires Validate(b).Failure?
    ensures NameRequired in Validate(b).error <==> b.name.None? || Trim(b.name.value) == ""
    ensures EmailRequired in Validate(b).error <==> b.email.None? || NormalizeEmail(b.email.value) == ""
    ensures EmailInvalid in Validate(b).error <==>
              b.email.Some? && NormalizeEmail(b.email.value) != ""
              && !EmailPattern.ValidEmail(NormalizeEmail(b.email.value))
    ensures PhoneInvalid in Validate(b).error <==>
              b.phoneNumber.Some? && !PhoneAccepted(Trim(b.phoneNumber.value))
    ensures (exists v :: CurrentRatingBelowMin(v) in Validate(b).error) <==>
              b.currentRating.Some? && b.currentRating.value < 0
    ensures (exists v :: MaxRatingBelowMin(v) in Validate(b).error) <==>
              b.maxRating.Some? && b.maxRating.value < 0
  {
    var n := Normalize(b);
    ErrorsMembers(n, true);
    assert Validate(b).error == Errors(n, true);
  }

  /** The body a stored document would be re-submitted as. */
  function ToBody(f: Fields): StudentBody {
    StudentBody(Some(f.name), Some(f.email), f.phoneNumber, f.codeforcesHandle,
                Some(f.currentRating), Some(f.maxRating))
  }

  lemma StoredAcceptable(f: Fields)
    requires ValidFields(f)
    ensures Acceptable(ToBody(f))
  {
    TrimFixed(f.name);
    TrimFixed(f.email);
    ToLowerFixed(f.email);
    if f.phoneNumber.Some? { TrimFixed(f.phoneNumber.value); }
  }

  lemma TrimOptFixed(v: Option<string>)
    requires v.Some? ==> IsTrimmed(v.value)
    ensures TrimOpt(v) == v
  {
    if v.Some? { TrimFixed(v.value); }
  }

  /** The setters leave a stored document's values as they are. */
  lemma NormalizeFixed(f: Fields)
    requires ValidFields(f)
    ensures Normalize(ToBody(f)) == ToBody(f)
  {
    var b := ToBody(f);
    TrimOptFixed(b.name);
    TrimOptFixed(b.phoneNumber);
    TrimOptFixed(b.codeforcesHandle);
    TrimFixed(f.email);
    ToLowerFixed(f.email);
    assert EmailOpt(b.email) == b.email;
  }

  lemma StoredNoErrors(f: Fields)
    requires ValidFields(f)
    ensures Errors(ToBody(f), true) == []
  {
    ErrorsEmpty(ToBody(f), true);
  }

  /** Validating a stored document's own values gives that document back. */
  lemma ValidateRoundTrip(f: Fields)
    requires ValidFields(f)
    ensures Validate(ToBody(f)) == Success(f)
  {
    var b := ToBody(f);
    NormalizeFixed(f);
    StoredNoErrors(f);
    var n := Normalize(b);
    assert n == b;
    assert Errors(n, true) == [];
    assert Validate(b) == Success(Fields(n.name.GetOr(""), n.email.GetOr(""), n.phoneNumber, n.codeforcesHandle,
                        n.currentRating.GetOr(0), n.maxRating.GetOr(0)));
  }

  // ---------------------------------------------------------------- update

  /** The schema's rules for an update, stated on the raw body: every path present passes its
      rule once its setters have run; absent paths are not checked. */
  predicate PatchAcceptable(b: StudentBody) {
    && (b.name.Some? ==> Trim(b.name.value) != "")
    && (b.email.Some? ==> EmailPattern.ValidEmail(NormalizeEmail(b.email.value)))
    && (b.phoneNumber.Some? ==> PhoneAccepted(Trim(b.phoneNumber.value)))
    && (b.currentRating.Some? ==> b.currentRating.value >= 0)
    && (b.maxRating.Some? ==> b.maxRating.value >= 0)
  }

  /** Update validation: setters run on the paths present; only those paths are validated. It
      succeeds exactly on the bodies whose present paths keep the schema's rules. */
  function ValidatePatch(b: StudentBody): (r: Result<StudentBody, seq<FieldError>>)
    ensures r.Success? <==> PatchAcceptable(b)
    ensures r.Success? ==> r.value == Normalize(b)
    ensures r.Failure? ==> |r.error| > 0
  {
    var n := Normalize(b);
    var errs := Errors(n, false);
    ErrorsEmpty(n, false);
    NamePathOk(b.name);
    EmailPathOk(b.email);
    PhonePathOk(b.phoneNumber);
    if errs != [] then Failure(errs) else Success(n)
  }

  /** A body acceptable for a create is acceptable for an update, and an empty patch is
      always accepted. */
  lemma PatchAcceptableWeaker(b: StudentBody)
    ensures Acceptable(b) ==> PatchAcceptable(b)
    ensures PatchAcceptable(StudentBody(None, None, None, None, None, None))
  {
  }

  /** The paths of `f` overwritten by the paths present in `p`. */
  function Merge(f: Fields, p: StudentBody): (r: Fields)
    ensures p.name.None? ==> r.name == f.name
    ensures p.email.None? ==> r.email == f.email
    ensures p.phoneNumber.None? ==> r.phoneNumber == f.phoneNumber
    ensures p.codeforcesHandle.None? ==> r.codeforcesHandle == f.codeforcesHandle
    ensures p.currentRating.None? ==> r.currentRating == f.currentRating
    ensures p.maxRating.None? ==> r.maxRating == f.maxRating
    ensures p.name.Some? ==> r.name == p.name.value
    ensures p.email.Some? ==> r.email == p.email.value
    ensures p.phoneNumber.Some? ==> r.phoneNumber == p.phoneNumber
    ensures p.codeforcesHandle.Some? ==> r.codeforcesHandle == p.codeforcesHandle
    ensures p.currentRating.Some? ==> r.currentRating == p.currentRating.value
    ensures p.maxRating.Some? ==> r.maxRating == p.maxRating.value
  {
    Fields(p.name.GetOr(f.name), p.email.GetOr(f.email),
           if p.phoneNumber.Some? then p.phoneNumber else f.phoneNumber,
           if p.codeforcesHandle.Some? then p.codeforcesHandle else f.codeforcesHandle,
           p.currentRating.GetOr(f.currentRating), p.maxRating.GetOr(f.maxRating))
  }

  /** A validated patch keeps a valid document valid. */
  lemma MergeValid(f: Fields, b: StudentBody)
    requires ValidFields(f) && ValidatePatch(b).Success?
    ensures ValidFields(Merge(f, ValidatePatch(b).value))
  {
    var n := Normalize(b);
    assert ValidatePatch(b).value == n;
    ErrorsEmpty(n, false);
    var m := Merge(f, n);
    if b.name.Some? { TrimIsTrimmed(b.name.value); }
    assert m.name != "" && IsTrimmed(m.name);
    if b.email.Some? { NormalizeEmailIdempotent(b.email.value); }
    assert EmailPattern.ValidEmail(m.email) && IsTrimmed(m.email) && IsLowerCase(m.email);
    if b.phoneNumber.Some? { TrimIsTrimmed(b.phoneNumber.value); }
    assert m.phoneNumber.Some? ==> IsTrimmed(m.phoneNumber.value) && PhoneAccepted(m.phoneNumber.value);
    if b.codeforcesHandle.Some? { TrimIsTrimmed(b.codeforcesHandle.value); }
    assert m.codeforcesHandle.Some? ==> IsTrimmed(m.codeforcesHandle.value);
    assert m.currentRating >= 0 && m.maxRating >= 0;
  }
}

=== FILE: student_store.dfy ===
/**
 * The student collection and the five controller operations over it. A request is a function
 * from (store, request) to (store', outcome); the environment supplies what the database
 * decides on its own: the clock, the id a new document receives, and whether the operation
 * throws (connection loss, a malformed id that cannot be cast).
 */
module StudentStore {
  import opened Wrappers
  import opened Ascii
  import opened StudentSchema

  /** A document id (the 24-hex-digit ObjectId is not modelled; any string serves). */
  type Id = string

  /** A stored document: its id, the schema paths, and the two automatic timestamps. */
  datatype Student = Student(id: Id, fields: Fields, createdAt: int, updatedAt: int)

  type Store = map<Id, Student>

  /** What the database decides for one request. */
  datatype Env = Env(now: int, newId: Id, fault: Option<string>)

  /** Why a create or update was refused with a generic 400. */
  datatype Cause =
    | Invalid(errors: seq<FieldError>)    // a ValidationError
    | Thrown(message: string)             // any other error the store raised

  datatype Reply =
    | Students(list: seq<Student>)
    | One(student: Student)
    | Message(text: string)

  datatype Outcome =
    | Ok(reply: Reply)                    // 200
    | DuplicateEmail                      // 400, error code 11000
    | BadRequest(cause: Cause)            // 400, the error's own message
    | NotFound                            // 404
    | ServerError(message: string)        // 500

  function Status(o: Outcome): (code: int)
    ensures code in {200, 400, 404, 500}
    ensures code == 400 <==> o.DuplicateEmail? || o.BadRequest?
  {
    match o
    case Ok(_) => 200
    case DuplicateEmail => 400
    case BadRequest(_) => 400
    case NotFound => 404
    case ServerError(_) => 500
  }

  /** The `error` text of the JSON body of a failed request, for the fixed messages. */
  function ErrorText(o: Outcome): (t: Option<string>)
    ensures t.Some? ==> o.DuplicateEmail? || o.NotFound?
    ensures o.DuplicateEmail? <==> t == Some("Email already exists")
    ensures o.NotFound? <==> t == Some("Student not found")
  {
    match o
    case DuplicateEmail => Some("Email already exists")
    case NotFound => Some("Student not found")
    case _ => None
  }

  const DeletedMessage := "Student deleted successfully"

  // ---------------------------------------------------------------- the store invariant

  /** Some record other than `except` already stores e-mail `e` (the unique index). */
  predicate EmailTaken(s: Store, e: string, except: Option<Id>) {
    exists k :: k in s && Some(k) != except && s[k].fields.email == e
  }

  predicate EmailsUnique(s: Store) {
    forall i, j :: i in s && j in s && s[i].fields.email == s[j].fields.email ==> i == j
  }

  predicate RecordsValid(s: Store) {
    forall k :: k in s ==> s[k].id == k && ValidFields(s[k].fields)
  }

  /** Every record sits under its own id, satisfies the schema, and no e-mail is stored twice. */
  predicate Valid(s: Store) {
    RecordsValid(s) && EmailsUnique(s)
  }

  /** Writing a schema-valid record under its own id keeps every record valid. */
  lemma PutKeepsRecordsValid(s: Store, st: Student)
    requires RecordsValid(s) && ValidFields(st.fields)
    ensures RecordsValid(s[st.id := st])
  {
    var t := s[st.id := st];
    forall k | k in t
      ensures t[k].id == k && ValidFields(t[k].fields)
    {
      if k != st.id { assert t[k] == s[k]; }
    }
  }

  /** Writing a record whose e-mail no other record holds keeps e-mails unique. */
  lemma PutKeepsEmailsUnique(s: Store, st: Student)
    requires EmailsUnique(s) && !EmailTaken(s, st.fields.email, Some(st.id))
    ensures EmailsUnique(s[st.id := st])
  {
    var t := s[st.id := st];
    forall i, j | i in t && j in t && t[i].fields.email == t[j].fields.email
      ensures i == j
    {
      if i != st.id && j != st.id {
        assert t[i] == s[i] && t[j] == s[j];
      }
    }
  }

  // ---------------------------------------------------------------- list

  predicate NewestFirst(xs: seq<Student>) {
    forall i, j :: 0 <= i < j < |xs| ==> xs[i].createdAt >= xs[j].createdAt
  }

  /** A record no older than every record of a newest-first list can head it. */
  lemma ConsNewestFirst(h: Student, rest: seq<Student>)
    requires NewestFirst(rest)
    requires forall y :: y in rest ==> y.createdAt <= h.createdAt
    ensures NewestFirst([h] + rest)
  {
    var r := [h] + rest;
    forall i, j | 0 <= i < j < |r| ensures r[i].createdAt >= r[j].createdAt {
      if i > 0 { assert r[i] == rest[i - 1] && r[j] == rest[j - 1]; }
      else { assert r[j] in rest; }
    }
  }

  /** Insertion into a newest-first list, after every record created at the same time or later. */
  function Insert(xs: seq<Student>, x: Student): (r: seq<Student>)
    ensures multiset(r) == multiset(xs) + multiset{x}
    ensures forall y :: y in r ==> y in xs || y == x
    decreases |xs|
  {
    if xs == [] || x.createdAt > xs[0].createdAt then [x] + xs
    else
      assert xs == [xs[0]] + xs[1..];
      [xs[0]] + Insert(xs[1..], x)
  }

  /** Insertion keeps a list newest-first. */
  lemma {:induction false} InsertNewestFirst(xs: seq<Student>, x: Student)
    requires NewestFirst(xs)
    ensures NewestFirst(Insert(xs, x))
    decreases |xs|
  {
    if xs == [] || x.createdAt > xs[0].createdAt {
      ConsNewestFirst(x, xs);
    } else {
      assert NewestFirst(xs[1..]);
      InsertNewestFirst(xs[1..], x);
      HeadNewest(xs);
      ConsNewestFirst(xs[0], Insert(xs[1..], x));
    }
  }

  /** The head of a newest-first list is no older than anything after it. */
  lemma HeadNewest(xs: seq<Student>)
    requires NewestFirst(xs) && xs != []
    ensures forall y :: y in xs[1..] ==> y.createdAt <= xs[0].createdAt
  {
    forall y | y in xs[1..] ensures y.createdAt <= xs[0].createdAt {
      var j :| 0 <= j < |xs[1..]| && xs[1..][j] == y;
      assert xs[j + 1] == y;
    }
  }

  /** What a list request answers: a store error as a 500 with its message, otherwise every stored
      record once, newest first. */
  predicate ListReply(s: Store, env: Env, o: Outcome) {
    && (env.fault.Some? ==> o == ServerError(env.fault.value))
    && (env.fault.None? ==> o.Ok? && o.reply.Students?)
    && (o.Ok? ==>
          && o.reply.Students?
          && NewestFirst(o.reply.list)
          && |o.reply.list| == |s|
          && (forall k :: k in s ==> s[k] in o.reply.list)
          && (forall x :: x in o.reply.list ==> x in s.Values))
  }

  /** `find().sort({createdAt: -1})`: every stored record once, newest first. */
  method List(s: Store, env: Env) returns (o: Outcome)
    ensures ListReply(s, env, o)
  {
    if env.fault.Some? {
      return ServerError(env.fault.value);
    }
    var rest := s.Keys;
    var xs: seq<Student> := [];
    while rest != {}
      invariant rest <= s.Keys
      invariant NewestFirst(xs)
      invariant |xs| + |rest| == |s|
      invariant forall k :: k in s.Keys - rest ==> s[k] in xs
      invariant forall x :: x in xs ==> x in s.Values
      decreases |rest|
    {
      var k :| k in rest;
      var ys := Insert(xs, s[k]);
      InsertNewestFirst(xs, s[k]);
      assert forall x :: x in xs ==> x in ys by {
        forall x | x in xs ensures x in ys {
          assert x in multiset(xs);
          assert x in multiset(ys);
        }
      }
      assert s[k] in ys by { assert s[k] in multiset(ys); }
      assert |ys| == |xs| + 1 by {
        assert |multiset(ys)| == |multiset(xs)| + 1;
      }
      xs := ys;
      rest := rest - {k};
    }
    return Ok(Students(xs));
  }

  // ---------------------------------------------------------------- get

  /** `findById`: the record, 404 'Student not found' when there is none, 500 when the store throws. */
  function Get(s: Store, id: Id, env: Env): (o: Outcome)
    ensures env.fault.Some? ==> o == ServerError(env.fault.value)
    ensures env.fault.None? && id !in s ==> o == NotFound && ErrorText(o) == Some("Student not found")
    ensures o.Ok? <==> env.fault.None? && id in s
    ensures o.Ok? ==> o.reply == One(s[id])
  {
    if env.fault.Some? then ServerError(env.fault.value)
    else if id !in s then NotFound
    else Ok(One(s[id]))
  }

  // ---------------------------------------------------------------- create

  /** The insert of an already validated document, which the unique indexes on `email` and
      `_id` may refuse with error code 11000. */
  function Save(s: Store, f: Fields, env: Env): (r: (Store, Outcome))
    ensures !r.1.Ok? ==> r.0 == s
    ensures env.fault.Some? ==> r.1 == BadRequest(Thrown(env.fault.value))
    ensures r.1 == DuplicateEmail <==> env.fault.None? && (EmailTaken(s, f.email, None) || env.newId in s)
    ensures r.1.Ok? <==> env.fault.None? && !EmailTaken(s, f.email, None) && env.newId !in s
    ensures r.1.Ok? ==>
              && r.0.Keys == s.Keys + {env.newId} && |r.0| == |s| + 1
              && (forall k :: k in s ==> r.0[k] == s[k])
              && r.1.reply == One(r.0[env.newId])
              && r.0[env.newId] == Student(env.newId, f, env.now, env.now)
  {
    if env.fault.Some? then (s, BadRequest(Thrown(env.fault.value)))
    else if EmailTaken(s, f.email, None) || env.newId in s then (s, DuplicateEmail)
    else
      var st := Student(env.newId, f, env.now, env.now);
      (s[env.newId := st], Ok(One(st)))
  }

  /** `new Student(body).save()`: validation first; every failure leaves the store as it was. */
  function Create(s: Store, body: StudentBody, env: Env): (r: (Store, Outcome))
    ensures !r.1.Ok? ==> r.0 == s
    ensures r.1.Ok? ==> Acceptable(body)
    ensures Validate(body).Failure? ==> r == (s, BadRequest(Invalid(Validate(body).error)))
    ensures Validate(body).Success? ==> r == Save(s, Validate(body).value, env)
  {
    match Validate(body)
    case Failure(errs) => (s, BadRequest(Invalid(errs)))
    case Success(f) => Save(s, f, env)
  }

  /** A created record holds exactly what validation made of the body: trimmed paths, the
      normalised e-mail, ratings defaulted to 0. */
  lemma CreateStores(s: Store, body: StudentBody, env: Env)
    requires Create(s, body, env).1.Ok?
    ensures Acceptable(body)
    ensures var f := Create(s, body, env).0[env.newId].fields;
            && f.name == Trim(body.name.value)
            && f.email == NormalizeEmail(body.email.value)
            && f.phoneNumber == TrimOpt(body.phoneNumber)
            && f.codeforcesHandle == TrimOpt(body.codeforcesHandle)
            && f.currentRating == body.currentRating.GetOr(0)
            && f.maxRating == body.maxRating.GetOr(0)
  {
    ValidateStores(body);
  }

  lemma SaveValid(s: Store, f: Fields, env: Env)
    requires Valid(s) && ValidFields(f)
    ensures Valid(Save(s, f, env).0)
  {
    var (t, o) := Save(s, f, env);
    if o.Ok? {
      var st := Student(env.newId, f, env.now, env.now);
      assert t == s[env.newId := st];
      PutKeepsRecordsValid(s, st);
      assert !EmailTaken(s, f.email, None);
      PutKeepsEmailsUnique(s, st);
    }
  }

  /** Every create keeps the store valid: schema rules on every record, e-mails unique. */
  lemma CreateValid(s: Store, body: StudentBody, env: Env)
    requires Valid(s)
    ensures Valid(Create(s, body, env).0)
  {
    if Validate(body).Success? {
      ValidateValid(body);
      SaveValid(s, Validate(body).value, env);
    }
  }

  /** The unique index sees normalised e-mails, so a body whose e-mail differs from a stored one
      only in case or surrounding white space is refused with 'Email already exists'. */
  lemma DuplicateIgnoresCase(s: Store, body: StudentBody, env: Env, k: Id)
    requires Acceptable(body) && env.fault.None?
    requires k in s && s[k].fields.email == NormalizeEmail(body.email.value)
    ensures Create(s, body, env) == (s, DuplicateEmail)
  {
    assert EmailTaken(s, NormalizeEmail(body.email.value), None);
  }

  // ---------------------------------------------------------------- update

  /** The write of an already validated patch `p`: the lookup (404), then the write, which the
      unique index may refuse. On success only the paths present in `p` change and `updatedAt`
      is refreshed; every other record is untouched. */
  function Apply(s: Store, id: Id, p: StudentBody, env: Env): (r: (Store, Outcome))
    ensures !r.1.Ok? ==> r.0 == s
    ensures env.fault.Some? ==> r.1 == BadRequest(Thrown(env.fault.value))
    ensures r.1 == NotFound <==> env.fault.None? && id !in s
    ensures r.1 == DuplicateEmail <==>
              env.fault.None? && id in s && EmailTaken(s, Merge(s[id].fields, p).email, Some(id))
    ensures r.1.Ok? ==>
              && id in s && r.0.Keys == s.Keys
              && (forall k :: k in s && k != id ==> r.0[k] == s[k])
              && r.1.reply == One(r.0[id])
              && r.0[id].fields == Merge(s[id].fields, p)
              && r.0[id].id == s[id].id && r.0[id].createdAt == s[id].createdAt
              && r.0[id].updatedAt == env.now
  {
    if env.fault.Some? then (s, BadRequest(Thrown(env.fault.value)))
    else if id !in s then (s, NotFound)
    else
      var f := Merge(s[id].fields, p);
      if EmailTaken(s, f.email, Some(id)) then (s, DuplicateEmail)
      else
        var st := s[id].(fields := f, updatedAt := env.now);
        (s[id := st], Ok(One(st)))
  }

  /** `findByIdAndUpdate(id, body, {new: true, runValidators: true})`: the setters and validators
      of the paths present in the body run first, then the write. Every failure leaves the store
      as it was. */
  function Update(s: Store, id: Id, body: StudentBody, env: Env): (r: (Store, Outcome))
    ensures !r.1.Ok? ==> r.0 == s
    ensures ValidatePatch(body).Failure? ==> r == (s, BadRequest(Invalid(ValidatePatch(body).error)))
    ensures ValidatePatch(body).Success? ==> r == Apply(s, id, Normalize(body), env)
  {
    match ValidatePatch(body)
    case Failure(errs) => (s, BadRequest(Invalid(errs)))
    case Success(p) => Apply(s, id, p, env)
  }

  lemma ApplyValid(s: Store, id: Id, b: StudentBody, env: Env)
    requires Valid(s) && ValidatePatch(b).Success?
    ensures Valid(Apply(s, id, Normalize(b), env).0)
  {
    var (t, o) := Apply(s, id, Normalize(b), env);
    if o.Ok? {
      var f := Merge(s[id].fields, Normalize(b));
      MergeValid(s[id].fields, b);
      var st := s[id].(fields := f, updatedAt := env.now);
      assert t == s[id := st] && st.id == id;
      PutKeepsRecordsValid(s, st);
      PutKeepsEmailsUnique(s, st);
    }
  }

  /** Every update keeps the store valid. */
  lemma UpdateValid(s: Store, id: Id, body: StudentBody, env: Env)
    requires Valid(s)
    ensures Valid(Update(s, id, body, env).0)
  {
    if ValidatePatch(body).Success? {
      ApplyValid(s, id, body, env);
    }
  }

  /** A successful update was an acceptable patch of a stored record, and the record now holds
      each present path with its setters applied and every absent path as it was. */
  lemma UpdateStoresPatch(s: Store, id: Id, body: StudentBody, env: Env)
    requires Update(s, id, body, env).1.Ok?
    ensures PatchAcceptable(body) && id in s
    ensures var before := s[id].fields;
            var f := Update(s, id, body, env).0[id].fields;
            && f.name == (if body.name.Some? then Trim(body.name.value) else before.name)
            && f.email == (if body.email.Some? then NormalizeEmail(body.email.value) else before.email)
            && f.phoneNumber == (if body.phoneNumber.Some? then Some(Trim(body.phoneNumber.value)) else before.phoneNumber)
            && f.codeforcesHandle ==
                 (if body.codeforcesHandle.Some? then Some(Trim(body.codeforcesHandle.value)) else before.codeforcesHandle)
            && f.currentRating == body.currentRating.GetOr(before.currentRating)
            && f.maxRating == body.maxRating.GetOr(before.maxRating)
  {
    assert ValidatePatch(body).Success?;
    var n := Normalize(body);
    assert Update(s, id, body, env) == Apply(s, id, n, env);
    assert Update(s, id, body, env).0[id].fields == Merge(s[id].fields, n);
  }

  /** Re-submitting a record's own e-mail is not a duplicate. */
  lemma UpdateOwnEmail(s: Store, id: Id, body: StudentBody, env: Env)
    requires Valid(s) && id in s && env.fault.None? && ValidatePatch(body).Success?
    requires Merge(s[id].fields, Normalize(body)).email == s[id].fields.email
    ensures Update(s, id, body, env).1.Ok?
  {
  }

  // ---------------------------------------------------------------- delete

  /** `findByIdAndDelete`: removes exactly the record with that id. */
  function Delete(s: Store, id: Id, env: Env): (r: (Store, Outcome))
    ensures env.fault.Some? ==> r == (s, ServerError(env.fault.value))
    ensures env.fault.None? && id !in s ==> r == (s, NotFound)
    ensures r.1.Ok? <==> env.fault.None? && id in s
    ensures r.1.Ok? ==> r.0 == s - {id} && r.1.reply == Message(DeletedMessage) && |r.0| == |s| - 1
  {
    if env.fault.Some? then (s, ServerError(env.fault.value))
    else if id !in s then (s, NotFound)
    else (s - {id}, Ok(Message(DeletedMessage)))
  }

  lemma DeleteValid(s: Store, id: Id, env: Env)
    requires Valid(s)
    ensures Valid(Delete(s, id, env).0)
  {
  }

  /** Deleting the same id twice: the second request finds nothing. */
  lemma DeleteTwice(s: Store, id: Id, env1: Env, env2: Env)
    requires env2.fault.None?
    ensures Delete(s, id, env1).1.Ok? ==> Delete(Delete(s, id, env1).0, id, env2).1 == NotFound
  {
  }

  /** A record just created can be read back, and reading it changes nothing. */
  lemma CreateThenGet(s: Store, body: StudentBody, env: Env, env2: Env)
    requires Create(s, body, env).1.Ok? && env2.fault.None?
    ensures Get(Create(s, body, env).0, env.newId, env2) == Create(s, body, env).1
  {
  }
}

=== FILE: student_table.dfy ===
/**
 * The student list page: the search box filter, the rating tier behind each badge, the cells
 * shown for ratings and dates, the CSV export, the table body, and the list reducers the
 * add/edit/delete callbacks apply. Students are plain objects: the server's documents carry
 * `_id`, `phoneNumber` and `codeforcesHandle`, the mock service's records carry `id`,
 * `phone` and `cfHandle`, and whichever key a record lacks reads `undefined`.
 */
module StudentTable {
  import opened Wrappers
  import opened Ascii
  import opened Js
  import opened Lists

  // ---------------------------------------------------------------- search

  /** `v.toLowerCase().includes(term.toLowerCase())` on a string `v`. */
  predicate FieldMatches(v: Value, term: string) {
    v.Str? && Contains(ToLower(v.s), ToLower(term))
  }

  /** The search test of one student runs without a TypeError: `.toLowerCase()` is only reached
      on strings, and `||` stops at the first field that matches. */
  predicate SearchDefined(st: Record, term: string) {
    && Get(st, "name").Str?
    && (|| FieldMatches(Get(st, "name"), term)
        || (&& Get(st, "email").Str?
            && (FieldMatches(Get(st, "email"), term) || Get(st, "codeforcesHandle").Str?)))
  }

  /** The search keeps a student whose name, e-mail or handle contains the term, ignoring case. */
  predicate Matches(st: Record, term: string) {
    || FieldMatches(Get(st, "name"), term)
    || FieldMatches(Get(st, "email"), term)
    || FieldMatches(Get(st, "codeforcesHandle"), term)
  }

  /** `filteredStudents`: the matching students, each as often as it occurs, in their original
      order. */
  function Search(students: seq<Record>, term: string): (r: seq<Record>)
    requires forall i :: 0 <= i < |students| ==> SearchDefined(students[i], term)
    ensures IsSubseq(r, students)
    ensures forall st :: st in r <==> st in students && Matches(st, term)
    ensures forall st :: multiset(r)[st] == if Matches(st, term) then multiset(students)[st] else 0
  {
    Filter(students, st => Matches(st, term))
  }

  /** An empty search box shows every student. */
  lemma SearchEmptyKeepsAll(students: seq<Record>)
    requires forall i :: 0 <= i < |students| ==> SearchDefined(students[i], "")
    ensures Search(students, "") == students
  {
    forall i | 0 <= i < |students|
      ensures Matches(students[i], "")
    {
      ContainsEmpty(ToLower(Get(students[i], "name").s));
    }
    FilterKeepsAll(students, st => Matches(st, ""));
  }

  /** The case of the term does not matter. */
  lemma SearchIgnoresCase(students: seq<Record>, term: string)
    requires forall i :: 0 <= i < |students| ==> SearchDefined(students[i], term)
    ensures forall i :: 0 <= i < |students| ==> SearchDefined(students[i], ToLower(term))
    ensures Search(students, ToLower(term)) == Search(students, term)
  {
    ToLowerIdempotent(term);
    FilterExt(students, st => Matches(st, ToLower(term)), st => Matches(st, term));
  }

  lemma JaneMatches(jane: Record)
    requires jane == map["name" := Str("Jane Smith"), "email" := Str("jane@x.io"), "codeforcesHandle" := Str("js")]
    ensures Matches(jane, "jan")
  {
    assert ToLower("jan") == "jan";
    assert ToLower("Jane Smith") == "jane smith";
    assert "jane smith"[..3] == "jan";
  }

  /** A string without the letter a, in either case, does not match "jan". */
  lemma LacksA(s: string)
    requires 'a' !in s && 'A' !in s
    ensures !FieldMatches(Str(s), "jan")
  {
    assert ToLower("jan") == "jan";
    MissingAfterLower(s, 'a');
    NotContainsMissingChar(ToLower(s), "jan", 1);
  }

  lemma JohnMisses(john: Record)
    requires john == map["name" := Str("John Doe"), "email" := Str("john@x.io"), "codeforcesHandle" := Str("jd")]
    ensures !Matches(john, "jan")
  {
    assert Get(john, "name") == Str("John Doe");
    assert Get(john, "email") == Str("john@x.io");
    assert Get(john, "codeforcesHandle") == Str("jd");
    LacksA("John Doe");
    LacksA("john@x.io");
    LacksA("jd");
  }

  /** John Doe and Jane Smith, searched for "jan": only Jane is kept. */
  lemma SearchExample(john: Record, jane: Record)
    requires john == map["name" := Str("John Doe"), "email" := Str("john@x.io"), "codeforcesHandle" := Str("jd")]
    requires jane == map["name" := Str("Jane Smith"), "email" := Str("jane@x.io"), "codeforcesHandle" := Str("js")]
    ensures Search([john, jane], "jan") == [jane]
  {
    JaneMatches(jane);
    JohnMisses(john);
    var p := (st: Record) => Matches(st, "jan");
    var xs := [john, jane];
    assert xs[1..] == [jane] && xs[1..][1..] == [];
    assert Filter(xs[1..], p) == [jane];
  }

  // ---------------------------------------------------------------- rating tiers

  /** The badge colours, lowest first. */
  datatype Tier = Gray | Green | Teal | Blue | Purple | Red

  function Rank(t: Tier): (k: nat)
    ensures k <= 5
  {
    match t
    case Gray => 0
    case Green => 1
    case Teal => 2
    case Blue => 3
    case Purple => 4
    case Red => 5
  }

  /** The badge of a rating: the first threshold it reaches, tried from the top (2400 and 2100
      both give red). A value that converts to `NaN` reaches none. */
  function TierOf(v: Value): (t: Tier)
    ensures t == Red <==> AtLeast(v, 2100)
    ensures t == Gray <==> !AtLeast(v, 1200)
    ensures t != Gray ==> AtLeast(v, Floor(t))
  {
    if AtLeast(v, 2400) then Red
    else if AtLeast(v, 2100) then Red
    else if AtLeast(v, 1900) then Purple
    else if AtLeast(v, 1600) then Blue
    else if AtLeast(v, 1400) then Teal
    else if AtLeast(v, 1200) then Green
    else Gray
  }

  /** The least rating of each tier. */
  function Floor(t: Tier): int {
    match t
    case Gray => 0
    case Green => 1200
    case Teal => 1400
    case Blue => 1600
    case Purple => 1900
    case Red => 2100
  }

  /** A number is in tier `t` exactly when it reaches `t`'s floor (gray has none) and not the
      floor of the tier above. */
  lemma TierBands(n: int, t: Tier)
    ensures TierOf(Num(n)) == t <==>
              && (t == Gray || n >= Floor(t))
              && (forall u :: Rank(u) == Rank(t) + 1 ==> n < Floor(u))
  {
    var above := match t
      case Gray => Green case Green => Teal case Teal => Blue
      case Blue => Purple case Purple => Red case Red => Red;
    assert t != Red ==> Rank(above) == Rank(t) + 1;
    if TierOf(Num(n)) != t && (t == Gray || n >= Floor(t)) && t != Red {
      assert n >= Floor(above);
    }
  }

  /** A higher rating never gets a lower badge. */
  lemma TierMonotone(a: int, b: int)
    requires a <= b
    ensures Rank(TierOf(Num(a))) <= Rank(TierOf(Num(b)))
  {
  }

  /** `rating || 'N/A'`: a falsy rating (0, absent, null) shows 'N/A'. */
  function RatingCell(v: Value): (r: Value)
    ensures Truthy(v) ==> r == v
    ensures !Truthy(v) ==> r == Str("N/A")
  {
    Or(v, Str("N/A"))
  }

  lemma RatingCellZero()
    ensures RatingCell(Num(0)) == Str("N/A") && RatingCell(Undefined) == Str("N/A")
    ensures forall n :: n > 0 ==> RatingCell(Num(n)) == Num(n)
  {
  }

  /** A date column: the timestamp formatted for the locale, or 'Never'. */
  datatype Cell = Plain(v: Value) | LocaleDate(v: Value)

  function DateCell(v: Value): (c: Cell)
    ensures c == Plain(Str("Never")) <==> !Truthy(v)
    ensures Truthy(v) ==> c == LocaleDate(v)
  {
    if Truthy(v) then LocaleDate(v) else Plain(Str("Never"))
  }

  // ---------------------------------------------------------------- CSV export

  const Header: seq<string> :=
    ["Name", "Email", "Phone", "Codeforces Handle", "Current Rating", "Max Rating", "Last Updated"]

  function CsvRow(st: Record): (r: seq<Cell>)
    ensures |r| == |Header|
    ensures r[0] == Plain(Get(st, "name")) && r[1] == Plain(Get(st, "email"))
    ensures r[2] == Plain(Get(st, "phoneNumber")) && r[3] == Plain(Get(st, "codeforcesHandle"))
    ensures r[4] == Plain(Str("N/A")) <==> !Truthy(Get(st, "currentRating")) || Get(st, "currentRating") == Str("N/A")
    ensures r[5] == Plain(Str("N/A")) <==> !Truthy(Get(st, "maxRating")) || Get(st, "maxRating") == Str("N/A")
    ensures r[6] == Plain(Str("Never")) <==> !Truthy(Get(st, "updatedAt"))
    ensures r[4] == Plain(RatingCell(Get(st, "currentRating"))) && r[5] == Plain(RatingCell(Get(st, "maxRating")))
    ensures r[6] == DateCell(Get(st, "updatedAt"))
  {
    [Plain(Get(st, "name")), Plain(Get(st, "email")), Plain(Get(st, "phoneNumber")),
     Plain(Get(st, "codeforcesHandle")),
     Plain(RatingCell(Get(st, "currentRating"))), Plain(RatingCell(Get(st, "maxRating"))),
     DateCell(Get(st, "updatedAt"))]
  }

  /** The record keys the export reads, column by column. */
  const CsvKeys: seq<string> :=
    ["name", "email", "phoneNumber", "codeforcesHandle", "currentRating", "maxRating", "updatedAt"]

  /** What an exported row keeps of a record: when both records have truthy ratings and a truthy
      update time, their rows agree exactly when the seven exported keys agree; and a falsy rating
      (0, absent, `null`) is exported as 'N/A' whichever falsy value it was. */
  lemma CsvRowDistinguishes(a: Record, b: Record)
    ensures (forall i :: 4 <= i < 7 ==> Truthy(Get(a, CsvKeys[i])) && Truthy(Get(b, CsvKeys[i]))) ==>
              (CsvRow(a) == CsvRow(b) <==> forall i :: 0 <= i < 7 ==> Get(a, CsvKeys[i]) == Get(b, CsvKeys[i]))
    ensures (&& !Truthy(Get(a, "currentRating")) && !Truthy(Get(b, "currentRating"))
             && forall i :: 0 <= i < 7 && i != 4 ==> Get(a, CsvKeys[i]) == Get(b, CsvKeys[i])) ==>
              CsvRow(a) == CsvRow(b)
  {
    var ra, rb := CsvRow(a), CsvRow(b);
    if forall i :: 0 <= i < 7 && i != 4 ==> Get(a, CsvKeys[i]) == Get(b, CsvKeys[i]) {
      SameColumns(a, b, 0); SameColumns(a, b, 1); SameColumns(a, b, 2); SameColumns(a, b, 3);
      SameColumns(a, b, 5); SameColumns(a, b, 6);
      if !Truthy(Get(a, "currentRating")) && !Truthy(Get(b, "currentRating")) {
        assert ra[4] == rb[4];
        assert ra == rb;
      }
      if Get(a, CsvKeys[4]) == Get(b, CsvKeys[4]) {
        SameColumns(a, b, 4);
        assert ra == rb;
      }
    }
    if (forall i :: 4 <= i < 7 ==> Truthy(Get(a, CsvKeys[i])) && Truthy(Get(b, CsvKeys[i]))) && ra == rb {
      forall i | 0 <= i < 7
        ensures Get(a, CsvKeys[i]) == Get(b, CsvKeys[i])
      {
        assert ra[i] == rb[i];
        assert Truthy(Get(a, CsvKeys[i])) && Truthy(Get(b, CsvKeys[i])) ==> ra[i].v == Get(a, CsvKeys[i]);
      }
    }
  }

  /** Column `i` of the export shows what key `CsvKeys[i]` holds, through its cell format. */
  lemma SameColumns(a: Record, b: Record, i: int)
    requires 0 <= i < 7 && Get(a, CsvKeys[i]) == Get(b, CsvKeys[i])
    ensures CsvRow(a)[i] == CsvRow(b)[i]
  {
  }

  /** `csvData`: the header, then one row per student of the unfiltered list, in order. */
  function CsvData(students: seq<Record>): (r: seq<seq<Cell>>)
    ensures |r| == |students| + 1
    ensures r[0] == Map(Header, (h: string) => Plain(Str(h)))
    ensures forall i :: 0 <= i < |r| ==> |r[i]| == 7
    ensures forall i :: 0 <= i < |students| ==> r[i + 1] == CsvRow(students[i])
  {
    [Map(Header, (h: string) => Plain(Str(h)))] + Map(students, CsvRow)
  }

  // ---------------------------------------------------------------- the page

  datatype Body = Spinner | Rows(rows: seq<Record>) | NoStudentsFound

  /** What the page shows. The filter is computed on every render, before the loading test. */
  function Page(students: seq<Record>, loading: bool, term: string): (b: Body)
    requires forall i :: 0 <= i < |students| ==> SearchDefined(students[i], term)
    ensures loading <==> b == Spinner
    ensures !loading ==> (b == NoStudentsFound <==> Search(students, term) == [])
    ensures b.Rows? ==> b.rows == Search(students, term) && |b.rows| > 0
  {
    var shown := Search(students, term);
    if loading then Spinner
    else if |shown| > 0 then Rows(shown)
    else NoStudentsFound
  }

  // ---------------------------------------------------------------- list reducers

  /** `onStudentAdded`: the new student appended at the end. */
  function Added(students: seq<Record>, x: Record): (r: seq<Record>)
    ensures |r| == |students| + 1 && r[..|students|] == students && r[|students|] == x
  {
    students + [x]
  }

  /** Each entry whose `id` is strictly equal to `key` becomes `upd`; the others stay where
      they are. */
  function ReplaceWhereId(list: seq<Record>, key: Value, upd: Record): (r: seq<Record>)
    ensures |r| == |list|
    ensures forall i :: 0 <= i < |list| ==>
              r[i] == if StrictEq(Get(list[i], "id"), key) then upd else list[i]
  {
    Map(list, (s: Record) => if StrictEq(Get(s, "id"), key) then upd else s)
  }

  /** `onStudentUpdated`: entries with the updated student's `id` are replaced by it. */
  function Edited(list: seq<Record>, upd: Record): (r: seq<Record>)
    ensures |r| == |list|
    ensures forall i :: 0 <= i < |list| && !StrictEq(Get(list[i], "id"), Get(upd, "id")) ==> r[i] == list[i]
    ensures forall i :: 0 <= i < |list| && StrictEq(Get(list[i], "id"), Get(upd, "id")) ==> r[i] == upd
  {
    ReplaceWhereId(list, Get(upd, "id"), upd)
  }

  /** Replacing twice with the same record is replacing once. */
  lemma EditedIdempotent(list: seq<Record>, upd: Record)
    ensures Edited(Edited(list, upd), upd) == Edited(list, upd)
  {
    var once := Edited(list, upd);
    var twice := Edited(once, upd);
    forall i | 0 <= i < |list|
      ensures twice[i] == once[i]
    {
      if StrictEq(Get(list[i], "id"), Get(upd, "id")) {
        assert once[i] == upd;
      }
    }
  }

  /** As written, the test compares `id`, which the server's documents do not have: for a
      student without `id`, `undefined === undefined` holds for every such entry, and all of
      them are replaced. */
  lemma EditedWithoutId(list: seq<Record>, upd: Record)
    requires "id" !in upd
    requires forall i :: 0 <= i < |list| ==> "id" !in list[i]
    ensures Edited(list, upd) == seq(|list|, _ => upd)
  {
  }

  /** Every entry whose `_id` is strictly equal to `id` removed, the rest in order. */
  function Deleted(list: seq<Record>, id: Value): (r: seq<Record>)
    ensures IsSubseq(r, list)
    ensures forall s :: s in r <==> s in list && !StrictEq(Get(s, "_id"), id)
    ensures forall s :: multiset(r)[s] == if StrictEq(Get(s, "_id"), id) then 0 else multiset(list)[s]
  {
    Filter(list, (s: Record) => !StrictEq(Get(s, "_id"), id))
  }

  lemma DeletedIdempotent(list: seq<Record>, id: Value)
    ensures Deleted(Deleted(list, id), id) == Deleted(list, id)
  {
    FilterIdempotent(list, (s: Record) => !StrictEq(Get(s, "_id"), id));
  }

  /** As written, deleting a mock record (it has `id` but no `_id`) passes `undefined` and
      removes every entry that lacks `_id`. */
  lemma DeletedWithoutUnderscoreId(list: seq<Record>)
    requires forall i :: 0 <= i < |list| ==> "_id" !in list[i]
    ensures Deleted(list, Undefined) == []
  {
  }

  /** The confirmation's `onConfirm`: when the delete request succeeds, 'Student Deleted' is
      alerted and the entries removed; when it fails, 'Delete failed' is alerted and the list
      stays as it was. */
  function DeleteConfirmed(list: seq<Record>, selected: Record, succeeded: bool): (r: (seq<Record>, string))
    ensures succeeded ==> r.1 == "Student Deleted" && IsSubseq(r.0, list)
    ensures succeeded ==> forall s :: s in r.0 <==> s in list && !StrictEq(Get(s, "_id"), Get(selected, "_id"))
    ensures succeeded ==>
              forall s :: multiset(r.0)[s] == if StrictEq(Get(s, "_id"), Get(selected, "_id")) then 0 else multiset(list)[s]
    ensures !succeeded ==> r == (list, "Delete failed")
  {
    if succeeded then (Deleted(list, Get(selected, "_id")), "Student Deleted") else (list, "Delete failed")
  }
}

=== FILE: sync_settings.dfy ===
/**
 * The sync-settings tab of the profile page: the form's starting values taken from the
 * student record, the hour and frequency options, the payload sent on submit, and the
 * saving / saved flags.
 */
module SyncSettings {
  import opened Wrappers
  import opened Ascii
  import opened Js

  datatype Settings = Settings(
    syncTime: Value, syncFrequency: Value, emailReminders: bool, reminderCount: Value,
    isSaving: bool, saveSuccess: bool)

  /** The form as first rendered for `student`. */
  function Init(student: Record): (s: Settings)
    ensures Truthy(Get(student, "syncTime")) ==> s.syncTime == Get(student, "syncTime")
    ensures !Truthy(Get(student, "syncTime")) ==> s.syncTime == Str("02:00")
    ensures Truthy(Get(student, "syncFrequency")) ==> s.syncFrequency == Get(student, "syncFrequency")
    ensures !Truthy(Get(student, "syncFrequency")) ==> s.syncFrequency == Str("daily")
    ensures s.emailReminders <==> Get(student, "emailReminders") != Bool(false)
    ensures Truthy(Get(student, "reminderCount")) ==> s.reminderCount == Get(student, "reminderCount")
    ensures !Truthy(Get(student, "reminderCount")) ==> s.reminderCount == Num(0)
    ensures !s.isSaving && !s.saveSuccess
  {
    Settings(
      Or(Get(student, "syncTime"), Str("02:00")),
      Or(Get(student, "syncFrequency"), Str("daily")),
      !StrictEq(Get(student, "emailReminders"), Bool(false)),
      Or(Get(student, "reminderCount"), Num(0)),
      false, false)
  }

  /** Only an explicit `false` turns the reminders off at first: a missing, `null`, `0` or empty
      setting leaves them on. */
  lemma RemindersDefaultOn(student: Record)
    requires !Truthy(Get(student, "emailReminders")) && Get(student, "emailReminders") != Bool(false)
    ensures Init(student).emailReminders
    ensures Init(student - {"emailReminders"}).emailReminders
    ensures !Init(student["emailReminders" := Bool(false)]).emailReminders
  {
    assert Get(student - {"emailReminders"}, "emailReminders") == Undefined;
    assert Get(student["emailReminders" := Bool(false)], "emailReminders") == Bool(false);
  }

  // ---------------------------------------------------------------- options

  /** The option for hour `i`: the hour as two digits, then ':00'. */
  function HourOption(i: nat): (r: string)
    ensures |r| >= 5 && r[|r| - 3] == ':' && r[|r| - 2] == '0' && r[|r| - 1] == '0'
  {
    PadStart(NatToString(i), 2, '0') + ":00"
  }

  /** `Array.from({ length: 24 }, ...)`: the 24 hour options. */
  function TimeOptions(): (r: seq<string>)
    ensures |r| == 24
    ensures forall i :: 0 <= i < 24 ==> r[i] == HourOption(i)
  {
    seq(24, i requires 0 <= i < 24 => HourOption(i))
  }

  /** Code-unit order of strings, as JavaScript's `<` compares them. */
  predicate LexLess(a: string, b: string)
    decreases |a|
  {
    |b| > 0 && (|a| == 0 || a[0] < b[0] || (a[0] == b[0] && LexLess(a[1..], b[1..])))
  }

  /** An hour below 24 is written as its tens digit, its units digit, and ':00'. */
  lemma HourDigits(i: nat)
    requires i < 24
    ensures HourOption(i) == [DigitChar(i / 10), DigitChar(i % 10), ':', '0', '0']
  {
    var t := NatToString(i);
    var p := PadStart(t, 2, '0');
    var tens, units := i / 10, i % 10;
    if i < 10 {
      assert tens == 0 && units == i;
      assert t == [DigitChar(units)];
      assert p[0] == '0' == DigitChar(tens);
      assert p[1] == t[0];
      assert p == [DigitChar(tens), DigitChar(units)];
    } else {
      assert NatToString(tens) == [DigitChar(tens)];
      assert t == NatToString(tens) + [DigitChar(units)];
      assert p == t;
    }
    assert HourOption(i) == p + ":00";
  }

  /** The options run from '00:00' to '23:00'; `parseInt` reads each one back as its hour, and
      they are in increasing order, hence distinct. */
  lemma TimeOptionsOrdered(i: nat, j: nat)
    requires i < j < 24
    ensures TimeOptions()[0] == "00:00" && TimeOptions()[23] == "23:00"
    ensures ParseInt(TimeOptions()[i]) == Some(i)
    ensures LexLess(TimeOptions()[i], TimeOptions()[j])
    ensures TimeOptions()[i] != TimeOptions()[j]
  {
    TimeOptionsEnds();
    OptionParses(i);
    OptionsLess(i, j);
  }

  lemma TimeOptionsEnds()
    ensures TimeOptions()[0] == "00:00" && TimeOptions()[23] == "23:00"
  {
    assert TimeOptions()[0] == HourOption(0) && TimeOptions()[23] == HourOption(23);
    HourDigits(0);
    HourDigits(23);
  }

  lemma OptionParses(i: nat)
    requires i < 24
    ensures ParseInt(TimeOptions()[i]) == Some(i)
  {
    assert TimeOptions()[i] == HourOption(i);
    HourParses(i);
  }

  lemma OptionsLess(i: nat, j: nat)
    requires i < j < 24
    ensures LexLess(TimeOptions()[i], TimeOptions()[j]) && TimeOptions()[i] != TimeOptions()[j]
  {
    assert TimeOptions()[i] == HourOption(i) && TimeOptions()[j] == HourOption(j);
    HourLess(i, j);
  }

  lemma HourLess(i: nat, j: nat)
    requires i < j < 24
    ensures LexLess(HourOption(i), HourOption(j)) && HourOption(i) != HourOption(j)
  {
    HourDigits(i);
    HourDigits(j);
    DigitsLess(i / 10, i % 10, j / 10, j % 10);
  }

  /** Two-digit hours compare in code-unit order as they compare as numbers. */
  lemma DigitsLess(a1: nat, a0: nat, b1: nat, b0: nat)
    requires a1 < 10 && a0 < 10 && b1 < 10 && b0 < 10
    requires a1 * 10 + a0 < b1 * 10 + b0
    ensures var a, b := [DigitChar(a1), DigitChar(a0), ':', '0', '0'], [DigitChar(b1), DigitChar(b0), ':', '0', '0'];
            LexLess(a, b) && a != b
  {
    var a, b := [DigitChar(a1), DigitChar(a0), ':', '0', '0'], [DigitChar(b1), DigitChar(b0), ':', '0', '0'];
    if a1 == b1 {
      assert a[0] == b[0] && a[1..][0] < b[1..][0];
      assert LexLess(a[1..], b[1..]);
    } else {
      assert a[0] < b[0];
    }
    assert a[0] != b[0] || a[1] != b[1];
  }

  lemma HourParses(i: nat)
    requires i < 24
    ensures ParseInt(HourOption(i)) == Some(i)
  {
    HourDigits(i);
    DigitsParse(i / 10, i % 10);
    assert [DigitChar(i / 10), DigitChar(i % 10)] + ":00" == HourOption(i);
  }

  lemma DigitsParse(tens: nat, units: nat)
    requires tens < 10 && units < 10
    ensures ParseInt([DigitChar(tens), DigitChar(units)] + ":00") == Some(tens * 10 + units)
  {
    ParseLeadingDigits([DigitChar(tens), DigitChar(units)], ":00");
    TwoDigits(tens, units);
  }

  lemma TwoDigits(tens: nat, units: nat)
    requires tens < 10 && units < 10
    ensures DigitsValue([DigitChar(tens), DigitChar(units)]) == tens * 10 + units
  {
    var a, b := DigitChar(tens), DigitChar(units);
    assert [a, b][..1] == [a];
    assert [a][..0] == [];
    assert DigitsValue([a]) == tens;
  }

  /** The frequency options, in order. */
  const FrequencyOptions: seq<string> := ["daily", "weekly", "monthly"]

  /** The form's fallback values are offered by its selects: '02:00' is the third hour option and
      'daily' the first frequency; the three frequencies are different. */
  lemma DefaultsOffered(student: Record)
    ensures !Truthy(Get(student, "syncTime")) ==> Init(student).syncTime == Str(TimeOptions()[2])
    ensures !Truthy(Get(student, "syncFrequency")) ==> Init(student).syncFrequency == Str(FrequencyOptions[0])
    ensures |FrequencyOptions| == 3 && forall i, j :: 0 <= i < j < 3 ==> FrequencyOptions[i] != FrequencyOptions[j]
  {
    assert TimeOptions()[2] == HourOption(2);
    HourDigits(2);
  }

  // ---------------------------------------------------------------- editing and submitting

  function SetTime(s: Settings, v: string): (t: Settings)
    ensures t.syncTime == Str(v) && t == s.(syncTime := t.syncTime)
  {
    s.(syncTime := Str(v))
  }

  function SetFrequency(s: Settings, v: string): (t: Settings)
    ensures t.syncFrequency == Str(v) && t == s.(syncFrequency := t.syncFrequency)
  {
    s.(syncFrequency := Str(v))
  }

  function SetReminders(s: Settings, on: bool): (t: Settings)
    ensures t.emailReminders == on && t == s.(emailReminders := on)
  {
    s.(emailReminders := on)
  }

  /** The body `updateSyncSettings` receives. */
  function Payload(s: Settings): (p: Record)
    ensures p.Keys == {"syncTime", "syncFrequency", "emailReminders"}
    ensures "reminderCount" !in p
    ensures p["syncTime"] == s.syncTime && p["syncFrequency"] == s.syncFrequency
    ensures p["emailReminders"] == Bool(s.emailReminders)
  {
    map["syncTime" := s.syncTime, "syncFrequency" := s.syncFrequency, "emailReminders" := Bool(s.emailReminders)]
  }

  /** The submit handler up to the request: the button is disabled while saving. */
  function SubmitStarted(s: Settings): (t: Settings)
    ensures t.isSaving && t == s.(isSaving := true)
  {
    s.(isSaving := true)
  }

  /** The request settled: on success the saved notice shows; either way saving ends. */
  function SubmitSettled(s: Settings, succeeded: bool): (t: Settings)
    ensures !t.isSaving
    ensures succeeded ==> t.saveSuccess
    ensures !succeeded ==> t.saveSuccess == s.saveSuccess
    ensures t.syncTime == s.syncTime && t.syncFrequency == s.syncFrequency
    ensures t.emailReminders == s.emailReminders && t.reminderCount == s.reminderCount
  {
    if succeeded then s.(saveSuccess := true, isSaving := false) else s.(isSaving := false)
  }

  /** The timer three seconds after a successful save. */
  function NoticeExpired(s: Settings): (t: Settings)
    ensures !t.saveSuccess && t == s.(saveSuccess := false)
  {
    s.(saveSuccess := false)
  }

  /** A submit from the initial form ends with saving off whatever happens; only success shows
      the saved notice, and the payload never carries the reminder count. */
  lemma SubmitFromInit(student: Record, succeeded: bool)
    ensures var t := SubmitSettled(SubmitStarted(Init(student)), succeeded);
            !t.isSaving && (t.saveSuccess <==> succeeded)
    ensures "reminderCount" !in Payload(Init(student))
  {
  }
}

=== FILE: wrappers.dfy ===
/** Option and Result, the failure-carrying datatypes the rest of the model uses. */
module Wrappers {

  /** A value that may be absent (`undefined` / `null` in the JavaScript being modelled). */
  datatype Option<+T> = None | Some(value: T) {

    /** The value, or `default` when absent. */
    function GetOr(default: T): T {
      match this
      case Some(v) => v
      case None => default
    }
  }

  /** Either a value or an error. */
  datatype Result<+R, +E> = Success(value: R) | Failure(error: E)
}
